=== FILE: README.md ===
# Fan-site backend: a verified model of its request handlers

This project models the request handlers of a Flask and MongoDB backend
for a basketball fan site. It covers:

- the news crawlers and search (Rookie and Jumpball);
- the latest-news pick;
- accounts (sign-up, login, nickname check) and the signed-in user's profile;
- events and their photos, public and administrative;
- the administrator's photo stores;
- the guestbook, public and administrative;
- the game diary;
- the administrator's schedule, season statistics and player profile.

Storage is modelled as follows:

- A MongoDB collection is a `Store.Collection<T>`. It is an object whose
  `docs` sequence the handlers reassign.
- A GridFS bucket is a `Store.BlobStore`, holding the set of ObjectIds of
  its files.
- An ObjectId is a number below 16^24. Its text form is 24 hexadecimal
  digits.
- The parts of BSON that the handlers compare are modelled: values, their
  sort order, and the `skip`/`limit` window.

The model keeps each handler's shape:

- A handler that changes stored data is a `method` with `modifies`. Its
  `ensures` spell out the status code and the new state on every path.
- A loop in the source is a `while` loop. Its specification is a function
  of the inputs, and lemmas prove what that function means.
- A handler that only reads is a function, or a method when the source
  loops.

Things outside the program are parameters:

- the clock (`now`);
- freshly generated ObjectIds;
- the web pages a crawler fetches (`fetch`);
- the database's `$regex` test, and whether it accepts a query as a pattern;
- base64 encoding of blobs (`encode`);
- image re-encoding;
- password hashing;
- date parsing.

Python semantics are written out in module `Python`: truthiness, `in` on
strings, `str.strip`, `split('/')[-1]`, negative indexing, slicing and
floor division. pymongo semantics are written out in modules `Bson` and
`Store`:

- the sort is applied before skip and limit, whatever the call order;
- a negative skip raises;
- `limit(0)` means no limit;
- `find_one`, `update_one` and `delete_one` act on the first match;
- `$set` merges fields;
- an upsert inserts when nothing matches;
- `{"season": None}` also matches a missing field.

## Model

| member | source | states |
|---|---|---|
| Python.ContainsIff | routes/newsrookie_routes.py:34 | `query in s` holds exactly when `query` occurs as a contiguous piece of `s` |
| Python.StripTrims | routes/newsrookie_routes.py:32-33 | a stripped text neither starts nor ends with whitespace; it is no longer than the input; a text without outer whitespace is unchanged |
| Python.StripIdempotent | routes/newsjump_routes.py:30 | stripping twice is stripping once |
| Python.LastSegmentOfPath | routes/user_routes.py:45 | `split('/')[-1]` of a directory ending in '/' followed by a segment without '/' is that segment |
| Python.Index | routes/admin/event_routes.py:97 | Python list indexing: defined exactly for `-len <= i < len`; negative indices count from the end |
| Python.SliceWindow | routes/event_routes.py:58 | for `0 <= i <= j`, `xs[i:j]` has at most `j - i` elements, the `k`-th being `xs[i + k]`, and exactly `j - i` when they exist |
| Python.FloorDiv | routes/event_routes.py:66 | `//` floors: `q * b <= a < q * b + b` for a positive divisor, mirrored for a negative one |
| Python.FilterMembers | routes/diary_routes.py:90 | a query filter keeps exactly the documents that pass its test |
| Python.FilterPartition | routes/guestbook_routes.py:42-50 | filtering by a test and by its negation splits a list into two parts whose multisets add up to the list |
| Bson.SortByCorrect | routes/event_routes.py:13 | `sort(key, ±1)` returns a permutation of the documents, ordered by the key in BSON order |
| Bson.WindowOfSorted | routes/admin/guestbook_routes.py:23 | a `skip`/`limit` window of a sorted result is sorted and holds only documents of the result |
| Bson.Window | routes/guestbook_routes.py:92 | a negative skip raises; otherwise the window is the documents from `skip` on, with `limit` 0 meaning all and a negative limit its absolute value |
| Bson.ParseOid | routes/event_routes.py:27 | `ObjectId(s)` succeeds exactly for 24 hexadecimal digits |
| Bson.OidRoundTrip | routes/admin/event_routes.py:74 | the text of an ObjectId, `str(id)`, parses back to the same id |
| Bson.OidTextInjective | routes/admin/event_routes.py:74 | two ids have the same text exactly when they are equal |
| Store.FindFirst | routes/auth_routes.py:28 | `find_one` gives the first document that matches, and `None` exactly when none does |
| Store.RemoveAt | routes/admin/schedule_routes.py:68 | removing the document `delete_one` found drops exactly that one copy and keeps the others in their order |
| Store.PutAll | routes/admin/event_routes.py:72-74 | storing uploads under fresh ids adds exactly those ids to the bucket and returns their texts in upload order |
| NewsRookie.ExtractItem | routes/newsrookie_routes.py:29-47 | an item without a title anchor, or with a lead whose stripped title and lead both miss the query, is skipped. A missing lead raises, and so does a match without `href` or with a thumbnail lacking `src`. Every other item is kept: its stripped title or summary contains the query, its link starts with the site root, and it is stamped with the crawl time |
| NewsRookie.ExtractItemFields | routes/newsrookie_routes.py:32-45 | a kept article's title and summary are the stripped anchor and lead texts; its link is the site root plus the `href`; its image is the thumbnail `src`, or None without a thumbnail |
| NewsRookie.CrawlIgnoresFailedPages | routes/newsrookie_routes.py:21-24 | a page that does not answer 200 neither contributes nor stops the crawl: crawls that agree on the pages that answer 200 or raise give the same outcome |
| NewsRookie.CrawlAllPagesFailed | routes/newsrookie_routes.py:14-24 | when no page answers 200 the crawl finds nothing |
| NewsRookie.CrawlRaisedStays | routes/newsrookie_routes.py:28-50 | an exception on one page ends the whole crawl |
| NewsRookie.CrawlFetchRaises | routes/newsrookie_routes.py:21 | a request that raises on any page ends the whole crawl |
| NewsRookie.PageLoop | routes/newsrookie_routes.py:28-50 | the entry loop of one page computes that page's articles in entry order, or the exception |
| NewsRookie.CollectArticles | routes/newsrookie_routes.py:14-51 | the page loop visits pages 1..47 in order and yields the articles of the answering pages, page after page |
| NewsRookie.CrawlData | routes/newsrookie_routes.py:8-58 | the collection grows by exactly the returned articles; an exception stores nothing |
| NewsRookie.NewestIsLatest | routes/newsrookie_routes.py:76 | `find_one(sort=created_at desc)` is a stored article with the greatest `created_at` |
| NewsRookie.CrawlDueIff | routes/newsrookie_routes.py:68-77 | a crawl runs exactly when no stored article was created within the last 60 days (the store is empty or its newest article is strictly older) |
| NewsRookie.CachedCorrect | routes/newsrookie_routes.py:69-73 | the cached results are exactly the stored articles whose title or summary matches, each as often as it is stored, newest first |
| NewsRookie.SearchRookie | routes/newsrookie_routes.py:60-83 | a missing or empty `q` is a 400 that changes nothing; a `q` the database rejects as a regular expression is a 500 that crawls and stores nothing; otherwise the answer is the cached matches, preceded by the fresh crawl when one is due; a crawl that raises is a 500 |
| NewsJump.JumpExtract | routes/newsjump_routes.py:28-38 | an item is kept exactly when it has a title anchor whose stripped text contains the query and an `href`; the summary plays no part in matching; the summary defaults to "No summary available"; the link is the site root plus the `href` |
| NewsJump.CrawlFrom | routes/newsjump_routes.py:13-44 | the returned articles are sorted by link, descending, and all match the query |
| NewsJump.FirstAnsweringPage | routes/newsjump_routes.py:13-44 | the crawl returns the sorted matches of the first page that answers 200, whatever later pages hold |
| NewsJump.NoAnsweringPage | routes/newsjump_routes.py:13-24 | when none of pages 1..40 answers 200, the function falls off its loop and returns None |
| NewsJump.JumpPageLoop | routes/newsjump_routes.py:27-39 | the entry loop computes the page's matches in entry order, or the exception |
| NewsJump.CrawlJump | routes/newsjump_routes.py:7-44 | the page loop's outcome is the crawl's specification |
| NewsJump.SearchJumpball | routes/newsjump_routes.py:46-53 | a missing or empty query is a 400; any other query ends the handler without a response, because the crawl call comes after the `return` |
| News.LatestWithImage | routes/news_routes.py:14-22 | the candidate of one source exists exactly when some article has an image; it has one and the greatest `created_at` among those that do |
| News.GetLatestNews | routes/news_routes.py:6-44 | a 404 exactly when neither source has an article with an image; otherwise the newest such article of either source, returned unchanged |
| News.TieGoesToJumpball | routes/news_routes.py:25-26 | when both candidates have the same `created_at`, the Jumpball one is chosen |
| News.OneSourceOnly | routes/news_routes.py:27-30 | with only one candidate, that one is chosen |
| Auth.HasSpecialIff | routes/auth_routes.py:12 | the regular-expression search finds a special character exactly when the password holds one |
| Auth.ValidatePassword | routes/auth_routes.py:9-14 | valid exactly when 8 <= length <= 16 and some character is one of `!@#$%^&*(),.?":{}|<>` |
| Auth.SignUp | routes/auth_routes.py:16-39 | checks run in order: password rule (400), then confirmation (400), then existing nickname (409); any failure inserts nothing; success (201) inserts exactly one user with the hashed password and empty description and photo, and keeps nicknames unique |
| Auth.Login | routes/auth_routes.py:41-51 | 200 exactly when the user exists and the hash check passes; otherwise 401; a missing password for an existing user is a 500 |
| Auth.NicknameCheck | routes/auth_routes.py:53-60 | 409 exactly when a user has the nickname, 200 exactly when none has; it only reads |
| UserProfile.PhotoRefRoundTrip | routes/user_routes.py:45-54 | the stored reference `/api/photo/<id>` reads back, through its last '/' segment, as `<id>` |
| UserProfile.UpdateSetFor | routes/user_routes.py:35-54 | the update holds `description` exactly when it is truthy, and `photo` exactly when a file was uploaded, referring to the new blob |
| UserProfile.UpdateProfile | routes/user_routes.py:16-74 | unknown caller: 404; neither description nor photo: 400; both change nothing. Otherwise the old blob is deleted when its reference parses, and a failure there does not stop the update. The new blob is stored and the update set applied. The answer is 200 with the update set exactly when something changed, else 500 |
| UserProfile.GetUserInfo | routes/user_routes.py:78-117 | 404 exactly for an unknown caller; description defaults to ""; `photoUrl` is "" unless the reference parses, names a stored blob and converts, and then it is the JPEG data-URL prefix followed by the converted image |
| Events.EventList | routes/event_routes.py:9-21 | the list is a permutation of the events, newest date first |
| Events.CheckFieldsOf | routes/event_routes.py:30-34 | each of `check_1..3` is the stored value or "" |
| Events.GetEventDetail | routes/event_routes.py:24-42 | a malformed id is a 500 and an unknown one a 404; otherwise the event's fields, `checkFields` and an empty photo list |
| Events.EncodedPhotos | routes/event_routes.py:57-64 | the photos fail exactly when some id is not an ObjectId; otherwise they are the encodings of the parsed ids that name stored blobs, in list order, with missing blobs skipped |
| Events.EncodedPhotosFromIds | routes/event_routes.py:57-64 | there are no more photos than ids, and each is the encoding of a listed id's stored blob |
| Events.EncodePhotos | routes/event_routes.py:57-64 | the photo loop computes exactly its specification |
| Events.TotalPagesCeiling | routes/event_routes.py:66 | for a positive page size the page count is the ceiling of photos / page size; it is 0 exactly when there are no photos |
| Events.PagesArePrefix | routes/event_routes.py:53-58 | pages 1..n together are the first `n * page_size` photo ids, in order |
| Events.PagesCoverPhotos | routes/event_routes.py:53-66 | pages 1..total_pages together are exactly the photo ids |
| Events.GetEventPhotos | routes/event_routes.py:44-84 | a missing event or one without photos gives an empty page 1 with totals 0; otherwise the page's slice of encoded photos, the total and the ceiling page count; a page holds at most `page_size` photos; bad ids and a zero page size are 500 |
| AdminEvents.AdminView | routes/admin/event_routes.py:17-40 | `checkFields` exactly when one of `check_1..3` is set; photos are the encodings of the stored blobs, or [] without a `photos` field |
| AdminEvents.GetAdminEvents | routes/admin/event_routes.py:12-45 | every event is shaped in stored order; a bad photo id anywhere fails the listing |
| AdminEvents.CollectCheckFields | routes/admin/event_routes.py:55-58 | the collected fields are exactly the form keys starting with `check_`, with their values |
| AdminEvents.PostEvents | routes/admin/event_routes.py:47-83 | one event is appended with title, url and description defaulting to "", the time and the check fields; its `photos` are the uploaded blobs' ids in upload order, and the bucket grows by exactly those blobs. The new id finds the appended event, which is the one the `photos` update targets |
| AdminEvents.Pull | routes/admin/event_routes.py:101-104 | `$pull` leaves no occurrence of the id |
| AdminEvents.PullCounts | routes/admin/event_routes.py:101-104 | every other id keeps its number of occurrences |
| AdminEvents.PullKeepsOrder | routes/admin/event_routes.py:101-104 | `$pull` works piece by piece, so the other ids keep their order |
| AdminEvents.LookupEvent | routes/admin/event_routes.py:93-95 | a null `eventId` finds no event, a value that is not an ObjectId's text fails, and an ObjectId finds the first event with that id |
| AdminEvents.DeletePhoto | routes/admin/event_routes.py:85-108 | a missing key is a 500; a null or unknown event is a 404; a missing photo list, a non-integer index, an index out of range or a bad photo id is a 500; all of these change nothing. Otherwise the blob at Python index `photoIndex` is deleted and its id pulled from the event |
| AdminEvents.LeadingIds | routes/admin/event_routes.py:121-126 | the ids before the first text that is not an ObjectId |
| AdminEvents.LeadingIdsAll | routes/admin/event_routes.py:121-126 | every photo id parses exactly when the leading ids are all of them |
| AdminEvents.DeleteEventPhotos | routes/admin/event_routes.py:121-126 | the blob loop deletes the leading ids' blobs, and a missing blob is no error; it succeeds exactly when every id parses |
| AdminEvents.DeleteEvent | routes/admin/event_routes.py:110-132 | a missing or malformed `eventId` is a 500, and a null or unknown event a 404, both changing nothing; otherwise its blobs are deleted, then the event; a bad photo id stops with a 500 and keeps the event |
| AdminPhotos.PostPhoto | routes/admin/photo_routes.py:10-19 | the administrator's bucket gains one blob per uploaded file |
| AdminPhotos.FreshIdsCount | routes/admin/photo_routes.py:15-16 | fresh, pairwise different ids add exactly their number to a bucket |
| AdminPhotos.GetPhoto | routes/admin/photo_routes.py:21-39 | the administrator's bucket is looked in first and the users' bucket only when the file is not there; a malformed id or a file in neither bucket is a 500 |
| AdminPhotos.Turn | routes/admin/photo_routes.py:91-96 | one id: malformed is a 500 and in neither bucket a 404, both changing nothing; otherwise it leaves the administrator's bucket when there, else the users' bucket |
| AdminPhotos.DeleteFrom | routes/admin/photo_routes.py:90-98 | each id is deleted from the administrator's bucket when there, else from the users' bucket. The first id in neither is a 404 and a malformed one a 500; earlier deletions stay. Success means every id was in one bucket, and an id in both stays in the users' bucket |
| AdminPhotos.DeletePrefix | routes/admin/photo_routes.py:90-98 | after a successful run over the first n ids the loop goes on from the buckets they left |
| AdminPhotos.SuccessEveryTurn | routes/admin/photo_routes.py:90-98 | on success every id parsed and, at its turn, was in one of the buckets as the earlier ids left them |
| AdminPhotos.DeleteFromOutcome | routes/admin/photo_routes.py:90-101 | a 500 exactly when some id is malformed after a successful prefix, a 404 exactly when some id is in neither bucket after one; a failure keeps the deletions of the ids before it |
| AdminPhotos.DeleteDistinct | routes/admin/photo_routes.py:90-98 | for pairwise different ids, success removes all of them from the administrator's bucket, and from the users' bucket only those the administrator's did not hold |
| AdminPhotos.RepeatedIdIsMissing | routes/admin/photo_routes.py:90-98 | an id listed twice whose blob was only in the administrator's bucket is a 404 on its second turn, after the first deletion |
| AdminPhotos.OneStorePerTurn | routes/admin/photo_routes.py:91-94 | an id present in both buckets is deleted from the administrator's only |
| AdminPhotos.DeletePhotos | routes/admin/photo_routes.py:80-101 | an empty list is a 400 that deletes nothing; otherwise the loop's outcome is `DeleteFrom` |
| Guestbook.View | routes/guestbook_routes.py:43-47 | the listing form keeps every field; it carries photo data exactly when the entry has a readable photo |
| Guestbook.ShapeEntries | routes/admin/guestbook_routes.py:25-31 | a listing page succeeds exactly when every photo can be read; it is the entries' views in order |
| Guestbook.PostGuestbook | routes/guestbook_routes.py:9-33 | an empty name or message is a 400 that stores nothing; otherwise one entry is appended, and `photo_id` and a new blob exist exactly when a photo was uploaded |
| Guestbook.SplitCorrect | routes/guestbook_routes.py:42-50 | the split succeeds exactly when every photo is readable; it yields the views of the entries with a photo and of those without, each in the input order |
| Guestbook.SplitEntries | routes/guestbook_routes.py:42-50 | the loop computes exactly its specification |
| Guestbook.GetGuestbookEntries | routes/guestbook_routes.py:35-54 | entries are ordered newest date first and split into those with a photo and those without; an unreadable photo is a 500 |
| Guestbook.PartitionKeepsEntries | routes/guestbook_routes.py:38-50 | every entry lands in exactly one of the two lists, counted with multiplicity, and both keep the newest-first order |
| Guestbook.DeleteEntry | routes/guestbook_routes.py:74 | `delete_one` removes exactly one copy of the first entry with the id, or nothing |
| Guestbook.DeleteGuestbook | routes/guestbook_routes.py:56-78 | a missing or empty id is a 400 and a malformed one a 500; no entry of the caller with that id is a 404; a malformed photo reference is a 500; every failure changes nothing. Otherwise the answer is 200: the caller's entry goes and so does its blob when it has one |
| Guestbook.OwnerOnly | routes/guestbook_routes.py:66-69 | the entry a delete matches carries the caller's name |
| Guestbook.GetUserGuestbookEntries | routes/guestbook_routes.py:80-105 | the page is the `(page-1)*page_size` window of the matching entries, newest first; `total_entries` counts all of them; a negative skip or an unreadable photo is a 500 |
| Guestbook.Matching | routes/guestbook_routes.py:88-92 | the query keeps exactly the entries of the named user, or every entry when no name is given |
| Guestbook.PageBounds | routes/guestbook_routes.py:83-92 | for a positive page size a page holds at most `page_size` entries, all of them matching |
| Guestbook.UpdateGuestbookEntry | routes/guestbook_routes.py:107-147 | the id is checked, then the message (400 each). Only `message` changes, and with a photo also `photo_id`; the old blob is replaced. An unknown id is a 404 that changes no entry |
| AdminGuestbook.GetAdminGuestbookEntries | routes/admin/guestbook_routes.py:10-36 | the page is the window of the matching entries in name order; `total_entries` counts all matches; a negative skip or an unreadable photo is a 500 |
| AdminGuestbook.AdminPageShape | routes/admin/guestbook_routes.py:14-23 | for a positive page size and page: at most `page_size` entries, sorted by name, all matching; the name filter applies only when given |
| AdminGuestbook.GetAdminGuestbookPhoto | routes/admin/guestbook_routes.py:38-49 | the blob is served exactly when the id parses and is stored, otherwise 500 |
| AdminGuestbook.DeleteAdminGuestbookEntry | routes/admin/guestbook_routes.py:51-69 | OPTIONS is a 200 that changes nothing; a malformed id is a 500 and an unknown one a 404; otherwise the entry's blob goes, then the entry |
| Diary.IsHomeGame | routes/diary_routes.py:44 | a home game exactly when the location is busan, second or third |
| Diary.PostDiary | routes/diary_routes.py:18-73 | the photo blob is stored first; a date that does not parse is a 500 that keeps the blob and inserts nothing; otherwise one entry is appended, with the seat grouped, the home rule applied and the time of the post |
| Diary.ShowPersonal | routes/diary_routes.py:97-120 | a truthy photo becomes the encoded blob exactly when it names a stored one, and None otherwise |
| Diary.ShowAll | routes/diary_routes.py:145-150 | a truthy photo that cannot be read fails the whole listing |
| Diary.ListingsAgree | routes/diary_routes.py:97-150 | where the all-entries listing shows a photo it shows the personal listing's; where it fails, the personal listing shows None |
| Diary.GetDiaryPersonal | routes/diary_routes.py:77-126 | 400 exactly for a missing or empty user; 500 exactly for a negative skip; otherwise the window of the user's entries, newest first, with their photos resolved |
| Diary.PersonalPageShape | routes/diary_routes.py:90 | the personal page holds only the user's entries, newest date first |
| Diary.AllViews | routes/diary_routes.py:141-150 | the views exist exactly when every photo can be shown, one per entry, in order |
| Diary.AllViewsArePersonal | routes/diary_routes.py:141-150 | a successful all-entries page equals what the personal listing shows for the same entries |
| Diary.GetDiaryEntries | routes/diary_routes.py:129-155 | the page is the window of all entries sorted newest first, with sort applied before skip; a negative skip or any unreadable photo is a 500 |
| Schedule.BaseData | routes/admin/schedule_routes.py:23-29 | a game always gets exactly date, opponent, isHome, time and season; the text fields default to "" and isHome to False |
| Schedule.ScheduleData | routes/admin/schedule_routes.py:23-36 | the base fields, plus `extraHome` and `spacialGame` exactly when the body holds them truthy, with the body's values |
| Bson.IdArg | routes/admin/schedule_routes.py:39 | a request id is accepted only as the text of an ObjectId |
| Schedule.CreateOrUpdateSchedule | routes/admin/schedule_routes.py:17-48 | a truthy `_id` updates only the game with that id and adds none; a malformed one is a 500; without `_id` exactly one game is inserted under a fresh id |
| Schedule.Merge | routes/admin/schedule_routes.py:39 | `$set` gives every updated field its new value and keeps the other fields and the id |
| Schedule.UpdateTouchesOnlyThatGame | routes/admin/schedule_routes.py:39 | an update by id leaves every other game and the number of games unchanged |
| Schedule.SeasonsAfterInsert | routes/admin/schedule_routes.py:12 | the distinct seasons after an insert are the previous ones plus the new game's season |
| Schedule.GetSchedules | routes/admin/schedule_routes.py:51-60 | the listing is the season's games in date order, each with its id as text |
| Schedule.SeasonGamesCorrect | routes/admin/schedule_routes.py:55 | exactly the games of the requested season, each once per copy, sorted by date ascending; no season matches null or a missing field |
| Schedule.DeleteGame | routes/admin/schedule_routes.py:68 | only the first game with the id is removed; the others keep their order |
| Schedule.DeleteSchedule | routes/admin/schedule_routes.py:62-71 | a missing `_id` deletes nothing, a malformed one is a 500, otherwise the game with that id goes |
| Schedule.DeleteOnlyThatGame | routes/admin/schedule_routes.py:68 | every game with another id keeps all its copies |
| Stats.Pick | routes/admin/stats_routes.py:16-46 | the copied fields are exactly the listed keys with the request's values; a missing key raises |
| Stats.StatsData | routes/admin/stats_routes.py:13-47 | the record exists exactly when every average and total key is present, and copies exactly those keys |
| Stats.DistinctKeys | routes/admin/stats_routes.py:16-46 | a list of different keys has as many keys as entries |
| Stats.KeyCounts | routes/admin/stats_routes.py:16-46 | a record keeps 14 averages and 13 totals |
| Stats.CreateUpdateStats | routes/admin/stats_routes.py:8-51 | a missing part or key is a 500 that writes nothing; otherwise the season's first record is overwritten, or a record is inserted |
| Stats.UpsertBySeason | routes/admin/stats_routes.py:48 | after the upsert the season has exactly the new averages and totals, every other season's record is unchanged, and seasons stay unique |
| Stats.GetStats | routes/admin/stats_routes.py:53-61 | the listing is every record by season, each with its id as text |
| Stats.StatsListing | routes/admin/stats_routes.py:56 | the listing is a permutation of the records, seasons descending |
| Profile.ProfileData | routes/admin/profile_routes.py:13-22 | `name` defaults to "Anonymous"; team, position, number, height, nickname and features default to ""; date is the time of the write |
| Profile.Upsert | routes/admin/profile_routes.py:23 | the first profile gets the fields merged in, keeping its id and every field the update does not set, and the others are untouched; with none, one profile is created under the new id |
| Profile.CreateOrUpdateProfile | routes/admin/profile_routes.py:8-26 | the write is the upsert of the profile data |
| Profile.StaysSingle | routes/admin/profile_routes.py:23 | from at most one profile, any number of writes leaves exactly one |
| Profile.GetProfile | routes/admin/profile_routes.py:28-36 | 404 exactly when there is no profile or it has no field besides its id; otherwise its fields |
| Profile.ReadBackAfterWrite | routes/admin/profile_routes.py:23-31 | after a write, the profile reads back with every written value |

## Left out

- HTTP fetching and HTML parsing are not modelled. A result page is its
  status code plus a list of items; each item has an optional title anchor
  (text and optional `href`), optional lead text and an optional thumbnail
  (optional `src`).
- The Rookie crawler's requests (routes/newsrookie_routes.py:21) are the
  parameter `fetch`, which may raise (`None`) or answer with a page.
- The Jumpball crawler requests the empty URL (routes/newsjump_routes.py:8).
  A real request there raises. Here the fetch is a parameter that may raise
  (`None`) or answer.
- The database's case-insensitive `$regex` search is not modelled. It is a
  parameter, `regex(query, text)`, and whether the database accepts the
  query as a pattern is the parameter `validPattern(query)`.
- Blob contents and base64 encoding are not modelled. `encode` maps a
  stored blob to its encoding, so the `content_type` part of a data URL is
  folded into it. Blob file names are not modelled either.
- Image conversion is not modelled (routes/user_routes.py:98-103). It is
  a parameter, `reencode`, whose `None` is a conversion failure.
- Password hashing and checking and JWT creation are not modelled. They
  are the parameters `hashOf` and `checkHash`; the caller's identity is
  the `nickname` argument.
- The administrator and JWT checks on the routes are decorators. They are
  preconditions and are not modelled.
- The `int()` conversion of `page` and `page_size` arguments is not
  modelled: they are integers, and a non-numeric argument (a 500) is not
  represented.
- `utcnow()` and `now()` are not modelled: time is the parameter `now`, in
  microseconds. The database stores dates to the millisecond, cutting the
  stored times; the model keeps them whole, which moves the 60-day boundary
  of `NewsRookie.CrawlDue` by less than a millisecond.
- NewsRookie.ExtractItem: every article of a crawl is stamped with the one
  time `now`. The source reads the clock once per article
  (routes/newsrookie_routes.py:46), so its stamps grow through the crawl.
- NewsRookie.CrawlData: because a crawl's articles share one stamp, a later
  search sorted by `created_at` descending lists them in crawl order. With
  the source's per-article stamps, cut to milliseconds when stored, a later
  page's articles come before an earlier page's, and articles stamped in the
  same millisecond tie, leaving their order to the database.
- `strptime(date, '%Y-%m-%d')` is not modelled. It is the parameter
  `parseDate`.
- MongoDB does not promise an order among documents with equal sort keys.
  The model sorts with a stable insertion sort (`Bson.SortBy`), which is one
  admissible order, and the handlers' contracts fix that order. Only the
  sort lemmas (`Bson.FilterSorted`, `Bson.WindowOfSorted`) hold for any
  sorted permutation. Where MongoDB orders documents with equal keys
  differently, its answer differs from the model's in that order alone.
- Events.EventList: the projection of `get_event_list` is not modelled,
  because the modelled event has no other fields.
- Framework wiring is not part of this model: the application, database
  connections and blueprint registration (including an import of a
  blueprint name that routes/newsjump_routes.py does not define). The same
  goes for the read-only blob listings: `get_photos` in
  routes/admin/photo_routes.py, routes/photo_routes.py,
  routes/schedule_routes.py, routes/stats_routes.py and
  routes/admin/news_routes.py.
- A request body that is not JSON (`request.json` is None, a 500) is not
  modelled for the schedule, stats and profile routes. JSON values are
  modelled as null, booleans, integers, texts and dates; floats, arrays and
  nested objects are not.
- Diary.PostDiary: a GridFS error while storing the photo is not modelled;
  the put always succeeds.
- New ObjectIds are parameters. Each handler requires them to be absent
  from the bucket they are stored in; that is what ObjectId generation
  guarantees.
- UserProfile.UpdateProfile: the `matched_count == 0` answer is not
  modelled. The user was found just before the update, and concurrent
  writers are not modelled.
- Stats.CreateUpdateStats: a record holds only its season, averages and
  totals, so `$set` on a record is a replacement of those two parts.
- Concurrency between requests is not modelled; each handler runs alone.

=== FILE: admin_events.dfy ===
/** The administrator's event routes (routes/admin/event_routes.py): the
    event listing with check fields and photos, creating an event with its
    uploaded photos, removing one photo by its position, and deleting an
    event with its photos. */
module AdminEvents {
  import opened Python
  import opened Bson
  import opened Store
  import opened Events

  const CHECK_PREFIX: string := "check_"

  // ---------------------------------------------------------------------
  // Listing

  /** An event as the administrator's listing returns it: `checkFields`
      only when one of `check_1..3` is set, and the data URLs of its stored
      photos. */
  datatype AdminEventView = AdminEventView(id: string, title: string, url: string, description: string,
                                           date: int, checks: map<string, string>,
                                           checkFields: Option<CheckFields>, photos: seq<string>)

  predicate HasCheck(e: Event) {
    "check_1" in e.checks || "check_2" in e.checks || "check_3" in e.checks
  }

  /** One event of the listing, or `None` when one of its photo ids is not
      an ObjectId (which fails the whole listing). */
  function AdminView(e: Event, store: set<Oid>, encode: Oid -> string): (r: Option<AdminEventView>)
    ensures r.None? <==> e.photos.Some? && exists k :: 0 <= k < |e.photos.value| && ParseOid(e.photos.value[k]).None?
    ensures r.Some? ==> r.value.id == OidText(e.id)
    ensures r.Some? ==> (r.value.checkFields.Some? <==> HasCheck(e))
    ensures r.Some? && HasCheck(e) ==> r.value.checkFields == Some(CheckFieldsOf(e))
    ensures r.Some? && e.photos.None? ==> r.value.photos == []
    ensures r.Some? && e.photos.Some? ==> Some(r.value.photos) == EncodedPhotos(e.photos.value, store, encode)
  {
    var checkFields := if HasCheck(e) then Some(CheckFieldsOf(e)) else None;
    var photos := if e.photos.Some? then EncodedPhotos(e.photos.value, store, encode) else Some([]);
    if photos.None? then None
    else Some(AdminEventView(OidText(e.id), e.title, e.url, e.description, e.date, e.checks,
                             checkFields, photos.value))
  }

  /** `get_admin_events`: every event in stored order, or `None` for the
      500 answer. */
  method GetAdminEvents(docs: seq<Event>, fsEvent: set<Oid>, encode: Oid -> string)
    returns (r: Option<seq<AdminEventView>>)
    ensures r.Some? <==> forall k :: 0 <= k < |docs| ==> AdminView(docs[k], fsEvent, encode).Some?
    ensures r.Some? ==> |r.value| == |docs|
                        && forall k :: 0 <= k < |docs| ==> r.value[k] == AdminView(docs[k], fsEvent, encode).value
  {
    var views: seq<AdminEventView> := [];
    var k := 0;
    while k < |docs|
      invariant 0 <= k <= |docs| && |views| == k
      invariant forall j :: 0 <= j < k ==> AdminView(docs[j], fsEvent, encode).Some?
                                           && views[j] == AdminView(docs[j], fsEvent, encode).value
    {
      var e := docs[k];
      var photos: seq<string> := [];
      if e.photos.Some? {
        var encoded := EncodePhotos(e.photos.value, fsEvent, encode);
        if encoded.None? {
          return None;
        }
        photos := encoded.value;
      }
      var checkFields := if HasCheck(e) then Some(CheckFieldsOf(e)) else None;
      views := views + [AdminEventView(OidText(e.id), e.title, e.url, e.description, e.date, e.checks,
                                       checkFields, photos)];
      k := k + 1;
    }
    return Some(views);
  }

  // ---------------------------------------------------------------------
  // Creating an event

  /** The `check_*` fields of a form. */
  function CheckFieldsIn(form: map<string, string>): map<string, string> {
    map key | key in form && StartsWith(key, CHECK_PREFIX) :: form[key]
  }

  /** The loop of `post_events` over the form's keys. */
  method CollectCheckFields(form: map<string, string>) returns (checks: map<string, string>)
    ensures forall key :: key in checks <==> key in form && StartsWith(key, CHECK_PREFIX)
    ensures forall key :: key in checks ==> checks[key] == form[key]
  {
    checks := map[];
    var keys := form.Keys;
    while keys != {}
      invariant keys <= form.Keys
      invariant forall key :: key in checks <==> key in form && key !in keys && StartsWith(key, CHECK_PREFIX)
      invariant forall key :: key in checks ==> checks[key] == form[key]
      decreases keys
    {
      var key :| key in keys;
      if StartsWith(key, CHECK_PREFIX) {
        checks := checks[key := form[key]];
      }
      keys := keys - {key};
    }
  }

  function FormOr(form: map<string, string>, key: string): string {
    if key in form then form[key] else ""
  }

  /** `post_events`: the event is inserted with the form's title, url and
      description (each "" when absent), the time `now` and its `check_*`
      fields; then every uploaded file is stored, and the event's `photos`
      is set to their ids in upload order. `eventId` and `fileIds` are the
      ids the database generates. */
  method PostEvents(events: Collection<Event>, fsEvent: BlobStore, form: map<string, string>,
                    files: seq<Upload>, now: int, eventId: Oid, fileIds: seq<Oid>)
    requires |fileIds| == |files| && FreshIds(fileIds, fsEvent.ids)
    requires forall k :: 0 <= k < |events.docs| ==> events.docs[k].id != eventId
    requires events != fsEvent as object
    modifies events, fsEvent
    ensures events.docs == old(events.docs) +
              [Event(eventId, FormOr(form, "title"), FormOr(form, "url"), FormOr(form, "description"), now,
                     CheckFieldsIn(form), Some(OidTexts(fileIds)))]
    ensures fsEvent.ids == old(fsEvent.ids) + IdSet(fileIds)
    ensures FindEvent(events.docs, eventId) == Some(|old(events.docs)|)
  {
    var checks := CollectCheckFields(form);
    assert checks == CheckFieldsIn(form);
    events.docs := events.docs + [Event(eventId, FormOr(form, "title"), FormOr(form, "url"),
                                        FormOr(form, "description"), now, checks, None)];
    var photoIds := PutAll(fsEvent, fileIds);
    var last := |events.docs| - 1;
    events.docs := events.docs[last := events.docs[last].(photos := Some(photoIds))];
    assert forall j :: 0 <= j < last ==> events.docs[j] == old(events.docs)[j];
    assert FindEvent(events.docs, eventId) == Some(last) by {
      var r := FindEvent(events.docs, eventId);
      assert r.Some? by { assert events.docs[last].id == eventId; }
    }
  }

  // ---------------------------------------------------------------------
  // Removing one photo

  /** `$pull` of `x` from a list: every occurrence goes. */
  function Pull(xs: seq<string>, x: string): (r: seq<string>)
    ensures x !in r
  {
    FilterMembers(xs, y => y != x);
    Filter(xs, y => y != x)
  }

  /** Every other id keeps its number of occurrences. */
  lemma PullCounts(xs: seq<string>, x: string)
    ensures forall y :: y != x ==> multiset(Pull(xs, x))[y] == multiset(xs)[y]
  {
    FilterPartition(xs, y => y != x, y => y == x);
    var dropped := Filter(xs, y => y == x);
    FilterMembers(xs, y => y == x);
    forall y | y != x
      ensures multiset(dropped)[y] == 0
    {
      assert y !in dropped;
    }
  }

  /** `$pull` keeps the other ids in their order: it works piece by piece. */
  lemma PullKeepsOrder(xs: seq<string>, ys: seq<string>, x: string)
    ensures Pull(xs + ys, x) == Pull(xs, x) + Pull(ys, x)
    ensures forall y :: Pull([y], x) == if y == x then [] else [y]
  {
    FilterAppend(xs, ys, y => y != x);
  }

  /** `ObjectId(v)` for a request's `eventId` followed by `find_one`: a
      null `eventId` becomes `ObjectId()`, a new id no event has, so it
      finds nothing, like an ObjectId no event has; `None` in the outer
      option is the 500 of a value that is not an ObjectId. */
  function LookupEvent(docs: seq<Event>, v: Value): (r: Option<Option<nat>>)
    ensures r.None? <==> v != Null && IdArg(v).None?
    ensures v == Null ==> r == Some(None)
    ensures IdArg(v).Some? ==> r == Some(FindEvent(docs, IdArg(v).value))
  {
    if v == Null then Some(None)
    else if IdArg(v).None? then None
    else Some(FindEvent(docs, IdArg(v).value))
  }

  /** `delete_photo` with the request body `data`. A missing `eventId` or
      `photoIndex` key is a 500; a null or unknown event a 404. The photo is
      chosen with Python indexing; its blob is deleted and its id pulled
      from the event. */
  method DeletePhoto(events: Collection<Event>, fsEvent: BlobStore, data: map<string, Value>)
    returns (status: int)
    requires events != fsEvent as object
    modifies events, fsEvent
    ensures status in {200, 404, 500}
    ensures status != 200 ==> events.docs == old(events.docs) && fsEvent.ids == old(fsEvent.ids)
    ensures if "eventId" !in data || "photoIndex" !in data then status == 500
            else if data["eventId"] == Null then status == 404
            else if IdArg(data["eventId"]).None? then status == 500
            else
              var k := FindEvent(old(events.docs), IdArg(data["eventId"]).value);
              if k.None? then status == 404
              else
                var e := old(events.docs)[k.value];
                var i := IndexArg(data["photoIndex"]);
                var photo := if e.photos.Some? && i.Some? then Index(e.photos.value, i.value) else None;
                if photo.None? || ParseOid(photo.value).None? then status == 500
                else
                  && status == 200
                  && fsEvent.ids == old(fsEvent.ids) - {ParseOid(photo.value).value}
                  && events.docs == old(events.docs)[k.value := e.(photos := Some(Pull(e.photos.value, photo.value)))]
  {
    if "eventId" !in data || "photoIndex" !in data {
      return 500;
    }
    var found := LookupEvent(events.docs, data["eventId"]);
    if found.None? {
      return 500;
    }
    var k := found.value;
    if k.None? {
      return 404;
    }
    var e := events.docs[k.value];
    if e.photos.None? {
      return 500;
    }
    var i := IndexArg(data["photoIndex"]);
    if i.None? {
      return 500;
    }
    var photo := Index(e.photos.value, i.value);
    if photo.None? {
      return 500;
    }
    var blob := ParseOid(photo.value);
    if blob.None? {
      return 500;
    }
    fsEvent.ids := fsEvent.ids - {blob.value};
    events.docs := events.docs[k.value := e.(photos := Some(Pull(e.photos.value, photo.value)))];
    return 200;
  }

  // ---------------------------------------------------------------------
  // Deleting an event

  /** The ids of `ids` before the first text that is not an ObjectId. */
  function LeadingIds(ids: seq<string>): (r: seq<Oid>)
    ensures |r| <= |ids|
    ensures forall k :: 0 <= k < |r| ==> ParseOid(ids[k]) == Some(r[k])
    ensures |r| < |ids| ==> ParseOid(ids[|r|]).None?
  {
    if ids == [] || ParseOid(ids[0]).None? then []
    else [ParseOid(ids[0]).value] + LeadingIds(ids[1..])
  }

  predicate AllIds(ids: seq<string>) {
    forall k :: 0 <= k < |ids| ==> ParseOid(ids[k]).Some?
  }

  lemma LeadingIdsAll(ids: seq<string>)
    ensures |LeadingIds(ids)| == |ids| <==> AllIds(ids)
  {
  }

  /** The blob loop of `delete_event`: each photo's blob is deleted in turn;
      an id that is not an ObjectId raises, after the earlier deletions. */
  method DeleteEventPhotos(fsEvent: BlobStore, ids: seq<string>) returns (ok: bool)
    modifies fsEvent
    ensures ok <==> AllIds(ids)
    ensures fsEvent.ids == old(fsEvent.ids) - IdSet(LeadingIds(ids))
  {
    var lead := LeadingIds(ids);
    LeadingIdsAll(ids);
    var k := 0;
    while k < |ids|
      invariant 0 <= k <= |ids| && k <= |lead|
      invariant fsEvent.ids == old(fsEvent.ids) - IdSet(lead[..k])
    {
      var id := ParseOid(ids[k]);
      if id.None? {
        assert k == |lead|;
        assert lead[..k] == lead;
        return false;
      }
      assert k < |lead| && lead[k] == id.value;
      IdSetPrefix(lead, k);
      fsEvent.ids := fsEvent.ids - {id.value};
      k := k + 1;
    }
    assert lead[..k] == lead;
    return true;
  }

  /** `delete_event` with the request body `data`: a missing `eventId` key
      or one that is not an ObjectId is a 500, a null or unknown event a 404,
      both with nothing changed; otherwise the event's photo blobs go, then
      the event itself. A bad photo id stops with a 500 after the blobs
      before it were deleted, and the event is kept. */
  method DeleteEvent(events: Collection<Event>, fsEvent: BlobStore, data: map<string, Value>)
    returns (status: int)
    requires events != fsEvent as object
    modifies events, fsEvent
    ensures if "eventId" !in data || (data["eventId"] != Null && IdArg(data["eventId"]).None?) then
              status == 500 && events.docs == old(events.docs) && fsEvent.ids == old(fsEvent.ids)
            else
              var k := LookupEvent(old(events.docs), data["eventId"]).value;
              if k.None? then
                status == 404 && events.docs == old(events.docs) && fsEvent.ids == old(fsEvent.ids)
              else
                var ids := if old(events.docs)[k.value].photos.Some? then old(events.docs)[k.value].photos.value else [];
                && fsEvent.ids == old(fsEvent.ids) - IdSet(LeadingIds(ids))
                && (AllIds(ids) ==> status == 200 && events.docs == old(events.docs)[..k.value] + old(events.docs)[k.value + 1..])
                && (!AllIds(ids) ==> status == 500 && events.docs == old(events.docs))
  {
    if "eventId" !in data {
      return 500;
    }
    var found := LookupEvent(events.docs, data["eventId"]);
    if found.None? {
      return 500;
    }
    var k := found.value;
    if k.None? {
      return 404;
    }
    var e := events.docs[k.value];
    var ids := if e.photos.Some? then e.photos.value else [];
    var ok := DeleteEventPhotos(fsEvent, ids);
    if !ok {
      return 500;
    }
    events.docs := events.docs[..k.value] + events.docs[k.value + 1..];
    return 200;
  }
}

=== FILE: admin_guestbook.dfy ===
/** The administrator's guestbook routes (routes/admin/guestbook_routes.py):
    one page of the entries ordered by name, one photo, and deleting any
    entry with its photo. The administrator check is a precondition of the
    routes and is not modelled. */
module AdminGuestbook {
  import opened Python
  import opened Bson
  import opened Store
  import opened Guestbook

  function NameKey(e: Entry): Value { Str(e.name) }

  /** `find(query).sort('name', 1)` */
  function ByName(docs: seq<Entry>): seq<Entry> {
    SortBy(docs, NameKey, false)
  }

  /** `get_admin_guestbook_entries` with the `page`, `page_size` and `name`
      arguments: the matching entries in name order, the page's window of
      them, each with its encoded photo when it has one, and the count of all
      matching entries. A negative skip or an unreadable photo on the page is
      a 500 (`None`). */
  method GetAdminGuestbookEntries(docs: seq<Entry>, store: set<Oid>, encode: Oid -> string,
                                  page: int, pageSize: int, name: Option<string>)
    returns (r: Option<Page>)
    ensures var window := Window(ByName(Matching(docs, name)), Skip(page, pageSize), pageSize);
            && (r.Some? <==> window.Some? && forall k :: 0 <= k < |window.value| ==> PhotoReadable(window.value[k], store))
            && (r.Some? ==> r.value.entries == Map(window.value, e => View(e, store, encode))
                            && r.value.totalEntries == |Matching(docs, name)|)
  {
    var matching := Matching(docs, name);
    var window := Window(ByName(matching), Skip(page, pageSize), pageSize);
    if window.None? {
      return None;
    }
    var entries := ShapeEntries(window.value, store, encode);
    if entries.None? {
      return None;
    }
    return Some(Page(entries.value, |matching|));
  }

  /** A page holds matching entries only, in name order, at most `page_size`
      of them for a positive page size; the total does not depend on the
      page. */
  lemma AdminPageShape(docs: seq<Entry>, page: int, pageSize: int, name: Option<string>)
    requires pageSize > 0 && page >= 1
    ensures var window := Window(ByName(Matching(docs, name)), Skip(page, pageSize), pageSize);
            && window.Some? && |window.value| <= pageSize
            && SortedBy(window.value, NameKey, false)
            && (forall e :: e in window.value ==> e in Matching(docs, name))
            && (TruthyText(name) ==> forall e :: e in window.value ==> e.name == name.value)
  {
    var matching := Matching(docs, name);
    SortByCorrect(matching, NameKey, false);
    WindowOfSorted(ByName(matching), Skip(page, pageSize), pageSize, NameKey, false);
    forall e | e in ByName(matching) ensures e in matching {
      assert e in multiset(ByName(matching));
    }
  }

  /** `get_admin_guestbook_photo(photo_id)`: the blob, or a 500 (`None`)
      when the id is not an ObjectId or there is no such blob. */
  function GetAdminGuestbookPhoto(store: set<Oid>, photoId: string): (r: Option<Oid>)
    ensures r.Some? <==> ParseOid(photoId).Some? && ParseOid(photoId).value in store
    ensures r.Some? ==> r == ParseOid(photoId)
  {
    var id := ParseOid(photoId);
    if id.Some? && id.value in store then id else None
  }

  /** `delete_admin_guestbook_entry(entry_id)`. A CORS preflight
      (`isOptions`) answers 200 and changes nothing. Otherwise an id that is
      not an ObjectId is a 500 and an unknown one a 404; a truthy `photo_id`
      must be an ObjectId (else 500, nothing changed), and its blob goes
      before the entry. */
  method DeleteAdminGuestbookEntry(guestbooks: Collection<Entry>, fsGuestbooks: BlobStore,
                                   isOptions: bool, entryId: string)
    returns (status: int)
    modifies guestbooks, fsGuestbooks
    ensures status != 200 || isOptions ==>
              guestbooks.docs == old(guestbooks.docs) && fsGuestbooks.ids == old(fsGuestbooks.ids)
    ensures isOptions ==> status == 200
    ensures !isOptions ==>
              if ParseOid(entryId).None? then status == 500
              else
                var id := ParseOid(entryId).value;
                var k := FindEntry(old(guestbooks.docs), id);
                if k.None? then status == 404
                else
                  var e := old(guestbooks.docs)[k.value];
                  if HasPhoto(e) && ParseOid(e.photoId.value).None? then status == 500
                  else
                    && status == 200
                    && guestbooks.docs == DeleteEntry(old(guestbooks.docs), id)
                    && fsGuestbooks.ids == (if HasPhoto(e) then old(fsGuestbooks.ids) - {ParseOid(e.photoId.value).value}
                                            else old(fsGuestbooks.ids))
  {
    if isOptions {
      return 200;
    }
    var id := ParseOid(entryId);
    if id.None? {
      return 500;
    }
    var k := FindEntry(guestbooks.docs, id.value);
    if k.None? {
      return 404;
    }
    var e := guestbooks.docs[k.value];
    if HasPhoto(e) {
      var blob := ParseOid(e.photoId.value);
      if blob.None? {
        return 500;
      }
      fsGuestbooks.ids := fsGuestbooks.ids - {blob.value};
    }
    guestbooks.docs := DeleteEntry(guestbooks.docs, id.value);
    return 200;
  }
}

=== FILE: admin_photos.dfy ===
/** The administrator's photo routes (routes/admin/photo_routes.py) over two
    blob stores, the administrator's and the users': uploading, fetching one
    photo from either store, and deleting a list of photos. */
module AdminPhotos {
  import opened Python
  import opened Bson
  import opened Store

  /** `post_photo`: every uploaded file is stored in the administrator's
      store, each under one of the fresh ids `newIds`. */
  method PostPhoto(fsAdmin: BlobStore, files: seq<Upload>, newIds: seq<Oid>) returns (status: int)
    requires |newIds| == |files| && FreshIds(newIds, fsAdmin.ids)
    modifies fsAdmin
    ensures status == 200
    ensures fsAdmin.ids == old(fsAdmin.ids) + IdSet(newIds)
    ensures |fsAdmin.ids| == |old(fsAdmin.ids)| + |files|
  {
    var _ := PutAll(fsAdmin, newIds);
    FreshIdsCount(newIds, old(fsAdmin.ids));
    return 200;
  }

  /** Fresh, pairwise different ids add exactly their number to a store. */
  lemma {:induction false} FreshIdsCount(ids: seq<Oid>, taken: set<Oid>)
    requires FreshIds(ids, taken)
    ensures |taken + IdSet(ids)| == |taken| + |ids|
  {
    if ids != [] {
      var front := ids[..|ids| - 1];
      var x := ids[|ids| - 1];
      assert FreshIds(front, taken);
      FreshIdsCount(front, taken);
      assert ids == front + [x];
      IdSetPush(front, x);
      assert x !in taken + IdSet(front);
    }
  }

  /** Where `get_photo` finds a photo. */
  datatype Found = FromAdmin(id: Oid) | FromUser(id: Oid) | Failed

  /** `get_photo(photo_id)`: the administrator's store first, the users'
      store when it has no such file; an id that is not an ObjectId or a
      file in neither store is a 500. */
  function GetPhoto(fsAdmin: set<Oid>, fsUser: set<Oid>, photoId: string): (r: Found)
    ensures r.FromAdmin? <==> ParseOid(photoId).Some? && ParseOid(photoId).value in fsAdmin
    ensures r.FromUser? <==> ParseOid(photoId).Some? && ParseOid(photoId).value !in fsAdmin
                             && ParseOid(photoId).value in fsUser
    ensures !r.Failed? ==> Some(r.id) == ParseOid(photoId)
  {
    var id := ParseOid(photoId);
    if id.None? then Failed
    else if id.value in fsAdmin then FromAdmin(id.value)
    else if id.value in fsUser then FromUser(id.value)
    else Failed
  }

  /** What the delete loop does from the id list `ids` on, starting with
      the stores `admin` and `user`: its status and the stores after it. */
  datatype Outcome = Outcome(status: int, admin: set<Oid>, user: set<Oid>)

  /** The ids that are ObjectIds, as a set. */
  function Parsed(ids: seq<string>): set<Oid> {
    set k, id | 0 <= k < |ids| && ParseOid(ids[k]) == Some(id) :: id
  }

  /** One turn of the loop of `delete_photos` on the id text `photoId`: an
      id that is not an ObjectId raises (500); an id in the administrator's
      store is deleted there, else one in the users' store is deleted there;
      an id in neither is a 404. A failed turn changes no store; status 200
      means the loop goes on. */
  function Turn(photoId: string, admin: set<Oid>, user: set<Oid>): (r: Outcome)
    ensures r.status == 500 <==> ParseOid(photoId).None?
    ensures r.status == 404 <==> ParseOid(photoId).Some? && ParseOid(photoId).value !in admin
                                 && ParseOid(photoId).value !in user
    ensures r.status in {200, 404, 500}
    ensures r.status != 200 ==> r.admin == admin && r.user == user
    ensures r.status == 200 ==>
              var id := ParseOid(photoId).value;
              && r.admin == admin - {id}
              && r.user == if id in admin then user else user - {id}
  {
    var id := ParseOid(photoId);
    if id.None? then Outcome(500, admin, user)
    else if id.value in admin then Outcome(200, admin - {id.value}, user)
    else if id.value in user then Outcome(200, admin, user - {id.value})
    else Outcome(404, admin, user)
  }

  /** The loop of `delete_photos`: the turns one after the other, each on
      the stores the previous one left; the first failed turn stops the
      loop with its status, after the earlier deletions. */
  function DeleteFrom(ids: seq<string>, admin: set<Oid>, user: set<Oid>): (r: Outcome)
    ensures r.status in {200, 404, 500}
    ensures r.admin <= admin && r.user <= user
    ensures admin - r.admin <= Parsed(ids) && user - r.user <= Parsed(ids)
    ensures r.status == 200 ==> forall k :: 0 <= k < |ids| ==>
              ParseOid(ids[k]).Some? && (ParseOid(ids[k]).value in admin || ParseOid(ids[k]).value in user)
    ensures r.status == 200 ==> r.admin == admin - Parsed(ids)
    ensures r.status == 200 ==> forall id :: id in Parsed(ids) && id !in admin ==> id !in r.user
  {
    if ids == [] then Outcome(200, admin, user)
    else
      var t := Turn(ids[0], admin, user);
      if t.status != 200 then t
      else
        ParsedCons(ids);
        DeleteFrom(ids[1..], t.admin, t.user)
  }

  /** The outcome of the first `n` turns. */
  function Prefix(ids: seq<string>, n: nat, admin: set<Oid>, user: set<Oid>): Outcome
    requires n <= |ids|
  {
    DeleteFrom(ids[..n], admin, user)
  }

  /** The first `n + 1` turns are the first turn and then `n` turns on the
      rest. */
  lemma PrefixCons(ids: seq<string>, n: nat, admin: set<Oid>, user: set<Oid>)
    requires n < |ids|
    ensures var t := Turn(ids[0], admin, user);
            Prefix(ids, n + 1, admin, user)
            == if t.status != 200 then t else Prefix(ids[1..], n, t.admin, t.user)
  {
    assert ids[..n + 1][0] == ids[0];
    assert ids[..n + 1][1..] == ids[1..][..n];
  }

  /** Once the first `n` turns succeed, the loop goes on from the stores
      they leave: the deletions made so far stay made. */
  lemma {:induction false} DeletePrefix(ids: seq<string>, n: nat, admin: set<Oid>, user: set<Oid>)
    requires n <= |ids| && Prefix(ids, n, admin, user).status == 200
    ensures var p := Prefix(ids, n, admin, user);
            DeleteFrom(ids, admin, user) == DeleteFrom(ids[n..], p.admin, p.user)
  {
    if n > 0 {
      var t := Turn(ids[0], admin, user);
      PrefixCons(ids, n - 1, admin, user);
      DeletePrefix(ids[1..], n - 1, t.admin, t.user);
      assert ids[1..][n - 1..] == ids[n..];
    } else {
      assert ids[..0] == [] && ids[0..] == ids;
    }
  }

  /** Turn `n` fails after the turns before it succeeded. */
  predicate FailsAt(ids: seq<string>, n: nat, admin: set<Oid>, user: set<Oid>) {
    n < |ids| && Prefix(ids, n, admin, user).status == 200
    && Turn(ids[n], Prefix(ids, n, admin, user).admin, Prefix(ids, n, admin, user).user).status != 200
  }

  /** A failed turn decides the outcome: its status, and the stores as the
      turns before it left them. */
  lemma FailsAtDecides(ids: seq<string>, n: nat, admin: set<Oid>, user: set<Oid>)
    requires FailsAt(ids, n, admin, user)
    ensures var p := Prefix(ids, n, admin, user);
            DeleteFrom(ids, admin, user) == Turn(ids[n], p.admin, p.user)
  {
    DeletePrefix(ids, n, admin, user);
    assert ids[n..][0] == ids[n];
  }

  /** A failed loop has a turn that failed. */
  lemma {:induction false} FailureHasTurn(ids: seq<string>, admin: set<Oid>, user: set<Oid>)
    requires DeleteFrom(ids, admin, user).status != 200
    ensures exists n :: FailsAt(ids, n, admin, user)
  {
    var t := Turn(ids[0], admin, user);
    assert Prefix(ids, 0, admin, user) == Outcome(200, admin, user);
    if t.status == 200 {
      FailureHasTurn(ids[1..], t.admin, t.user);
      var m: nat :| FailsAt(ids[1..], m, t.admin, t.user);
      PrefixCons(ids, m, admin, user);
      assert ids[1..][m] == ids[m + 1];
      assert FailsAt(ids, m + 1, admin, user);
    } else {
      assert FailsAt(ids, 0, admin, user);
    }
  }

  /** A failed prefix makes the whole loop fail. */
  lemma FailedPrefixFails(ids: seq<string>, n: nat, admin: set<Oid>, user: set<Oid>)
    requires n <= |ids| && Prefix(ids, n, admin, user).status != 200
    ensures DeleteFrom(ids, admin, user).status != 200
  {
    FailureHasTurn(ids[..n], admin, user);
    var m: nat :| FailsAt(ids[..n], m, admin, user);
    FailsAtOfPrefix(ids, n, m, admin, user);
    FailsAtDecides(ids, m, admin, user);
  }

  /** A turn that fails within a prefix fails in the whole list. */
  lemma FailsAtOfPrefix(ids: seq<string>, n: nat, m: nat, admin: set<Oid>, user: set<Oid>)
    requires n <= |ids| && FailsAt(ids[..n], m, admin, user)
    ensures FailsAt(ids, m, admin, user)
  {
    assert ids[..n][..m] == ids[..m];
    assert ids[..n][m] == ids[m];
  }

  /** The same id twice, held only by the administrator's store: the second
      turn no longer finds it and answers 404. */
  lemma RepeatedIdIsMissing(photoId: string, admin: set<Oid>, user: set<Oid>)
    requires ParseOid(photoId).Some? && ParseOid(photoId).value in admin && ParseOid(photoId).value !in user
    ensures DeleteFrom([photoId, photoId], admin, user)
            == Outcome(404, admin - {ParseOid(photoId).value}, user)
  {
    assert [photoId, photoId][1..] == [photoId];
  }

  /** A successful loop: every turn found its id, an ObjectId, in one of
      the stores as the earlier turns left them. */
  lemma SuccessEveryTurn(ids: seq<string>, admin: set<Oid>, user: set<Oid>)
    requires DeleteFrom(ids, admin, user).status == 200
    ensures forall n :: 0 <= n < |ids| ==>
              var p := Prefix(ids, n, admin, user);
              && p.status == 200
              && ParseOid(ids[n]).Some?
              && (ParseOid(ids[n]).value in p.admin || ParseOid(ids[n]).value in p.user)
  {
    forall n | 0 <= n < |ids|
      ensures Prefix(ids, n, admin, user).status == 200
      ensures Turn(ids[n], Prefix(ids, n, admin, user).admin, Prefix(ids, n, admin, user).user).status == 200
    {
      if Prefix(ids, n, admin, user).status != 200 {
        FailedPrefixFails(ids, n, admin, user);
      } else if FailsAt(ids, n, admin, user) {
        FailsAtDecides(ids, n, admin, user);
      }
    }
  }

  /** `delete_photos` answers 500 exactly when an id that is not an
      ObjectId comes up after the earlier turns succeeded, and 404 exactly
      when an id comes up that neither store holds any more; either way the
      stores are those the earlier turns left. */
  lemma DeleteFromOutcome(ids: seq<string>, admin: set<Oid>, user: set<Oid>)
    ensures var r := DeleteFrom(ids, admin, user);
            r.status == 500 <==>
              exists n :: 0 <= n < |ids| && Prefix(ids, n, admin, user).status == 200 && ParseOid(ids[n]).None?
    ensures var r := DeleteFrom(ids, admin, user);
            r.status == 404 <==>
              exists n :: 0 <= n < |ids| && Prefix(ids, n, admin, user).status == 200 && ParseOid(ids[n]).Some?
                          && ParseOid(ids[n]).value !in Prefix(ids, n, admin, user).admin
                          && ParseOid(ids[n]).value !in Prefix(ids, n, admin, user).user
    ensures var r := DeleteFrom(ids, admin, user);
            r.status != 200 ==>
              exists n :: 0 <= n < |ids| && Prefix(ids, n, admin, user).status == 200
                          && r.admin == Prefix(ids, n, admin, user).admin
                          && r.user == Prefix(ids, n, admin, user).user
  {
    var r := DeleteFrom(ids, admin, user);
    if r.status != 200 {
      FailureHasTurn(ids, admin, user);
      var n :| FailsAt(ids, n, admin, user);
      FailsAtDecides(ids, n, admin, user);
    }
    forall n | 0 <= n < |ids| && Prefix(ids, n, admin, user).status == 200
      ensures ParseOid(ids[n]).None? ==> r.status == 500
      ensures (ParseOid(ids[n]).Some? && ParseOid(ids[n]).value !in Prefix(ids, n, admin, user).admin
               && ParseOid(ids[n]).value !in Prefix(ids, n, admin, user).user) ==> r.status == 404
    {
      if FailsAt(ids, n, admin, user) {
        FailsAtDecides(ids, n, admin, user);
      }
    }
  }

  /** With pairwise different ObjectIds, a successful delete removes them
      from the administrator's store, and from the users' store only those
      the administrator's store did not hold: an id in both keeps its copy
      in the users' store. */
  lemma {:induction false} DeleteDistinct(ids: seq<string>, admin: set<Oid>, user: set<Oid>)
    requires forall i, j :: 0 <= i < j < |ids| ==> ParseOid(ids[i]) != ParseOid(ids[j])
    requires DeleteFrom(ids, admin, user).status == 200
    ensures DeleteFrom(ids, admin, user).admin == admin - Parsed(ids)
    ensures DeleteFrom(ids, admin, user).user == user - (Parsed(ids) - admin)
  {
    if ids != [] {
      var t := Turn(ids[0], admin, user);
      var x := ParseOid(ids[0]).value;
      ParsedCons(ids);
      assert forall i, j :: 0 <= i < j < |ids[1..]| ==> ParseOid(ids[1..][i]) != ParseOid(ids[1..][j]) by {
        forall i, j | 0 <= i < j < |ids[1..]| ensures ParseOid(ids[1..][i]) != ParseOid(ids[1..][j]) {
          assert ids[1..][i] == ids[i + 1] && ids[1..][j] == ids[j + 1];
        }
      }
      DeleteDistinct(ids[1..], t.admin, t.user);
      forall k | 0 <= k < |ids[1..]| ensures ParseOid(ids[1..][k]) != Some(x) {
        assert ids[1..][k] == ids[k + 1];
      }
      assert x !in Parsed(ids[1..]);
    } else {
      assert Parsed(ids) == {};
    }
  }

  /** The ObjectIds of a list whose first entry is one. */
  lemma ParsedCons(ids: seq<string>)
    requires ids != [] && ParseOid(ids[0]).Some?
    ensures Parsed(ids) == {ParseOid(ids[0]).value} + Parsed(ids[1..])
    ensures forall k :: 1 <= k < |ids| ==> ids[k] == ids[1..][k - 1]
  {
    forall x | x in Parsed(ids) ensures x in {ParseOid(ids[0]).value} + Parsed(ids[1..]) {
      var k :| 0 <= k < |ids| && ParseOid(ids[k]) == Some(x);
      if k > 0 { assert ids[1..][k - 1] == ids[k]; }
    }
    forall x | x in Parsed(ids[1..]) ensures x in Parsed(ids) {
      var k :| 0 <= k < |ids[1..]| && ParseOid(ids[1..][k]) == Some(x);
      assert ids[k + 1] == ids[1..][k];
    }
  }

  /** A turn deletes from one store only: an id in both stores leaves the
      users' copy in place. */
  lemma OneStorePerTurn(id: string, admin: set<Oid>, user: set<Oid>)
    requires ParseOid(id).Some? && ParseOid(id).value in admin
    ensures DeleteFrom([id], admin, user) == Outcome(200, admin - {ParseOid(id).value}, user)
  {
  }

  /** `delete_photos` with the request's `photoIds` (an empty list when the
      key is missing): an empty list is a 400 that deletes nothing. */
  method DeletePhotos(fsAdmin: BlobStore, fsUser: BlobStore, photoIds: seq<string>) returns (status: int)
    requires fsAdmin != fsUser
    modifies fsAdmin, fsUser
    ensures photoIds == [] ==> status == 400 && fsAdmin.ids == old(fsAdmin.ids) && fsUser.ids == old(fsUser.ids)
    ensures photoIds != [] ==>
              DeleteFrom(photoIds, old(fsAdmin.ids), old(fsUser.ids)) == Outcome(status, fsAdmin.ids, fsUser.ids)
  {
    if photoIds == [] {
      return 400;
    }
    var k := 0;
    while k < |photoIds|
      invariant 0 <= k <= |photoIds|
      invariant DeleteFrom(photoIds, old(fsAdmin.ids), old(fsUser.ids))
                == DeleteFrom(photoIds[k..], fsAdmin.ids, fsUser.ids)
    {
      var id := ParseOid(photoIds[k]);
      if id.None? {
        return 500;
      }
      if id.value in fsAdmin.ids {
        fsAdmin.ids := fsAdmin.ids - {id.value};
      } else if id.value in fsUser.ids {
        fsUser.ids := fsUser.ids - {id.value};
      } else {
        return 404;
      }
      assert photoIds[k..][1..] == photoIds[k + 1..];
      k := k + 1;
    }
    return 200;
  }
}

=== FILE: auth.dfy ===
/** Accounts (routes/auth_routes.py): the password rule, sign-up, login and
    the nickname check, over the `users` collection. Hashing is a parameter:
    `hashOf` stands for `generate_password_hash` and `checkHash` for
    `check_password_hash`. */
module Auth {
  import opened Python
  import opened Bson
  import opened Store

  /** A document of `users`. A field that may be missing is an `Option`. */
  datatype User = User(id: Oid, nickname: Option<string>, password: string,
                       description: Option<string>, photo: Option<string>)

  const MIN_PASSWORD: nat := 8
  const MAX_PASSWORD: nat := 16

  /** The character class `[!@#$%^&*(),.?":{}|<>]` of the password rule. */
  const SPECIAL: set<char> := {'!', '@', '#', '$', '%', '^', '&', '*', '(', ')', ',', '.',
                               '?', '"', ':', '{', '}', '|', '<', '>'}

  /** `re.search(class, s) is not None`, scanning from the left. */
  function HasSpecial(s: string): bool {
    |s| > 0 && (s[0] in SPECIAL || HasSpecial(s[1..]))
  }

  lemma {:induction false} HasSpecialIff(s: string)
    ensures HasSpecial(s) <==> exists k :: 0 <= k < |s| && s[k] in SPECIAL
  {
    if |s| > 0 {
      HasSpecialIff(s[1..]);
      if exists k :: 0 <= k < |s| && s[k] in SPECIAL {
        var k :| 0 <= k < |s| && s[k] in SPECIAL;
        if k > 0 {
          assert s[1..][k - 1] in SPECIAL;
        }
      }
      if exists k :: 0 <= k < |s[1..]| && s[1..][k] in SPECIAL {
        var k :| 0 <= k < |s[1..]| && s[1..][k] in SPECIAL;
        assert s[k + 1] in SPECIAL;
      }
    }
  }

  /** `validate_password`: 8 to 16 characters, one of them special. */
  function ValidatePassword(password: string): (ok: bool)
    ensures ok <==> MIN_PASSWORD <= |password| <= MAX_PASSWORD
                    && exists k :: 0 <= k < |password| && password[k] in SPECIAL
  {
    HasSpecialIff(password);
    if |password| < MIN_PASSWORD || |password| > MAX_PASSWORD then false
    else HasSpecial(password)
  }

  /** `users.find_one({"nickname": nickname})`: the position of the first
      user with that nickname; `None` also matches the users stored without
      one. */
  function FindUser(docs: seq<User>, nickname: Option<string>): Option<nat> {
    FindFirst(docs, (u: User) => u.nickname == nickname)
  }

  /** No two users share a nickname. */
  predicate UniqueNicknames(docs: seq<User>) {
    forall i, j :: 0 <= i < j < |docs| ==> docs[i].nickname != docs[j].nickname
  }

  /** `sign_up`: the password rule first (a missing password fails in
      `len`, a 500), then the confirmation, then the nickname; only then one
      user is inserted, with the hashed password and an empty description
      and photo. `newId` is the id `insert_one` generates. */
  method SignUp(users: Collection<User>, nickname: Option<string>, password: Option<string>,
                passwordConfirm: Option<string>, hashOf: string -> string, newId: Oid)
    returns (status: int)
    modifies users
    ensures password.None? ==> status == 500 && users.docs == old(users.docs)
    ensures password.Some? && !ValidatePassword(password.value) ==>
              status == 400 && users.docs == old(users.docs)
    ensures password.Some? && ValidatePassword(password.value) && password != passwordConfirm ==>
              status == 400 && users.docs == old(users.docs)
    ensures password.Some? && ValidatePassword(password.value) && password == passwordConfirm
            && FindUser(old(users.docs), nickname).Some? ==>
              status == 409 && users.docs == old(users.docs)
    ensures status == 201 <==> password.Some? && ValidatePassword(password.value)
                               && password == passwordConfirm
                               && FindUser(old(users.docs), nickname).None?
    ensures status == 201 ==>
              users.docs == old(users.docs) + [User(newId, nickname, hashOf(password.value), Some(""), Some(""))]
    ensures UniqueNicknames(old(users.docs)) ==> UniqueNicknames(users.docs)
  {
    if password.None? {
      return 500;
    }
    if !ValidatePassword(password.value) {
      return 400;
    }
    if password != passwordConfirm {
      return 400;
    }
    if FindUser(users.docs, nickname).Some? {
      return 409;
    }
    users.docs := users.docs + [User(newId, nickname, hashOf(password.value), Some(""), Some(""))];
    return 201;
  }

  /** `login`: 200 when the user exists and the password checks against the
      stored hash, 401 otherwise; a missing password reaches the hash check
      only for an existing user, where it fails with a 500. */
  function Login(docs: seq<User>, nickname: Option<string>, password: Option<string>,
                 checkHash: (string, string) -> bool): (status: int)
    ensures status == 401 <==> (forall k :: 0 <= k < |docs| ==> docs[k].nickname != nickname)
                               || (password.Some? && !checkHash(docs[FindUser(docs, nickname).value].password, password.value))
    ensures status == 500 <==> (exists k :: 0 <= k < |docs| && docs[k].nickname == nickname) && password.None?
    ensures status == 200 <==> FindUser(docs, nickname).Some? && password.Some?
                               && checkHash(docs[FindUser(docs, nickname).value].password, password.value)
  {
    var k := FindUser(docs, nickname);
    if k.None? then 401
    else if password.None? then 500
    else if checkHash(docs[k.value].password, password.value) then 200
    else 401
  }

  /** `nickname_check`: 409 exactly when a user has the nickname, else 200.
      It only reads. */
  function NicknameCheck(docs: seq<User>, nickname: Option<string>): (status: int)
    ensures status == 409 <==> exists k :: 0 <= k < |docs| && docs[k].nickname == nickname
    ensures status == 200 <==> forall k :: 0 <= k < |docs| ==> docs[k].nickname != nickname
  {
    if FindUser(docs, nickname).Some? then 409 else 200
  }
}

=== FILE: bson.dfy ===
/** Document-store values as the handlers see them: the JSON/BSON scalar
    values stored in documents, their Python truthiness, MongoDB's sort
    order across types, `find().sort()`, `skip`/`limit` of a cursor, and
    ObjectIds with their 24-digit hexadecimal text. */
module Bson {
  import opened Python

  /** A scalar field value. `Null` is both JSON null / Python None and a
      missing field, which MongoDB queries and sorts treat alike. */
  datatype Value = Null | Bool(b: bool) | Int(i: int) | Str(s: string) | Date(t: int)

  /** Python truthiness of a value read back from a document. */
  predicate Truthy(v: Value) {
    match v
    case Null => false
    case Bool(b) => b
    case Int(i) => i != 0
    case Str(s) => s != ""
    case Date(_) => true
  }

  /** `d.get(key)` on a document held as a field map. */
  function Get(fields: map<string, Value>, key: string): (v: Value)
    ensures key !in fields ==> v == Null
  {
    if key in fields then fields[key] else Null
  }

  /** `d.get(key, default)`: the default only for a missing key (a stored
      null stays null). */
  function GetOr(fields: map<string, Value>, key: string, default: Value): (v: Value)
    ensures key in fields ==> v == fields[key]
    ensures key !in fields ==> v == default
  {
    if key in fields then fields[key] else default
  }

  // ---------------------------------------------------------------------
  // Sort order

  /** Position of a type in MongoDB's cross-type comparison order
      (null < numbers < strings < booleans < dates). */
  function Rank(v: Value): nat {
    match v
    case Null => 1
    case Int(_) => 2
    case Str(_) => 3
    case Bool(_) => 8
    case Date(_) => 9
  }

  /** Lexicographic order of strings by code point (Python's `<=` on
      `str`, and MongoDB's binary string comparison). */
  predicate LexLe(a: string, b: string) {
    |a| == 0 || (|b| > 0 && (a[0] < b[0] || (a[0] == b[0] && LexLe(a[1..], b[1..]))))
  }

  lemma {:induction false} LexLeTotal(a: string, b: string)
    ensures LexLe(a, b) || LexLe(b, a)
  {
    if |a| > 0 && |b| > 0 && a[0] == b[0] {
      LexLeTotal(a[1..], b[1..]);
    }
  }

  lemma {:induction false} LexLeTrans(a: string, b: string, c: string)
    requires LexLe(a, b) && LexLe(b, c)
    ensures LexLe(a, c)
  {
    if |a| > 0 && |b| > 0 && |c| > 0 && a[0] == b[0] == c[0] {
      LexLeTrans(a[1..], b[1..], c[1..]);
    }
  }

  /** `a` sorts no later than `b` in ascending order. */
  predicate ValueLe(a: Value, b: Value) {
    if Rank(a) != Rank(b) then Rank(a) < Rank(b)
    else match (a, b)
      case (Int(x), Int(y)) => x <= y
      case (Str(x), Str(y)) => LexLe(x, y)
      case (Bool(x), Bool(y)) => !x || y
      case (Date(x), Date(y)) => x <= y
      case _ => true
  }

  lemma ValueLeTotal(a: Value, b: Value)
    ensures ValueLe(a, b) || ValueLe(b, a)
  {
    if a.Str? && b.Str? {
      LexLeTotal(a.s, b.s);
    }
  }

  lemma ValueLeTrans(a: Value, b: Value, c: Value)
    requires ValueLe(a, b) && ValueLe(b, c)
    ensures ValueLe(a, c)
  {
    if a.Str? && b.Str? && c.Str? {
      LexLeTrans(a.s, b.s, c.s);
    }
  }

  /** `a` may stand before `b` in a result sorted ascending, or descending
      when `desc` holds. */
  predicate Before(a: Value, b: Value, desc: bool) {
    if desc then ValueLe(b, a) else ValueLe(a, b)
  }

  lemma BeforeTotal(a: Value, b: Value, desc: bool)
    ensures Before(a, b, desc) || Before(b, a, desc)
  {
    ValueLeTotal(a, b);
  }

  lemma BeforeTrans(a: Value, b: Value, c: Value, desc: bool)
    requires Before(a, b, desc) && Before(b, c, desc)
    ensures Before(a, c, desc)
  {
    if desc { ValueLeTrans(c, b, a); } else { ValueLeTrans(a, b, c); }
  }

  predicate SortedBy<T>(s: seq<T>, key: T -> Value, desc: bool) {
    forall i, j :: 0 <= i < j < |s| ==> Before(key(s[i]), key(s[j]), desc)
  }

  /** Places `x` before the first element it may precede. */
  function Insert<T>(x: T, s: seq<T>, key: T -> Value, desc: bool): seq<T> {
    if s == [] then [x]
    else if Before(key(x), key(s[0]), desc) then [x] + s
    else [s[0]] + Insert(x, s[1..], key, desc)
  }

  /** `find().sort(key, 1)` (or `-1` when `desc`), and Python's stable
      `list.sort(key=..., reverse=desc)`. Equal keys keep their stored order,
      which is one of the orders MongoDB may return. */
  function SortBy<T>(xs: seq<T>, key: T -> Value, desc: bool): seq<T> {
    if xs == [] then [] else Insert(xs[0], SortBy(xs[1..], key, desc), key, desc)
  }

  lemma {:induction false} InsertMultiset<T>(x: T, s: seq<T>, key: T -> Value, desc: bool)
    ensures multiset(Insert(x, s, key, desc)) == multiset(s) + multiset{x}
  {
    if s != [] && !Before(key(x), key(s[0]), desc) {
      InsertMultiset(x, s[1..], key, desc);
      assert s == [s[0]] + s[1..];
    }
  }

  /** A first element that may precede every other keeps a list sorted. */
  lemma ConsSorted<T>(a: T, t: seq<T>, key: T -> Value, desc: bool)
    requires SortedBy(t, key, desc)
    requires forall j :: 0 <= j < |t| ==> Before(key(a), key(t[j]), desc)
    ensures SortedBy([a] + t, key, desc)
  {
    var r := [a] + t;
    forall i, j | 0 <= i < j < |r| ensures Before(key(r[i]), key(r[j]), desc) {
      assert r[j] == t[j - 1];
      if i > 0 {
        assert r[i] == t[i - 1];
      }
    }
  }

  /** The head of a sorted list may precede everything that inserting an
      element it may precede into the rest gives. */
  lemma HeadBeforeInsert<T>(x: T, s: seq<T>, key: T -> Value, desc: bool)
    requires s != [] && SortedBy(s, key, desc) && Before(key(s[0]), key(x), desc)
    ensures forall j :: 0 <= j < |Insert(x, s[1..], key, desc)| ==>
              Before(key(s[0]), key(Insert(x, s[1..], key, desc)[j]), desc)
  {
    var t := Insert(x, s[1..], key, desc);
    InsertMultiset(x, s[1..], key, desc);
    forall j | 0 <= j < |t| ensures Before(key(s[0]), key(t[j]), desc) {
      assert t[j] in multiset(t);
      if t[j] != x {
        assert t[j] in multiset(s[1..]);
        var k :| 0 <= k < |s[1..]| && s[1..][k] == t[j];
        assert s[k + 1] == t[j];
      }
    }
  }

  lemma {:induction false} InsertSorted<T>(x: T, s: seq<T>, key: T -> Value, desc: bool)
    requires SortedBy(s, key, desc)
    ensures SortedBy(Insert(x, s, key, desc), key, desc)
  {
    if s == [] {
    } else if Before(key(x), key(s[0]), desc) {
      forall j | 0 <= j < |s| ensures Before(key(x), key(s[j]), desc) {
        if j > 0 {
          BeforeTrans(key(x), key(s[0]), key(s[j]), desc);
        }
      }
      ConsSorted(x, s, key, desc);
    } else {
      InsertSorted(x, s[1..], key, desc);
      BeforeTotal(key(x), key(s[0]), desc);
      HeadBeforeInsert(x, s, key, desc);
      ConsSorted(s[0], Insert(x, s[1..], key, desc), key, desc);
    }
  }

  /** Sorting yields the same documents, in key order. */
  lemma {:induction false} SortByCorrect<T>(xs: seq<T>, key: T -> Value, desc: bool)
    ensures multiset(SortBy(xs, key, desc)) == multiset(xs)
    ensures SortedBy(SortBy(xs, key, desc), key, desc)
    ensures |SortBy(xs, key, desc)| == |xs|
  {
    if xs != [] {
      SortByCorrect(xs[1..], key, desc);
      InsertMultiset(xs[0], SortBy(xs[1..], key, desc), key, desc);
      InsertSorted(xs[0], SortBy(xs[1..], key, desc), key, desc);
      assert xs == [xs[0]] + xs[1..];
    }
  }

  /** An order-preserving filter of a sorted list is sorted. */
  lemma FilterSorted<T>(s: seq<T>, p: T -> bool, key: T -> Value, desc: bool)
    requires SortedBy(s, key, desc)
    ensures SortedBy(Filter(s, p), key, desc)
  {
    if s != [] {
      FilterSorted(s[1..], p, key, desc);
      FilterMembers(s[1..], p);
      var t := Filter(s[1..], p);
      forall j | 0 <= j < |t| ensures Before(key(s[0]), key(t[j]), desc) {
        assert t[j] in t;
        assert t[j] in s[1..];
        var k :| 0 <= k < |s[1..]| && s[1..][k] == t[j];
        assert s[k + 1] == t[j];
      }
    }
  }

  // ---------------------------------------------------------------------
  // Cursor skip and limit

  function Min(a: int, b: int): int { if a <= b then a else b }
  function Abs(a: int): nat { if a < 0 then -a else a }

  /** The number of results before page `page`: `(page - 1) * page_size`. */
  function Skip(page: int, pageSize: int): int {
    (page - 1) * pageSize
  }

  /** `cursor.skip(skip).limit(limit)`: a negative skip raises ValueError
      (`None`); a limit of 0 means no limit and a negative limit counts as
      its absolute value. */
  function Window<T>(xs: seq<T>, skip: int, limit: int): (r: Option<seq<T>>)
    ensures r.Some? <==> skip >= 0
    ensures r.Some? ==> forall k :: 0 <= k < |r.value| ==> skip + k < |xs| && r.value[k] == xs[skip + k]
    ensures r.Some? && limit == 0 ==> |r.value| == |xs| - Min(skip, |xs|)
    ensures r.Some? && limit != 0 ==> |r.value| == Min(Abs(limit), |xs| - Min(skip, |xs|))
  {
    if skip < 0 then None
    else
      var rest := xs[Min(skip, |xs|)..];
      Some(if limit == 0 || Abs(limit) >= |rest| then rest else rest[..Abs(limit)])
  }

  /** A window of a sorted result is sorted, and holds only its elements. */
  lemma WindowOfSorted<T>(xs: seq<T>, skip: int, limit: int, key: T -> Value, desc: bool)
    requires SortedBy(xs, key, desc) && skip >= 0
    ensures SortedBy(Window(xs, skip, limit).value, key, desc)
    ensures forall x :: x in Window(xs, skip, limit).value ==> x in xs
  {
    var w := Window(xs, skip, limit).value;
    forall i, j | 0 <= i < j < |w| ensures Before(key(w[i]), key(w[j]), desc) {
      assert w[i] == xs[skip + i] && w[j] == xs[skip + j];
    }
    forall x | x in w ensures x in xs {
      var k :| 0 <= k < |w| && w[k] == x;
      assert xs[skip + k] == x;
    }
  }

  // ---------------------------------------------------------------------
  // ObjectIds

  const OID_HEX_DIGITS: nat := 24

  function Pow16(k: nat): (r: nat)
    ensures r > 0
  {
    if k == 0 then 1 else 16 * Pow16(k - 1)
  }

  /** A 12-byte ObjectId, as the number its bytes spell. */
  type Oid = n: nat | n < Pow16(OID_HEX_DIGITS)

  predicate IsHexChar(c: char) {
    '0' <= c <= '9' || 'a' <= c <= 'f' || 'A' <= c <= 'F'
  }

  function HexChar(d: nat): (c: char)
    requires d < 16
    ensures IsHexChar(c) && c != '/'
  {
    if d < 10 then ('0' as int + d) as char else ('a' as int + d - 10) as char
  }

  function HexVal(c: char): (d: nat)
    requires IsHexChar(c)
    ensures d < 16
  {
    if c <= '9' then c as int - '0' as int
    else if c <= 'F' then c as int - 'A' as int + 10
    else c as int - 'a' as int + 10
  }

  /** The last `width` hexadecimal digits of `n`, most significant first. */
  function Hex(n: nat, width: nat): (r: string)
    ensures |r| == width
    ensures forall k :: 0 <= k < |r| ==> IsHexChar(r[k])
    ensures '/' !in r
  {
    if width == 0 then [] else Hex(n / 16, width - 1) + [HexChar(n % 16)]
  }

  function ParseHex(s: string): (n: nat)
    requires forall k :: 0 <= k < |s| ==> IsHexChar(s[k])
    ensures n < Pow16(|s|)
  {
    if s == [] then 0 else ParseHex(s[..|s| - 1]) * 16 + HexVal(s[|s| - 1])
  }

  lemma {:induction false} HexRoundTrip(n: nat, width: nat)
    requires n < Pow16(width)
    ensures ParseHex(Hex(n, width)) == n
  {
    if width > 0 {
      HexRoundTrip(n / 16, width - 1);
      var h := Hex(n, width);
      assert h[..|h| - 1] == Hex(n / 16, width - 1);
    }
  }

  /** `str(oid)`: 24 lower-case hexadecimal digits. */
  function OidText(id: Oid): (r: string)
    ensures |r| == OID_HEX_DIGITS && '/' !in r
  {
    Hex(id, OID_HEX_DIGITS)
  }

  /** Every character of `s` is a hexadecimal digit. */
  function AllHex(s: string): bool {
    s == [] || (IsHexChar(s[0]) && AllHex(s[1..]))
  }

  lemma {:induction false} AllHexIff(s: string)
    ensures AllHex(s) <==> forall k :: 0 <= k < |s| ==> IsHexChar(s[k])
  {
    if s != [] {
      AllHexIff(s[1..]);
      assert forall k :: 1 <= k < |s| ==> s[k] == s[1..][k - 1];
    }
  }

  /** `ObjectId(s)` for a string `s`: exactly 24 hexadecimal digits of
      either case; anything else raises InvalidId (`None`). This is also
      `ObjectId.is_valid(s)` for strings. */
  function ParseOid(s: string): (r: Option<Oid>)
    ensures r.Some? <==> |s| == OID_HEX_DIGITS && AllHex(s)
  {
    if |s| == OID_HEX_DIGITS && AllHex(s) then
      AllHexIff(s);
      Some(ParseHex(s))
    else None
  }

  /** `ObjectId(v)` on a request value: a string must be 24 hexadecimal
      digits (InvalidId otherwise); any other type is a TypeError. Both
      errors are `None`. */
  function IdArg(v: Value): (r: Option<Oid>)
    ensures r.Some? ==> v.Str? && ParseOid(v.s) == r
  {
    if v.Str? then ParseOid(v.s) else None
  }

  /** A request value used as a list index: Python accepts an int, and a
      bool as 0 or 1; any other type is a TypeError (`None`). */
  function IndexArg(v: Value): (r: Option<int>)
    ensures r.Some? <==> v.Int? || v.Bool?
    ensures v.Int? ==> r == Some(v.i)
    ensures v.Bool? ==> r == Some(if v.b then 1 else 0)
  {
    match v
    case Int(i) => Some(i)
    case Bool(b) => Some(if b then 1 else 0)
    case _ => None
  }

  /** The text of an ObjectId parses back to the same ObjectId. */
  lemma OidRoundTrip(id: Oid)
    ensures ParseOid(OidText(id)) == Some(id)
  {
    AllHexIff(OidText(id));
    HexRoundTrip(id, OID_HEX_DIGITS);
  }

  /** Parsing the text of a stored reference `str(oid)` compares equal to
      `ObjectId(...)` of another reference exactly when the ids are equal. */
  lemma OidTextInjective(a: Oid, b: Oid)
    ensures OidText(a) == OidText(b) <==> a == b
  {
    OidRoundTrip(a);
    OidRoundTrip(b);
  }
}

=== FILE: diary.dfy ===
/** The game diary (routes/diary_routes.py): posting an entry with an
    optional photo, one page of one user's entries, and one page of all
    entries. */
module Diary {
  import opened Python
  import opened Bson
  import opened Store

  /** The stadiums where the team plays at home. */
  const HOME_LOCATIONS: seq<string> := ["busan", "second", "third"]

  /** `location in HOME_LOCATIONS` */
  predicate IsHomeGame(location: string): (r: bool)
    ensures r <==> location == "busan" || location == "second" || location == "third"
  {
    location in HOME_LOCATIONS
  }

  /** The `diary_photo` field: missing or None, an ObjectId (what
      `post_diary` stores), or a text some other writer left there. */
  datatype DiaryPhoto = NoPhoto | IdRef(id: Oid) | TextRef(text: string)

  /** `diary.get('diary_photo')` is truthy: an ObjectId always is. */
  predicate PhotoTruthy(p: DiaryPhoto) {
    p.IdRef? || (p.TextRef? && p.text != "")
  }

  /** The seat: `seat_info` groups section, row and number. */
  datatype Seat = Seat(section: string, row: string, number: string)

  /** A document of `diaries`. The date is the parsed form date and
      `savedAt` the time of the post, both in microseconds. */
  datatype Entry = Entry(id: Oid, name: string, date: int, weather: string, location: string,
                         together: string, winStatus: string, isHomeGame: bool, photo: DiaryPhoto,
                         message: string, savedAt: int, seat: Seat)

  /** The request form of `post_diary`; every field is "" when absent. */
  datatype Form = Form(name: string, date: string, weather: string, location: string, together: string,
                       winStatus: string, section: string, row: string, number: string, message: string)

  /** `post_diary`. The photo is stored first; then the date is parsed
      (`parseDate` stands for `strptime(date, '%Y-%m-%d')`), and a date
      that does not parse is a 500 that keeps the stored blob and inserts
      nothing. Otherwise the entry is inserted under `entryId` and its id
      returned. `now`, `photoBlob` and `entryId` are the clock and the ids
      the database generates. */
  method PostDiary(diaries: Collection<Entry>, fsDiary: BlobStore, form: Form, photo: Option<Upload>,
                   parseDate: string -> Option<int>, now: int, photoBlob: Oid, entryId: Oid)
    returns (status: int, id: Option<string>)
    requires photoBlob !in fsDiary.ids
    modifies diaries, fsDiary
    ensures fsDiary.ids == if Uploaded(photo) then old(fsDiary.ids) + {photoBlob} else old(fsDiary.ids)
    ensures parseDate(form.date).None? ==> status == 500 && id.None? && diaries.docs == old(diaries.docs)
    ensures parseDate(form.date).Some? ==>
              && status == 200 && id == Some(OidText(entryId))
              && diaries.docs == old(diaries.docs) +
                   [Entry(entryId, form.name, parseDate(form.date).value, form.weather, form.location,
                          form.together, form.winStatus, IsHomeGame(form.location),
                          if Uploaded(photo) then IdRef(photoBlob) else NoPhoto,
                          form.message, now, Seat(form.section, form.row, form.number))]
  {
    var photoId := NoPhoto;
    if Uploaded(photo) {
      fsDiary.ids := fsDiary.ids + {photoBlob};
      photoId := IdRef(photoBlob);
    }
    var isHome := IsHomeGame(form.location);
    var date := parseDate(form.date);
    if date.None? {
      return 500, None;
    }
    var entry := Entry(entryId, form.name, date.value, form.weather, form.location, form.together,
                       form.winStatus, isHome, photoId, form.message, now,
                       Seat(form.section, form.row, form.number));
    diaries.docs := diaries.docs + [entry];
    return 200, Some(OidText(entryId));
  }

  // ---------------------------------------------------------------------
  // Listings

  /** What a listing shows in place of `diary_photo`: the field as stored
      (with `Kept(NoPhoto)` for None), or the base64 text of the blob. */
  datatype ShownPhoto = Kept(photo: DiaryPhoto) | Data(base64: string)

  /** An entry of a listing: its id as text, the stored entry, and the
      photo as shown. */
  datatype EntryView = EntryView(id: string, entry: Entry, photo: ShownPhoto)

  /** `ObjectId.is_valid` and `ObjectId(...)` on the stored field. */
  function PhotoId(p: DiaryPhoto): Option<Oid> {
    match p
    case NoPhoto => None
    case IdRef(id) => Some(id)
    case TextRef(text) => ParseOid(text)
  }

  /** The photo of `get_diary_personal`: a truthy field becomes the encoded
      blob when it names a stored one, and None otherwise (an invalid id or
      any error reading the blob); a falsy one stays as it is. */
  function ShowPersonal(p: DiaryPhoto, store: set<Oid>, encode: Oid -> string): (r: ShownPhoto)
    ensures r.Data? <==> PhotoTruthy(p) && PhotoId(p).Some? && PhotoId(p).value in store
    ensures r.Data? ==> r.base64 == encode(PhotoId(p).value)
    ensures r.Kept? ==> r.photo == if PhotoTruthy(p) then NoPhoto else p
  {
    if !PhotoTruthy(p) then Kept(p)
    else
      var id := PhotoId(p);
      if id.Some? && id.value in store then Data(encode(id.value)) else Kept(NoPhoto)
  }

  /** The photo of `get_diary_entries`: a truthy field must name a stored
      blob. Its handler for a missing file names the module `gridfs`, which
      the route never imports, so any failure to read the photo ends the
      whole listing with a 500 (`None`). */
  function ShowAll(p: DiaryPhoto, store: set<Oid>, encode: Oid -> string): (r: Option<ShownPhoto>)
    ensures r.None? <==> PhotoTruthy(p) && (PhotoId(p).None? || PhotoId(p).value !in store)
  {
    if !PhotoTruthy(p) then Some(Kept(p))
    else
      var id := PhotoId(p);
      if id.Some? && id.value in store then Some(Data(encode(id.value))) else None
  }

  /** Where the all-entries listing shows a photo, it shows the one the
      personal listing shows. */
  lemma ListingsAgree(p: DiaryPhoto, store: set<Oid>, encode: Oid -> string)
    ensures ShowAll(p, store, encode).Some? ==> ShowAll(p, store, encode).value == ShowPersonal(p, store, encode)
    ensures ShowAll(p, store, encode).None? ==> ShowPersonal(p, store, encode) == Kept(NoPhoto)
  {
  }

  function PersonalView(e: Entry, store: set<Oid>, encode: Oid -> string): EntryView {
    EntryView(OidText(e.id), e, ShowPersonal(e.photo, store, encode))
  }

  function DateKey(e: Entry): Value { Date(e.date) }

  /** `find({"name": user}).sort('date', -1)` */
  function ByUser(docs: seq<Entry>, user: string): seq<Entry> {
    SortBy(Filter(docs, (e: Entry) => e.name == user), DateKey, true)
  }

  /** `get_diary_personal` with the `page`, `page_size` and `user`
      arguments: a missing or empty user is a 400; a negative skip is a 500;
      otherwise the page of the user's entries, newest date first, each with
      its photo resolved. */
  method GetDiaryPersonal(docs: seq<Entry>, store: set<Oid>, encode: Oid -> string,
                          page: int, pageSize: int, user: Option<string>)
    returns (status: int, r: seq<EntryView>)
    ensures user.None? || user.value == "" <==> status == 400
    ensures status == 500 <==> user.Some? && user.value != "" && Skip(page, pageSize) < 0
    ensures status != 200 ==> r == []
    ensures status == 200 ==>
              var window := Window(ByUser(docs, user.value), Skip(page, pageSize), pageSize).value;
              r == Map(window, e => PersonalView(e, store, encode))
    ensures status in {200, 400, 500}
  {
    if user.None? || user.value == "" {
      return 400, [];
    }
    var window := Window(ByUser(docs, user.value), Skip(page, pageSize), pageSize);
    if window.None? {
      return 500, [];
    }
    var entries := window.value;
    r := [];
    var k := 0;
    while k < |entries|
      invariant 0 <= k <= |entries|
      invariant r == Map(entries[..k], e => PersonalView(e, store, encode))
    {
      MapPrefixStep(entries, k, e => PersonalView(e, store, encode));
      r := r + [PersonalView(entries[k], store, encode)];
      k := k + 1;
    }
    assert entries[..k] == entries;
    return 200, r;
  }

  /** The personal page holds only the user's entries, newest date first. */
  lemma PersonalPageShape(docs: seq<Entry>, page: int, pageSize: int, user: string)
    requires Skip(page, pageSize) >= 0
    ensures var window := Window(ByUser(docs, user), Skip(page, pageSize), pageSize).value;
            && SortedBy(window, DateKey, true)
            && forall e :: e in window ==> e.name == user && e in docs
  {
    var mine := Filter(docs, (e: Entry) => e.name == user);
    FilterMembers(docs, (e: Entry) => e.name == user);
    SortByCorrect(mine, DateKey, true);
    WindowOfSorted(ByUser(docs, user), Skip(page, pageSize), pageSize, DateKey, true);
    forall e | e in ByUser(docs, user) ensures e in mine {
      assert e in multiset(ByUser(docs, user));
    }
  }

  /** The views of `entries` in `get_diary_entries`, or `None` when some
      photo cannot be read. */
  function AllViews(entries: seq<Entry>, store: set<Oid>, encode: Oid -> string): (r: Option<seq<EntryView>>)
    ensures r.Some? <==> forall k :: 0 <= k < |entries| ==> ShowAll(entries[k].photo, store, encode).Some?
    ensures r.Some? ==> |r.value| == |entries|
    ensures r.Some? ==> forall k :: 0 <= k < |entries| ==>
              r.value[k] == EntryView(OidText(entries[k].id), entries[k], ShowAll(entries[k].photo, store, encode).value)
  {
    if entries == [] then Some([])
    else
      var front := AllViews(entries[..|entries| - 1], store, encode);
      var e := entries[|entries| - 1];
      var shown := ShowAll(e.photo, store, encode);
      if front.None? || shown.None? then None
      else Some(front.value + [EntryView(OidText(e.id), e, shown.value)])
  }

  /** When the all-entries listing succeeds, its page is what the personal
      listing would show for the same entries. */
  lemma AllViewsArePersonal(entries: seq<Entry>, store: set<Oid>, encode: Oid -> string)
    requires AllViews(entries, store, encode).Some?
    ensures AllViews(entries, store, encode).value == Map(entries, e => PersonalView(e, store, encode))
  {
    var r := AllViews(entries, store, encode).value;
    forall k | 0 <= k < |entries|
      ensures r[k] == PersonalView(entries[k], store, encode)
    {
      ListingsAgree(entries[k].photo, store, encode);
    }
  }

  /** `get_diary_entries` with the `page` and `page_size` arguments: all
      entries, newest date first (the cursor sorts before it skips,
      whatever the call order), the page's window, each photo read; a
      negative skip or any unreadable photo is a 500 (`None`). */
  method GetDiaryEntries(docs: seq<Entry>, store: set<Oid>, encode: Oid -> string, page: int, pageSize: int)
    returns (r: Option<seq<EntryView>>)
    ensures var window := Window(SortBy(docs, DateKey, true), Skip(page, pageSize), pageSize);
            r == if window.None? then None else AllViews(window.value, store, encode)
  {
    var window := Window(SortBy(docs, DateKey, true), Skip(page, pageSize), pageSize);
    if window.None? {
      return None;
    }
    var entries := window.value;
    var views: seq<EntryView> := [];
    var k := 0;
    while k < |entries|
      invariant 0 <= k <= |entries|
      invariant AllViews(entries[..k], store, encode) == Some(views)
    {
      assert entries[..k + 1][..k] == entries[..k];
      var e := entries[k];
      var shown := ShowAll(e.photo, store, encode);
      if shown.None? {
        AllViewsNoneStays(entries, k + 1, store, encode);
        return None;
      }
      views := views + [EntryView(OidText(e.id), e, shown.value)];
      k := k + 1;
    }
    assert entries[..k] == entries;
    return Some(views);
  }

  /** Once the views of a prefix have failed, the views of the whole fail. */
  lemma {:induction false} AllViewsNoneStays(xs: seq<Entry>, n: nat, store: set<Oid>, encode: Oid -> string)
    requires n <= |xs| && AllViews(xs[..n], store, encode).None?
    ensures AllViews(xs, store, encode).None?
    decreases |xs| - n
  {
    if n < |xs| {
      assert xs[..n + 1][..n] == xs[..n];
      AllViewsNoneStays(xs, n + 1, store, encode);
    } else {
      assert xs[..n] == xs;
    }
  }
}

=== FILE: events.dfy ===
/** The public event routes (routes/event_routes.py): the event list, one
    event's details, and one page of an event's photos. An event's photos
    are the texts of the ids of its blobs in the event photo store. */
module Events {
  import opened Python
  import opened Bson
  import opened Store

  /** A document of `admin_events`: the `check_*` fields are kept in
      `checks`, and `photos` is missing until the upload step sets it. */
  datatype Event = Event(id: Oid, title: string, url: string, description: string, date: int,
                         checks: map<string, string>, photos: Option<seq<string>>)

  /** The first event with the given id. */
  function FindEvent(docs: seq<Event>, id: Oid): Option<nat> {
    FindFirst(docs, (e: Event) => e.id == id)
  }

  function DateKey(e: Event): Value { Date(e.date) }

  /** `get_event_list`: every event, newest date first. */
  function EventList(docs: seq<Event>): (r: seq<Event>)
    ensures multiset(r) == multiset(docs)
    ensures SortedBy(r, DateKey, true)
  {
    SortByCorrect(docs, DateKey, true);
    SortBy(docs, DateKey, true)
  }

  // ---------------------------------------------------------------------
  // Event details

  /** `event.get("check_1", "")` and its two siblings. */
  datatype CheckFields = CheckFields(check1: string, check2: string, check3: string)

  function CheckOr(checks: map<string, string>, key: string): string {
    if key in checks then checks[key] else ""
  }

  function CheckFieldsOf(e: Event): (c: CheckFields)
    ensures c.check1 == (if "check_1" in e.checks then e.checks["check_1"] else "")
    ensures c.check2 == (if "check_2" in e.checks then e.checks["check_2"] else "")
    ensures c.check3 == (if "check_3" in e.checks then e.checks["check_3"] else "")
  {
    CheckFields(CheckOr(e.checks, "check_1"), CheckOr(e.checks, "check_2"), CheckOr(e.checks, "check_3"))
  }

  /** The event of a detail answer: its fields, `checkFields`, and an
      empty photo list. */
  datatype EventDetail = EventDetail(id: string, title: string, url: string, description: string,
                                     date: int, checks: map<string, string>,
                                     checkFields: CheckFields, photos: seq<string>)

  datatype DetailReply = DetailFound(event: EventDetail) | DetailNotFound | DetailError

  /** `get_event_detail(event_id)`: an id that is not an ObjectId is a 500,
      an unknown one a 404. */
  function GetEventDetail(docs: seq<Event>, eventId: string): (r: DetailReply)
    ensures r.DetailError? <==> ParseOid(eventId).None?
    ensures r.DetailNotFound? <==> ParseOid(eventId).Some? && FindEvent(docs, ParseOid(eventId).value).None?
    ensures r.DetailFound? ==>
              var e := docs[FindEvent(docs, ParseOid(eventId).value).value];
              && e.id == ParseOid(eventId).value && r.event.id == OidText(e.id)
              && r.event.title == e.title && r.event.url == e.url
              && r.event.description == e.description && r.event.date == e.date
              && r.event.checks == e.checks && r.event.checkFields == CheckFieldsOf(e)
              && r.event.photos == []
  {
    var id := ParseOid(eventId);
    if id.None? then DetailError
    else
      var k := FindEvent(docs, id.value);
      if k.None? then DetailNotFound
      else
        var e := docs[k.value];
        DetailFound(EventDetail(OidText(e.id), e.title, e.url, e.description, e.date, e.checks,
                                CheckFieldsOf(e), []))
  }

  // ---------------------------------------------------------------------
  // Event photos

  /** The id inside an `Option`, 0 for `None`. */
  function IdOf(o: Option<Oid>): Oid {
    if o.Some? then o.value else 0
  }

  /** The ObjectIds among the texts `ids` whose blobs `store` holds, in
      list order. */
  function StoredIds(ids: seq<string>, store: set<Oid>): seq<Oid> {
    Map(Filter(Map(ids, ParseOid), (o: Option<Oid>) => o.Some? && o.value in store), IdOf)
  }

  /** The stored ids of a non-empty list, by its last text. */
  lemma StoredIdsLast(ids: seq<string>, store: set<Oid>)
    requires ids != []
    ensures var last := ParseOid(ids[|ids| - 1]);
            StoredIds(ids, store)
            == StoredIds(ids[..|ids| - 1], store) + (if last.Some? && last.value in store then [last.value] else [])
  {
    var ys := Map(ids, ParseOid);
    assert Map(ids[..|ids| - 1], ParseOid) == ys[..|ys| - 1];
    MapFilterLast(ys, (o: Option<Oid>) => o.Some? && o.value in store, IdOf);
  }

  /** The data URLs of the blobs of `StoredIds`, in order. */
  function StoredPhotos(ids: seq<string>, store: set<Oid>, encode: Oid -> string): seq<string> {
    Map(StoredIds(ids, store), encode)
  }

  /** The stored photos of a non-empty list, by its last text. */
  lemma StoredPhotosLast(ids: seq<string>, store: set<Oid>, encode: Oid -> string)
    requires ids != []
    ensures var last := ParseOid(ids[|ids| - 1]);
            StoredPhotos(ids, store, encode)
            == StoredPhotos(ids[..|ids| - 1], store, encode)
               + (if last.Some? && last.value in store then [encode(last.value)] else [])
  {
    var last := ParseOid(ids[|ids| - 1]);
    StoredIdsLast(ids, store);
    if last.Some? && last.value in store {
      MapPush(StoredIds(ids[..|ids| - 1], store), last.value, encode);
    }
  }

  /** Every text of `ids` is an ObjectId. */
  predicate AllParse(ids: seq<string>) {
    forall k :: 0 <= k < |ids| ==> ParseOid(ids[k]).Some?
  }

  /** Every id of a non-empty list parses exactly when those before the
      last one do and the last one does. */
  lemma AllParseLast(ids: seq<string>)
    requires ids != []
    ensures AllParse(ids) <==> AllParse(ids[..|ids| - 1]) && ParseOid(ids[|ids| - 1]).Some?
  {
    assert forall k :: 0 <= k < |ids| - 1 ==> ids[..|ids| - 1][k] == ids[k];
  }

  /** The data URLs of the stored photos among `ids`, in order: a missing
      blob is skipped, and an id that is not an ObjectId raises (`None`).
      `encode` stands for reading a blob and writing its data URL. */
  function EncodedPhotos(ids: seq<string>, store: set<Oid>, encode: Oid -> string): (r: Option<seq<string>>)
    ensures r.Some? <==> forall k :: 0 <= k < |ids| ==> ParseOid(ids[k]).Some?
    ensures r.Some? ==> r.value == StoredPhotos(ids, store, encode)
  {
    if ids == [] then Some([])
    else
      var front := EncodedPhotos(ids[..|ids| - 1], store, encode);
      var last := ParseOid(ids[|ids| - 1]);
      AllParseLast(ids);
      if front.None? || last.None? then None
      else
        StoredPhotosLast(ids, store, encode);
        if last.value in store then Some(front.value + [encode(last.value)]) else front
  }

  /** The photos are no more than the ids, and each is the data URL of a
      listed, stored blob. */
  lemma EncodedPhotosFromIds(ids: seq<string>, store: set<Oid>, encode: Oid -> string)
    requires EncodedPhotos(ids, store, encode).Some?
    ensures |EncodedPhotos(ids, store, encode).value| <= |ids|
    ensures forall u :: u in EncodedPhotos(ids, store, encode).value ==>
              exists k :: 0 <= k < |ids| && ParseOid(ids[k]).value in store && u == encode(ParseOid(ids[k]).value)
  {
    var ys := Map(ids, ParseOid);
    var p := (o: Option<Oid>) => o.Some? && o.value in store;
    var stored := StoredIds(ids, store);
    FilterMembers(ys, p);
    forall u | u in EncodedPhotos(ids, store, encode).value
      ensures exists k :: 0 <= k < |ids| && ParseOid(ids[k]).value in store && u == encode(ParseOid(ids[k]).value)
    {
      var i :| 0 <= i < |stored| && u == encode(stored[i]);
      var o := Filter(ys, p)[i];
      assert o in Filter(ys, p);
      var k :| 0 <= k < |ys| && ys[k] == o;
      assert ParseOid(ids[k]) == o;
    }
  }

  /** One more id: the photos so far, and the new blob's photo when the
      id parses and the blob is stored. */
  lemma EncodedStep(ids: seq<string>, k: nat, store: set<Oid>, encode: Oid -> string)
    requires k < |ids|
    ensures var prev := EncodedPhotos(ids[..k], store, encode);
            var id := ParseOid(ids[k]);
            EncodedPhotos(ids[..k + 1], store, encode)
            == if prev.None? || id.None? then None
               else if id.value in store then Some(prev.value + [encode(id.value)])
               else prev
  {
    assert ids[..k + 1][..k] == ids[..k];
    assert ids[..k + 1][k] == ids[k];
  }

  /** The photo loop of `get_event_photos` and `get_admin_events`. */
  method EncodePhotos(ids: seq<string>, store: set<Oid>, encode: Oid -> string) returns (r: Option<seq<string>>)
    ensures r == EncodedPhotos(ids, store, encode)
  {
    var photos: seq<string> := [];
    var k := 0;
    while k < |ids|
      invariant 0 <= k <= |ids|
      invariant EncodedPhotos(ids[..k], store, encode) == Some(photos)
    {
      EncodedStep(ids, k, store, encode);
      var id := ParseOid(ids[k]);
      if id.None? {
        assert ids[k] == ids[..k + 1][k];
        return None;
      }
      if id.value in store {
        photos := photos + [encode(id.value)];
      }
      k := k + 1;
    }
    assert ids[..k] == ids;
    return Some(photos);
  }

  /** `(total + page_size - 1) // page_size` */
  function TotalPages(total: nat, pageSize: int): int
    requires pageSize != 0
  {
    FloorDiv(total + pageSize - 1, pageSize)
  }

  /** With a positive page size the page count is the ceiling of
      `total / pageSize`: the pages hold every photo, and the last one is
      not empty. */
  lemma TotalPagesCeiling(total: nat, pageSize: int)
    requires pageSize > 0
    ensures TotalPages(total, pageSize) >= 0
    ensures TotalPages(total, pageSize) * pageSize >= total
    ensures (TotalPages(total, pageSize) - 1) * pageSize < total || total == 0
    ensures total == 0 <==> TotalPages(total, pageSize) == 0
  {
    var q := TotalPages(total, pageSize);
    assert q * pageSize <= total + pageSize - 1 < q * pageSize + pageSize;
    assert (q - 1) * pageSize == q * pageSize - pageSize;
  }

  /** The ids of page `page`: `photo_ids[start:end]` with
      `start = (page - 1) * page_size`. */
  function PageIds(ids: seq<string>, page: int, pageSize: int): seq<string> {
    var start := Skip(page, pageSize);
    Slice(ids, start, start + pageSize)
  }

  /** Pages 1..n one after the other. */
  function Pages(ids: seq<string>, pageSize: int, n: nat): seq<string> {
    if n == 0 then [] else Pages(ids, pageSize, n - 1) + PageIds(ids, n, pageSize)
  }

  /** Page `n` starts where page `n - 1` ends. */
  lemma PageStep(n: nat, pageSize: int)
    requires n > 0 && pageSize > 0
    ensures Skip(n, pageSize) >= 0
    ensures Skip(n, pageSize) + pageSize == n * pageSize
  {
  }

  /** A prefix followed by the slice that starts where it ends is the longer
      prefix. */
  lemma PrefixThenSlice(ids: seq<string>, a: int, b: int)
    requires 0 <= a <= b
    ensures ids[..Min(a, |ids|)] + Slice(ids, a, b) == ids[..Min(b, |ids|)]
  {
    assert SliceBound(a, |ids|) == Min(a, |ids|) && SliceBound(b, |ids|) == Min(b, |ids|);
  }

  /** With a positive page size, pages 1..n are the first `n * page_size`
      photos, in order. */
  lemma {:induction false} PagesArePrefix(ids: seq<string>, pageSize: int, n: nat)
    requires pageSize > 0
    ensures Pages(ids, pageSize, n) == ids[..Min(n * pageSize, |ids|)]
  {
    if n > 0 {
      PagesArePrefix(ids, pageSize, n - 1);
      PageStep(n, pageSize);
      var a, b := Skip(n, pageSize), n * pageSize;
      assert a == (n - 1) * pageSize;
      PrefixThenSlice(ids, a, b);
    }
  }

  /** Every photo is on exactly one of the pages 1..total_pages, in order. */
  lemma PagesCoverPhotos(ids: seq<string>, pageSize: int)
    requires pageSize > 0
    ensures Pages(ids, pageSize, TotalPages(|ids|, pageSize)) == ids
  {
    TotalPagesCeiling(|ids|, pageSize);
    PagesArePrefix(ids, pageSize, TotalPages(|ids|, pageSize));
  }

  datatype PhotosReply =
    | PhotosError
    | PhotosPage(photos: seq<string>, totalPhotos: int, totalPages: int, page: int, pageSize: int)

  /** `get_event_photos(event_id)` with the `page` and `page_size` query
      values. An event without `photos` answers an empty first page; an id
      that is not an ObjectId, a photo id that is not one, or a page size of
      0 is a 500. */
  method GetEventPhotos(docs: seq<Event>, fsEvent: set<Oid>, eventId: string, page: int, pageSize: int,
                        encode: Oid -> string)
    returns (r: PhotosReply)
    ensures ParseOid(eventId).None? ==> r == PhotosError
    ensures ParseOid(eventId).Some? ==>
              var k := FindEvent(docs, ParseOid(eventId).value);
              if k.None? || docs[k.value].photos.None? then r == PhotosPage([], 0, 0, 1, pageSize)
              else
                var ids := docs[k.value].photos.value;
                var photos := EncodedPhotos(PageIds(ids, page, pageSize), fsEvent, encode);
                if photos.None? || pageSize == 0 then r == PhotosError
                else r == PhotosPage(photos.value, |ids|, TotalPages(|ids|, pageSize), page, pageSize)
    ensures r.PhotosPage? && pageSize >= 0 ==> |r.photos| <= pageSize
  {
    var id := ParseOid(eventId);
    if id.None? {
      return PhotosError;
    }
    var k := FindEvent(docs, id.value);
    if k.None? || docs[k.value].photos.None? {
      return PhotosPage([], 0, 0, 1, pageSize);
    }
    var ids := docs[k.value].photos.value;
    var total := |ids|;
    var start := Skip(page, pageSize);
    var end := start + pageSize;
    var photos := EncodePhotos(Slice(ids, start, end), fsEvent, encode);
    if photos.None? || pageSize == 0 {
      return PhotosError;
    }
    return PhotosPage(photos.value, total, TotalPages(total, pageSize), page, pageSize);
  }
}

=== FILE: guestbook.dfy ===
/** The guestbook (routes/guestbook_routes.py): posting an entry with an
    optional photo, the listing split into entries with and without a photo,
    the owner's delete, one page of a user's entries, and updating an
    entry's message and photo. */
module Guestbook {
  import opened Python
  import opened Bson
  import opened Store

  /** A document of `guestbooks`; `photoId` is the text of a blob id, or
      missing. The date is the text the form sent. */
  datatype Entry = Entry(id: Oid, name: string, message: string, date: string, photoId: Option<string>)

  /** An entry as the listings return it, with the encoded photo when it
      has one. */
  datatype EntryView = EntryView(id: string, name: string, message: string, date: string,
                                 photoId: Option<string>, photoData: Option<string>)

  /** `entry.get('photo_id')` is truthy. */
  predicate HasPhoto(e: Entry) {
    TruthyText(e.photoId)
  }

  /** The photo of an entry with a photo can be read: its id is an
      ObjectId of a stored blob. */
  predicate PhotoReadable(e: Entry, store: set<Oid>) {
    !HasPhoto(e) || (ParseOid(e.photoId.value).Some? && ParseOid(e.photoId.value).value in store)
  }

  /** The listing form of an entry; `encode` stands for reading a blob and
      encoding it in base64. */
  function View(e: Entry, store: set<Oid>, encode: Oid -> string): (v: EntryView)
    ensures v.photoData.Some? <==> HasPhoto(e) && PhotoReadable(e, store)
    ensures v.id == OidText(e.id) && v.name == e.name && v.message == e.message
            && v.date == e.date && v.photoId == e.photoId
  {
    var data := if HasPhoto(e) && PhotoReadable(e, store) then Some(encode(ParseOid(e.photoId.value).value)) else None;
    EntryView(OidText(e.id), e.name, e.message, e.date, e.photoId, data)
  }

  /** The loop that shapes the entries of a listing: every entry with a
      photo must have a readable one, or the listing is a 500 (`None`). */
  method ShapeEntries(entries: seq<Entry>, store: set<Oid>, encode: Oid -> string)
    returns (r: Option<seq<EntryView>>)
    ensures r.Some? <==> forall k :: 0 <= k < |entries| ==> PhotoReadable(entries[k], store)
    ensures r.Some? ==> r.value == Map(entries, e => View(e, store, encode))
  {
    var views: seq<EntryView> := [];
    var k := 0;
    while k < |entries|
      invariant 0 <= k <= |entries|
      invariant forall j :: 0 <= j < k ==> PhotoReadable(entries[j], store)
      invariant views == Map(entries[..k], e => View(e, store, encode))
    {
      if !PhotoReadable(entries[k], store) {
        return None;
      }
      MapPrefixStep(entries, k, e => View(e, store, encode));
      views := views + [View(entries[k], store, encode)];
      k := k + 1;
    }
    assert entries[..k] == entries;
    return Some(views);
  }

  // ---------------------------------------------------------------------
  // Posting

  /** `post_guestbook` with the form's name, message and date (each "" when
      absent) and the uploaded photo. `entryId` and `photoBlob` are the ids
      the database generates. */
  method PostGuestbook(guestbooks: Collection<Entry>, fsGuestbooks: BlobStore, name: string,
                       message: string, date: string, photo: Option<Upload>, entryId: Oid, photoBlob: Oid)
    returns (status: int)
    requires photoBlob !in fsGuestbooks.ids
    modifies guestbooks, fsGuestbooks
    ensures name == "" || message == "" ==>
              status == 400 && guestbooks.docs == old(guestbooks.docs) && fsGuestbooks.ids == old(fsGuestbooks.ids)
    ensures name != "" && message != "" ==>
              && status == 200
              && fsGuestbooks.ids == (if Uploaded(photo) then old(fsGuestbooks.ids) + {photoBlob} else old(fsGuestbooks.ids))
              && guestbooks.docs == old(guestbooks.docs) +
                   [Entry(entryId, name, message, date, if Uploaded(photo) then Some(OidText(photoBlob)) else None)]
  {
    if name == "" || message == "" {
      return 400;
    }
    var photoId: Option<string> := None;
    if Uploaded(photo) {
      fsGuestbooks.ids := fsGuestbooks.ids + {photoBlob};
      photoId := Some(OidText(photoBlob));
    }
    guestbooks.docs := guestbooks.docs + [Entry(entryId, name, message, date, photoId)];
    return 200;
  }

  // ---------------------------------------------------------------------
  // The listing with and without photos

  function DateKey(e: Entry): Value { Str(e.date) }

  /** `find().sort('date', -1)` */
  function ByDate(docs: seq<Entry>): seq<Entry> {
    SortBy(docs, DateKey, true)
  }

  predicate NoPhoto(e: Entry) { !HasPhoto(e) }

  datatype Partition = Partition(photoEntries: seq<EntryView>, noPhotoEntries: seq<EntryView>)

  /** `View` with the store and the encoder fixed. */
  function Viewer(store: set<Oid>, encode: Oid -> string): Entry -> EntryView {
    e => View(e, store, encode)
  }

  /** What the loop of `get_guestbook_entries` makes of the entries `xs`:
      an entry with a photo goes to the first list, one without to the
      second, and an unreadable photo stops the listing (`None`). */
  function Split(xs: seq<Entry>, store: set<Oid>, encode: Oid -> string): Option<Partition> {
    if xs == [] then Some(Partition([], []))
    else
      var front := Split(xs[..|xs| - 1], store, encode);
      var e := xs[|xs| - 1];
      if front.None? then None
      else if !HasPhoto(e) then Some(front.value.(noPhotoEntries := front.value.noPhotoEntries + [View(e, store, encode)]))
      else if PhotoReadable(e, store) then Some(front.value.(photoEntries := front.value.photoEntries + [View(e, store, encode)]))
      else None
  }

  /** The split succeeds exactly when every photo is readable, and then the
      two lists are the entries with and without a photo, in their order. */
  lemma SplitCorrect(xs: seq<Entry>, store: set<Oid>, encode: Oid -> string)
    ensures Split(xs, store, encode).Some? <==> forall k :: 0 <= k < |xs| ==> PhotoReadable(xs[k], store)
    ensures Split(xs, store, encode).Some? ==>
              && Split(xs, store, encode).value.photoEntries == Map(Filter(xs, HasPhoto), Viewer(store, encode))
              && Split(xs, store, encode).value.noPhotoEntries == Map(Filter(xs, NoPhoto), Viewer(store, encode))
  {
    SplitSomeIff(xs, store, encode);
    if Split(xs, store, encode).Some? {
      SplitContents(xs, store, encode);
    }
  }

  lemma {:induction false} SplitSomeIff(xs: seq<Entry>, store: set<Oid>, encode: Oid -> string)
    ensures Split(xs, store, encode).Some? <==> forall k :: 0 <= k < |xs| ==> PhotoReadable(xs[k], store)
  {
    if xs != [] {
      var front := xs[..|xs| - 1];
      SplitSomeIff(front, store, encode);
      assert forall k :: 0 <= k < |front| ==> front[k] == xs[k];
    }
  }

  /** One step of the split: the last entry joins the list its photo
      decides. */
  lemma SplitStep(xs: seq<Entry>, store: set<Oid>, encode: Oid -> string)
    requires xs != [] && Split(xs, store, encode).Some?
    ensures Split(xs[..|xs| - 1], store, encode).Some?
    ensures var p := Split(xs[..|xs| - 1], store, encode).value;
            var e := xs[|xs| - 1];
            Split(xs, store, encode).value
            == if HasPhoto(e) then p.(photoEntries := p.photoEntries + [Viewer(store, encode)(e)])
               else p.(noPhotoEntries := p.noPhotoEntries + [Viewer(store, encode)(e)])
  {
    var e := xs[|xs| - 1];
    assert Viewer(store, encode)(e) == View(e, store, encode);
  }

  lemma {:induction false} SplitContents(xs: seq<Entry>, store: set<Oid>, encode: Oid -> string)
    requires Split(xs, store, encode).Some?
    ensures Split(xs, store, encode).value.photoEntries == Map(Filter(xs, HasPhoto), Viewer(store, encode))
    ensures Split(xs, store, encode).value.noPhotoEntries == Map(Filter(xs, NoPhoto), Viewer(store, encode))
  {
    if xs != [] {
      SplitStep(xs, store, encode);
      SplitContents(xs[..|xs| - 1], store, encode);
      MapFilterLast(xs, HasPhoto, Viewer(store, encode));
      MapFilterLast(xs, NoPhoto, Viewer(store, encode));
    }
  }

  /** The loop of `get_guestbook_entries` over the sorted entries. */
  method SplitEntries(sorted: seq<Entry>, store: set<Oid>, encode: Oid -> string)
    returns (r: Option<Partition>)
    ensures r == Split(sorted, store, encode)
  {
    var photoEntries: seq<EntryView> := [];
    var noPhotoEntries: seq<EntryView> := [];
    var k := 0;
    while k < |sorted|
      invariant 0 <= k <= |sorted|
      invariant Split(sorted[..k], store, encode) == Some(Partition(photoEntries, noPhotoEntries))
    {
      var e := sorted[k];
      assert sorted[..k + 1][..k] == sorted[..k];
      if HasPhoto(e) {
        if !PhotoReadable(e, store) {
          SplitNoneStays(sorted, k + 1, store, encode);
          return None;
        }
        photoEntries := photoEntries + [View(e, store, encode)];
      } else {
        noPhotoEntries := noPhotoEntries + [View(e, store, encode)];
      }
      k := k + 1;
    }
    assert sorted[..k] == sorted;
    return Some(Partition(photoEntries, noPhotoEntries));
  }

  /** Once the split of a prefix has failed, the split of the whole fails. */
  lemma {:induction false} SplitNoneStays(xs: seq<Entry>, n: nat, store: set<Oid>, encode: Oid -> string)
    requires n <= |xs| && Split(xs[..n], store, encode).None?
    ensures Split(xs, store, encode).None?
    decreases |xs| - n
  {
    if n < |xs| {
      assert xs[..n + 1][..n] == xs[..n];
      SplitNoneStays(xs, n + 1, store, encode);
    } else {
      assert xs[..n] == xs;
    }
  }

  /** `get_guestbook_entries`: the entries, newest date first, split into
      those with a photo and those without, or `None` (a 500) when a photo
      cannot be read. */
  method GetGuestbookEntries(docs: seq<Entry>, store: set<Oid>, encode: Oid -> string)
    returns (r: Option<Partition>)
    ensures r.Some? <==> forall e :: e in docs ==> PhotoReadable(e, store)
    ensures r.Some? ==> r.value.photoEntries == Map(Filter(ByDate(docs), HasPhoto), Viewer(store, encode))
    ensures r.Some? ==> r.value.noPhotoEntries == Map(Filter(ByDate(docs), NoPhoto), Viewer(store, encode))
  {
    var sorted := ByDate(docs);
    SortByCorrect(docs, DateKey, true);
    forall e ensures e in docs <==> e in sorted {
      assert e in docs <==> e in multiset(docs);
      assert e in sorted <==> e in multiset(sorted);
    }
    r := SplitEntries(sorted, store, encode);
    SplitCorrect(sorted, store, encode);
  }

  /** Every entry lands in exactly one of the two lists, counted with
      multiplicity, and both keep the newest-first order. */
  lemma PartitionKeepsEntries(docs: seq<Entry>)
    ensures multiset(Filter(ByDate(docs), HasPhoto)) + multiset(Filter(ByDate(docs), NoPhoto)) == multiset(docs)
    ensures SortedBy(Filter(ByDate(docs), HasPhoto), DateKey, true)
    ensures SortedBy(Filter(ByDate(docs), NoPhoto), DateKey, true)
  {
    SortByCorrect(docs, DateKey, true);
    FilterPartition(ByDate(docs), HasPhoto, NoPhoto);
    FilterSorted(ByDate(docs), HasPhoto, DateKey, true);
    FilterSorted(ByDate(docs), NoPhoto, DateKey, true);
  }

  // ---------------------------------------------------------------------
  // The owner's delete

  /** `find_one({"_id": id})` */
  function FindEntry(docs: seq<Entry>, id: Oid): Option<nat> {
    FindFirst(docs, (e: Entry) => e.id == id)
  }

  /** `find_one({"_id": id, "name": nickname})` */
  function FindOwned(docs: seq<Entry>, id: Oid, nickname: string): Option<nat> {
    FindFirst(docs, (e: Entry) => e.id == id && e.name == nickname)
  }

  /** `delete_one({"_id": id})`: the first entry with the id goes. */
  function DeleteEntry(docs: seq<Entry>, id: Oid): (r: seq<Entry>)
    ensures FindEntry(docs, id).None? ==> r == docs
    ensures FindEntry(docs, id).Some? ==>
              |r| == |docs| - 1 && multiset(r) == multiset(docs) - multiset{docs[FindEntry(docs, id).value]}
  {
    var k := FindEntry(docs, id);
    if k.None? then docs else RemoveAt(docs, k.value)
  }

  /** `delete_guestbook` by the signed-in `nickname` with the `entry_id`
      argument: a missing or empty id is a 400; an entry that does not
      exist or whose name is not the caller's is a 404 with nothing changed.
      Otherwise the entry's photo blob goes first (a `photo_id` that is not
      an ObjectId, even "", is a 500), then the entry. */
  method DeleteGuestbook(guestbooks: Collection<Entry>, fsGuestbooks: BlobStore, nickname: string,
                         entryId: Option<string>)
    returns (status: int)
    modifies guestbooks, fsGuestbooks
    ensures status != 200 ==> guestbooks.docs == old(guestbooks.docs) && fsGuestbooks.ids == old(fsGuestbooks.ids)
    ensures if !TruthyText(entryId) then status == 400
            else if ParseOid(entryId.value).None? then status == 500
            else
              var id := ParseOid(entryId.value).value;
              var k := FindOwned(old(guestbooks.docs), id, nickname);
              if k.None? then status == 404
              else
                var e := old(guestbooks.docs)[k.value];
                if e.photoId.Some? && ParseOid(e.photoId.value).None? then status == 500
                else
                  && status == 200
                  && e.id == id && e.name == nickname
                  && guestbooks.docs == DeleteEntry(old(guestbooks.docs), id)
                  && fsGuestbooks.ids == (if e.photoId.Some? then old(fsGuestbooks.ids) - {ParseOid(e.photoId.value).value}
                                          else old(fsGuestbooks.ids))
    ensures status in {200, 400, 404, 500}
  {
    if !TruthyText(entryId) {
      return 400;
    }
    var id := ParseOid(entryId.value);
    if id.None? {
      return 500;
    }
    var k := FindOwned(guestbooks.docs, id.value, nickname);
    if k.None? {
      return 404;
    }
    var e := guestbooks.docs[k.value];
    if e.photoId.Some? {
      var blob := ParseOid(e.photoId.value);
      if blob.None? {
        return 500;
      }
      fsGuestbooks.ids := fsGuestbooks.ids - {blob.value};
    }
    guestbooks.docs := DeleteEntry(guestbooks.docs, id.value);
    return 200;
  }

  /** Only the author deletes: an entry whose name is not the caller's is
      never the one a successful delete matched. */
  lemma OwnerOnly(docs: seq<Entry>, id: Oid, nickname: string)
    requires FindOwned(docs, id, nickname).Some?
    ensures docs[FindOwned(docs, id, nickname).value].name == nickname
    ensures FindEntry(docs, id).Some?
  {
    var k := FindOwned(docs, id, nickname).value;
    assert docs[k].id == id;
  }

  // ---------------------------------------------------------------------
  // One page of a user's entries

  datatype Page = Page(entries: seq<EntryView>, totalEntries: nat)

  /** The entries `query` selects: all, or those with the given name when
      it is truthy. */
  function Matching(docs: seq<Entry>, name: Option<string>): (r: seq<Entry>)
    ensures forall e :: e in r <==> e in docs && (TruthyText(name) ==> e.name == name.value)
  {
    if TruthyText(name) then
      FilterMembers(docs, (e: Entry) => e.name == name.value);
      Filter(docs, (e: Entry) => e.name == name.value)
    else docs
  }

  /** `get_user_guestbook_entries` with the `page`, `page_size` and `user`
      arguments: the matching entries, newest date first, the page's
      window of them, and their total count. A negative skip or an
      unreadable photo on the page is a 500 (`None`). */
  method GetUserGuestbookEntries(docs: seq<Entry>, store: set<Oid>, encode: Oid -> string,
                                 page: int, pageSize: int, user: Option<string>)
    returns (r: Option<Page>)
    ensures var window := Window(ByDate(Matching(docs, user)), Skip(page, pageSize), pageSize);
            && (r.Some? <==> window.Some? && forall e :: e in window.value ==> PhotoReadable(e, store))
            && (r.Some? ==> r.value.entries == Map(window.value, e => View(e, store, encode))
                            && r.value.totalEntries == |Matching(docs, user)|)
  {
    var matching := Matching(docs, user);
    var window := Window(ByDate(matching), Skip(page, pageSize), pageSize);
    if window.None? {
      return None;
    }
    var entries := ShapeEntries(window.value, store, encode);
    if entries.None? {
      return None;
    }
    return Some(Page(entries.value, |matching|));
  }

  /** With a positive page size, a page holds at most `page_size` entries,
      each of them a matching one; the count does not depend on the page. */
  lemma PageBounds(docs: seq<Entry>, page: int, pageSize: int, user: Option<string>)
    requires pageSize > 0 && page >= 1
    ensures var window := Window(ByDate(Matching(docs, user)), Skip(page, pageSize), pageSize);
            && window.Some? && |window.value| <= pageSize
            && forall e :: e in window.value ==> e in Matching(docs, user)
  {
    var sorted := ByDate(Matching(docs, user));
    SortByCorrect(Matching(docs, user), DateKey, true);
    var window := Window(sorted, Skip(page, pageSize), pageSize);
    forall e | e in window.value ensures e in Matching(docs, user) {
      var k :| 0 <= k < |window.value| && window.value[k] == e;
      assert e in multiset(sorted);
    }
  }

  // ---------------------------------------------------------------------
  // Updating an entry

  /** `update_guestbook_entry` with the form's `id` and `message` and the
      uploaded photo; `photoBlob` is the id a new photo is stored under. The
      id is checked first, then the message. With a photo the entry must
      exist (404); its old photo blob is deleted and the new one stored.
      Only `message` and, with a photo, `photo_id` change; an unknown id is
      a 404. */
  method UpdateGuestbookEntry(guestbooks: Collection<Entry>, fsGuestbooks: BlobStore,
                              entryId: Option<string>, message: Option<string>, photo: Option<Upload>,
                              photoBlob: Oid)
    returns (status: int)
    requires photoBlob !in fsGuestbooks.ids
    modifies guestbooks, fsGuestbooks
    ensures !TruthyText(entryId) ==> status == 400
    ensures TruthyText(entryId) && !TruthyText(message) ==> status == 400
    ensures status != 200 ==> guestbooks.docs == old(guestbooks.docs)
    ensures status != 200 ==> fsGuestbooks.ids == old(fsGuestbooks.ids)
    ensures TruthyText(entryId) && TruthyText(message) ==>
              if ParseOid(entryId.value).None? then status == 500
              else
                var k := FindEntry(old(guestbooks.docs), ParseOid(entryId.value).value);
                if k.None? then status == 404
                else
                  var e := old(guestbooks.docs)[k.value];
                  if !Uploaded(photo) then
                    status == 200 && guestbooks.docs == old(guestbooks.docs)[k.value := e.(message := message.value)]
                  else if HasPhoto(e) && ParseOid(e.photoId.value).None? then status == 500
                  else
                    && status == 200
                    && guestbooks.docs == old(guestbooks.docs)[k.value :=
                         e.(message := message.value, photoId := Some(OidText(photoBlob)))]
                    && fsGuestbooks.ids == (if HasPhoto(e) then old(fsGuestbooks.ids) - {ParseOid(e.photoId.value).value}
                                            else old(fsGuestbooks.ids)) + {photoBlob}
  {
    if !TruthyText(entryId) {
      return 400;
    }
    if !TruthyText(message) {
      return 400;
    }
    var id := ParseOid(entryId.value);
    var newPhotoId: Option<string> := None;
    if Uploaded(photo) {
      if id.None? {
        return 500;
      }
      var k := FindEntry(guestbooks.docs, id.value);
      if k.None? {
        return 404;
      }
      var e := guestbooks.docs[k.value];
      if HasPhoto(e) {
        var previous := ParseOid(e.photoId.value);
        if previous.None? {
          return 500;
        }
        fsGuestbooks.ids := fsGuestbooks.ids - {previous.value};
      }
      fsGuestbooks.ids := fsGuestbooks.ids + {photoBlob};
      newPhotoId := Some(OidText(photoBlob));
    }
    if id.None? {
      return 500;
    }
    var k := FindEntry(guestbooks.docs, id.value);
    if k.None? {
      return 404;
    }
    var e := guestbooks.docs[k.value];
    var updated := if newPhotoId.Some? then e.(message := message.value, photoId := newPhotoId)
                   else e.(message := message.value);
    guestbooks.docs := guestbooks.docs[k.value := updated];
    return 200;
  }
}

=== FILE: news.dfy ===
/** The latest-news route (routes/news_routes.py): the newest article with
    an image from each of `news_rookie` and `news_jumpball`, and the newer of
    the two as the main article. */
module News {
  import opened Python
  import opened NewsRookie

  /** `{'image_url': {'$exists': True, '$ne': None}}` */
  predicate HasImage(a: Article) {
    a.imageUrl.Some?
  }

  /** `find_one(filter, sort=[('created_at', -1)])`: the newest article with
      an image, if there is one. */
  function LatestWithImage(docs: seq<Article>): (r: Option<Article>)
    ensures r.Some? <==> exists a :: a in docs && HasImage(a)
    ensures r.Some? ==> r.value in docs && HasImage(r.value)
    ensures r.Some? ==> forall a :: a in docs && HasImage(a) ==> a.createdAt <= r.value.createdAt
  {
    var candidates := Filter(docs, HasImage);
    FilterMembers(docs, HasImage);
    if candidates == [] then None
    else
      NewestIsLatest(candidates);
      Newest(candidates)
  }

  /** `get_latest_news`: `None` is the 404 answer; otherwise the main
      article, whose title, link, summary, image and creation time are
      returned unchanged. */
  function GetLatestNews(rookie: seq<Article>, jumpball: seq<Article>): (r: Option<Article>)
    ensures r.None? <==> (forall a :: a in rookie ==> !HasImage(a)) && (forall a :: a in jumpball ==> !HasImage(a))
    ensures r.Some? ==> (r.value in rookie || r.value in jumpball) && HasImage(r.value)
    ensures r.Some? ==> forall a :: (a in rookie || a in jumpball) && HasImage(a) ==> a.createdAt <= r.value.createdAt
  {
    var latestRookie := LatestWithImage(rookie);
    var latestJumpball := LatestWithImage(jumpball);
    if latestRookie.Some? && latestJumpball.Some? then
      if latestRookie.value.createdAt > latestJumpball.value.createdAt then latestRookie else latestJumpball
    else if latestRookie.Some? then latestRookie
    else latestJumpball
  }

  /** The Rookie candidate wins only when it is strictly newer: on a tie
      between the two newest articles, the Jumpball one is the main
      article. */
  lemma TieGoesToJumpball(rookie: seq<Article>, jumpball: seq<Article>)
    requires LatestWithImage(rookie).Some? && LatestWithImage(jumpball).Some?
    requires LatestWithImage(rookie).value.createdAt == LatestWithImage(jumpball).value.createdAt
    ensures GetLatestNews(rookie, jumpball) == LatestWithImage(jumpball)
  {
  }

  /** With no Jumpball candidate, the newest Rookie article with an image is
      the main article, and the other way round. */
  lemma OneSourceOnly(rookie: seq<Article>, jumpball: seq<Article>)
    ensures LatestWithImage(jumpball).None? ==> GetLatestNews(rookie, jumpball) == LatestWithImage(rookie)
    ensures LatestWithImage(rookie).None? ==> GetLatestNews(rookie, jumpball) == LatestWithImage(jumpball)
  {
  }
}

=== FILE: news_jump.dfy ===
/** The Jumpball news crawler (routes/newsjump_routes.py). It reads the same
    article-list layout as the Rookie crawler, keeps the entries whose
    stripped title contains the query, and returns them sorted by link,
    greatest first. Its page loop returns from inside the loop, so only the
    first page that answers 200 is ever read. The search route itself never
    reaches the crawler. */
module NewsJump {
  import opened Python
  import opened Bson
  import opened NewsRookie

  /** The crawler's request URL is the empty string. */
  const BASE_URL: string := ""
  const JUMP_PAGES: nat := 40
  const NO_SUMMARY: string := "No summary available"

  /** An article of the Jumpball crawl: no image and no timestamp. */
  datatype JumpArticle = JumpArticle(title: string, link: string, summary: string)

  datatype JumpExtracted = JumpSkipped | JumpKept(article: JumpArticle) | JumpRaised

  /** What the crawl ends with: an exception, the end of the page loop
      without any page answering 200 (the function then returns `None`), or
      the articles of the first page that answered 200. */
  datatype Outcome = Failed | NoPage | Found(articles: seq<JumpArticle>)

  /** One entry: entries without a title link are skipped, the rest are kept
      when the stripped title contains the query; a kept entry without an
      `href` raises (`KeyError`), and one without a lead gets a placeholder
      summary. */
  function JumpExtract(item: Item, query: string): (r: JumpExtracted)
    ensures r.JumpKept? <==> item.title.Some? && Contains(Strip(item.title.value.text), query)
                              && item.title.value.href.Some?
    ensures r.JumpRaised? <==> item.title.Some? && Contains(Strip(item.title.value.text), query)
                               && item.title.value.href.None?
    ensures r.JumpKept? ==> r.article.title == Strip(item.title.value.text)
                            && r.article.link == SITE_ROOT + item.title.value.href.value
    ensures r.JumpKept? && item.lead.None? ==> r.article.summary == NO_SUMMARY
    ensures r.JumpKept? && item.lead.Some? ==> r.article.summary == Strip(item.lead.value)
  {
    match item.title
    case None => JumpSkipped
    case Some(anchor) =>
      var title := Strip(anchor.text);
      if !Contains(title, query) then JumpSkipped
      else if anchor.href.None? then JumpRaised
      else
        var summary := if item.lead.Some? then Strip(item.lead.value) else NO_SUMMARY;
        JumpKept(JumpArticle(title, SITE_ROOT + anchor.href.value, summary))
  }

  /** Every article the crawl returns answers the query by its title and
      points into the Rookie site. */
  predicate Matches(a: JumpArticle, query: string) {
    Contains(a.title, query) && IsPrefix(SITE_ROOT, a.link)
  }

  /** The articles of the first `n` entries of a page, in entry order, or
      `None` when one of them raises. */
  function JumpItems(items: seq<Item>, n: nat, query: string): (r: Option<seq<JumpArticle>>)
    requires n <= |items|
    ensures r.Some? ==> |r.value| <= n
    ensures r.Some? ==> forall a :: a in r.value ==> Matches(a, query)
  {
    if n == 0 then Some([])
    else match JumpItems(items, n - 1, query)
      case None => None
      case Some(acc) =>
        match JumpExtract(items[n - 1], query)
        case JumpRaised => None
        case JumpSkipped => Some(acc)
        case JumpKept(a) => Some(acc + [a])
  }

  lemma {:induction false} JumpRaisedStays(items: seq<Item>, m: nat, n: nat, query: string)
    requires m <= n <= |items| && JumpItems(items, m, query).None?
    ensures JumpItems(items, n, query).None?
    decreases n - m
  {
    if m < n {
      JumpRaisedStays(items, m + 1, n, query);
    }
  }

  function LinkKey(a: JumpArticle): Value { Str(a.link) }

  /** `articles.sort(key=lambda x: x['link'], reverse=True)` on the entries
      of a page that answered 200. */
  function PageOutcome(page: Page, query: string): (r: Outcome)
    ensures r != NoPage
  {
    match JumpItems(page.items, |page.items|, query)
    case None => Failed
    case Some(found) => Found(SortBy(found, LinkKey, true))
  }

  /** The crawl from page `p` on; `fetch(p)` is `None` when the request for
      page `p` raises. */
  function CrawlFrom(fetch: int -> Option<Page>, query: string, p: nat): (r: Outcome)
    requires p >= 1
    ensures r.Found? ==> SortedBy(r.articles, LinkKey, true)
    ensures r.Found? ==> forall a :: a in r.articles ==> Matches(a, query)
    decreases JUMP_PAGES + 1 - p
  {
    if p > JUMP_PAGES then NoPage
    else match fetch(p)
      case None => Failed
      case Some(page) =>
        if page.status != 200 then CrawlFrom(fetch, query, p + 1)
        else
          var r := PageOutcome(page, query);
          if r.Found? then
            var found := JumpItems(page.items, |page.items|, query).value;
            SortByCorrect(found, LinkKey, true);
            assert forall a :: a in r.articles ==> a in multiset(found);
            r
          else r
  }

  /** `crawl_data(query)` */
  function JumpCrawl(fetch: int -> Option<Page>, query: string): Outcome {
    CrawlFrom(fetch, query, 1)
  }

  /** Only the first page that answers 200 matters: when pages 1..p-1 were
      fetched and failed and page `p` answered 200, the crawl is that page's
      outcome, whatever the later pages hold. */
  lemma {:induction false} FirstAnsweringPage(fetch: int -> Option<Page>, query: string, p: nat)
    requires 1 <= p <= JUMP_PAGES
    requires forall q :: 1 <= q < p ==> fetch(q).Some? && fetch(q).value.status != 200
    requires fetch(p).Some? && fetch(p).value.status == 200
    ensures JumpCrawl(fetch, query) == PageOutcome(fetch(p).value, query)
  {
    var q := p;
    while q > 1
      invariant 1 <= q <= p
      invariant CrawlFrom(fetch, query, q) == PageOutcome(fetch(p).value, query)
    {
      q := q - 1;
    }
  }

  /** When every page is fetched and none answers 200, the crawl falls off
      the end of its loop. */
  lemma {:induction false} NoAnsweringPage(fetch: int -> Option<Page>, query: string, p: nat)
    requires 1 <= p
    requires forall q :: p <= q <= JUMP_PAGES ==> fetch(q).Some? && fetch(q).value.status != 200
    ensures CrawlFrom(fetch, query, p) == NoPage
    decreases JUMP_PAGES + 1 - p
  {
    if p <= JUMP_PAGES {
      NoAnsweringPage(fetch, query, p + 1);
    }
  }

  /** The entry loop of one page that answered 200. */
  method JumpPageLoop(page: Page, query: string) returns (r: Option<seq<JumpArticle>>)
    ensures r == JumpItems(page.items, |page.items|, query)
  {
    var articles: seq<JumpArticle> := [];
    var k := 0;
    while k < |page.items|
      invariant 0 <= k <= |page.items|
      invariant JumpItems(page.items, k, query) == Some(articles)
    {
      var e := JumpExtract(page.items[k], query);
      if e.JumpRaised? {
        JumpRaisedStays(page.items, k + 1, |page.items|, query);
        return None;
      } else if e.JumpKept? {
        articles := articles + [e.article];
      }
      k := k + 1;
    }
    return Some(articles);
  }

  /** The page loop of `crawl_data`: a page that does not answer 200 is
      skipped, and the first one that does ends the crawl. */
  method CrawlJump(fetch: int -> Option<Page>, query: string) returns (r: Outcome)
    ensures r == JumpCrawl(fetch, query)
  {
    var page := 1;
    while page <= JUMP_PAGES
      invariant 1 <= page <= JUMP_PAGES + 1
      invariant CrawlFrom(fetch, query, page) == JumpCrawl(fetch, query)
    {
      var response := fetch(page);
      if response.None? {
        return Failed;
      }
      if response.value.status == 200 {
        var found := JumpPageLoop(response.value, query);
        if found.None? {
          return Failed;
        }
        return Found(SortBy(found.value, LinkKey, true));
      }
      page := page + 1;
    }
    return NoPage;
  }

  datatype JumpReply = JumpBadRequest | JumpServerError

  /** `search_jumpball` with `?q=query`: a missing or empty query is a 400;
      otherwise the handler reaches its end without a `return` (its crawl
      call sits after the first `return`), and a view that returns nothing
      is answered with a 500. Nothing is crawled in either case. */
  function SearchJumpball(query: Option<string>): (reply: JumpReply)
    ensures reply == JumpBadRequest <==> query.None? || query.value == ""
  {
    if query.None? || query.value == "" then JumpBadRequest else JumpServerError
  }
}

=== FILE: news_rookie.dfy ===
/** The Rookie news search (routes/newsrookie_routes.py): a crawl walks
    result pages 1..47 of the site's article list, keeps the items whose
    stripped title or lead text contains the query, and stores them all in
    `news_rookie`; the search serves the cached matches, newest first, and
    crawls first when the cache is empty or its newest article is more than
    sixty days old. */
module NewsRookie {
  import opened Python
  import opened Bson
  import opened Store

  const SITE_ROOT: string := "https://www.rookie.co.kr"
  const TOTAL_PAGES: nat := 47
  /** One day in microseconds, the resolution of `datetime`. */
  const DAY: int := 86_400_000_000
  const CRAWL_INTERVAL: int := 60 * DAY

  /** An `<a>` element: its text and its `href` attribute, if any. */
  datatype Anchor = Anchor(text: string, href: Option<string>)
  /** An `<img>` element and its `src` attribute, if any. */
  datatype Img = Img(src: Option<string>)
  /** One `#section-list > ul > li` entry: its `.titles a`, the text of its
      `.lead a` and its `.thumb img`, each of which may be absent. */
  datatype Item = Item(title: Option<Anchor>, lead: Option<string>, thumb: Option<Img>)
  /** The answer to one page request: its status code and its entries. */
  datatype Page = Page(status: int, items: seq<Item>)

  /** A document of `news_rookie`. */
  datatype Article = Article(title: string, link: string, summary: string,
                             imageUrl: Option<string>, createdAt: int)

  /** The fields a search returns for an article. */
  datatype ArticleView = ArticleView(title: string, link: string, summary: string,
                                     imageUrl: Option<string>)

  /** What one entry contributes: nothing, an article, or an exception
      (`.text` of a missing lead, a missing `href` or `src`) that ends the
      crawl. */
  datatype Extracted = Skipped | Kept(article: Article) | Raised

  /** The article `a` answers `query`: the query occurs, case-sensitively,
      in its title or its summary. */
  predicate Answers(a: Article, query: string) {
    Contains(a.title, query) || Contains(a.summary, query)
  }

  /** Every article the crawl stores is built the same way. */
  predicate WellFormed(a: Article, query: string, now: int) {
    Answers(a, query) && IsPrefix(SITE_ROOT, a.link) && a.createdAt == now
  }

  /** An entry with a title and a lead whose stripped title or lead text
      contains the query. */
  predicate ItemMatches(item: Item, query: string) {
    item.title.Some? && item.lead.Some?
    && (Contains(Strip(item.title.value.text), query) || Contains(Strip(item.lead.value), query))
  }

  /** One entry of a result page. Without a title it is skipped; with one,
      a missing lead raises (`.text` of None); a non-matching entry is
      skipped; a matching one raises when its title link has no `href` or
      its thumbnail no `src`, and is kept otherwise. */
  function ExtractItem(item: Item, query: string, now: int): (r: Extracted)
    ensures r == Skipped <==> item.title.None? || (item.lead.Some? && !ItemMatches(item, query))
    ensures r == Raised <==>
              item.title.Some?
              && (item.lead.None?
                  || (ItemMatches(item, query)
                      && (item.title.value.href.None? || (item.thumb.Some? && item.thumb.value.src.None?))))
    ensures r.Kept? <==>
              ItemMatches(item, query) && item.title.value.href.Some?
              && !(item.thumb.Some? && item.thumb.value.src.None?)
    ensures r.Kept? ==> WellFormed(r.article, query, now)
  {
    match item.title
    case None => Skipped
    case Some(anchor) =>
      if item.lead.None? then Raised
      else
        var title := Strip(anchor.text);
        var summary := Strip(item.lead.value);
        if !(Contains(title, query) || Contains(summary, query)) then Skipped
        else if anchor.href.None? then Raised
        else if item.thumb.Some? && item.thumb.value.src.None? then Raised
        else
          var imageUrl := if item.thumb.Some? then item.thumb.value.src else None;
          var link := SITE_ROOT + anchor.href.value;
          Kept(Article(title, link, summary, imageUrl, now))
  }

  /** How a kept entry becomes an article: stripped title and lead text,
      the site root before the `href`, the thumbnail's `src` or None. */
  lemma ExtractItemFields(item: Item, query: string, now: int)
    requires ExtractItem(item, query, now).Kept?
    ensures var a := ExtractItem(item, query, now).article;
            && item.title.Some? && item.lead.Some? && item.title.value.href.Some?
            && a.title == Strip(item.title.value.text)
            && a.summary == Strip(item.lead.value)
            && a.link == SITE_ROOT + item.title.value.href.value
            && a.imageUrl == (if item.thumb.None? then None else item.thumb.value.src)
  {
  }

  /** The articles of the first `n` entries of a page, in entry order, or
      `None` when one of them raises. */
  function ItemsArticles(items: seq<Item>, n: nat, query: string, now: int): (r: Option<seq<Article>>)
    requires n <= |items|
    ensures r.Some? ==> |r.value| <= n
    ensures r.Some? ==> forall a :: a in r.value ==> WellFormed(a, query, now)
  {
    if n == 0 then Some([])
    else match ItemsArticles(items, n - 1, query, now)
      case None => None
      case Some(acc) =>
        match ExtractItem(items[n - 1], query, now)
        case Raised => None
        case Skipped => Some(acc)
        case Kept(a) => Some(acc + [a])
  }

  lemma {:induction false} ItemsRaisedStays(items: seq<Item>, m: nat, n: nat, query: string, now: int)
    requires m <= n <= |items| && ItemsArticles(items, m, query, now).None?
    ensures ItemsArticles(items, n, query, now).None?
    decreases n - m
  {
    if m < n {
      ItemsRaisedStays(items, m + 1, n, query, now);
    }
  }

  /** The articles of one page: none when it did not answer 200. */
  function PageArticles(page: Page, query: string, now: int): (r: Option<seq<Article>>)
    ensures page.status != 200 ==> r == Some([])
    ensures r.Some? ==> forall a :: a in r.value ==> WellFormed(a, query, now)
  {
    if page.status != 200 then Some([]) else ItemsArticles(page.items, |page.items|, query, now)
  }

  /** The articles of one request: `None` when the request itself raised. */
  function FetchedArticles(response: Option<Page>, query: string, now: int): (r: Option<seq<Article>>)
    ensures response.None? ==> r.None?
    ensures response.Some? ==> r == PageArticles(response.value, query, now)
  {
    if response.None? then None else PageArticles(response.value, query, now)
  }

  /** A request that decides something: it raised, or it answered 200. */
  predicate Counts(response: Option<Page>) {
    response.None? || response.value.status == 200
  }

  /** The articles of pages 1..n, page after page. */
  function CrawlUpTo(fetch: int -> Option<Page>, query: string, now: int, n: nat): (r: Option<seq<Article>>)
    ensures r.Some? ==> forall a :: a in r.value ==> WellFormed(a, query, now)
  {
    if n == 0 then Some([])
    else match CrawlUpTo(fetch, query, now, n - 1)
      case None => None
      case Some(acc) =>
        match FetchedArticles(fetch(n), query, now)
        case None => None
        case Some(more) => Some(acc + more)
  }

  /** The outcome of `crawl_data(query)`; `fetch(p)` is the answer to the
      request for page `p`, `None` when `requests.get` raises. */
  function Crawl(fetch: int -> Option<Page>, query: string, now: int): Option<seq<Article>> {
    CrawlUpTo(fetch, query, now, TOTAL_PAGES)
  }

  /** What a page that fails holds never matters: two sites that agree on
      every page that answers 200 crawl to the same outcome. A failed page
      neither contributes nor stops the crawl. */
  lemma {:induction false} CrawlIgnoresFailedPages(f: int -> Option<Page>, g: int -> Option<Page>, query: string,
                                                   now: int, n: nat)
    requires forall p :: 1 <= p <= n && (Counts(f(p)) || Counts(g(p))) ==> f(p) == g(p)
    ensures CrawlUpTo(f, query, now, n) == CrawlUpTo(g, query, now, n)
  {
    if n > 0 {
      CrawlIgnoresFailedPages(f, g, query, now, n - 1);
      assert FetchedArticles(f(n), query, now) == FetchedArticles(g(n), query, now);
    }
  }

  /** When no page answers 200, the crawl finds nothing and stores nothing. */
  lemma {:induction false} CrawlAllPagesFailed(fetch: int -> Option<Page>, query: string, now: int, n: nat)
    requires forall p :: 1 <= p <= n ==> fetch(p).Some? && fetch(p).value.status != 200
    ensures CrawlUpTo(fetch, query, now, n) == Some([])
  {
    if n > 0 {
      CrawlAllPagesFailed(fetch, query, now, n - 1);
      assert FetchedArticles(fetch(n), query, now) == Some([]);
      var none: seq<Article> := [];
      assert none + none == none;
    }
  }

  /** An exception on page `m` ends the crawl: no later page changes that. */
  lemma {:induction false} CrawlRaisedStays(fetch: int -> Option<Page>, query: string, now: int, m: nat, n: nat)
    requires m <= n && CrawlUpTo(fetch, query, now, m).None?
    ensures CrawlUpTo(fetch, query, now, n).None?
    decreases n - m
  {
    if m < n {
      CrawlRaisedStays(fetch, query, now, m + 1, n);
    }
  }

  /** A request that raises on any page `m` of 1..n ends the crawl. */
  lemma CrawlFetchRaises(fetch: int -> Option<Page>, query: string, now: int, m: nat, n: nat)
    requires 1 <= m <= n && fetch(m).None?
    ensures CrawlUpTo(fetch, query, now, n).None?
  {
    assert CrawlUpTo(fetch, query, now, m).None?;
    CrawlRaisedStays(fetch, query, now, m, n);
  }

  /** The entry loop of one page. */
  method PageLoop(page: Page, query: string, now: int) returns (r: Option<seq<Article>>)
    requires page.status == 200
    ensures r == PageArticles(page, query, now)
  {
    var found: seq<Article> := [];
    var k := 0;
    while k < |page.items|
      invariant 0 <= k <= |page.items|
      invariant ItemsArticles(page.items, k, query, now) == Some(found)
    {
      var e := ExtractItem(page.items[k], query, now);
      assert ItemsArticles(page.items, k + 1, query, now)
             == match e
                case Raised => None
                case Skipped => Some(found)
                case Kept(a) => Some(found + [a]);
      if e.Raised? {
        ItemsRaisedStays(page.items, k + 1, |page.items|, query, now);
        return None;
      } else if e.Kept? {
        found := found + [e.article];
      }
      k := k + 1;
    }
    return Some(found);
  }

  /** The page loop of `crawl_data`: pages 1..47 in order; a page that does
      not answer 200 is skipped, and a request that raises ends the crawl. */
  method CollectArticles(fetch: int -> Option<Page>, query: string, now: int) returns (r: Option<seq<Article>>)
    ensures r == Crawl(fetch, query, now)
  {
    var articles: seq<Article> := [];
    var page := 1;
    while page <= TOTAL_PAGES
      invariant 1 <= page <= TOTAL_PAGES + 1
      invariant CrawlUpTo(fetch, query, now, page - 1) == Some(articles)
    {
      var response := fetch(page);
      if response.None? {
        CrawlRaisedStays(fetch, query, now, page, TOTAL_PAGES);
        return None;
      }
      if response.value.status == 200 {
        var more := PageLoop(response.value, query, now);
        if more.None? {
          CrawlRaisedStays(fetch, query, now, page, TOTAL_PAGES);
          return None;
        }
        articles := articles + more.value;
      } else {
        assert articles + [] == articles;
      }
      page := page + 1;
    }
    return Some(articles);
  }

  /** `crawl_data(query)`: the crawled articles are returned and appended
      to `news_rookie` with one `insert_many`; an exception stores nothing. */
  method CrawlData(newsRookie: Collection<Article>, fetch: int -> Option<Page>, query: string, now: int)
    returns (r: Option<seq<Article>>)
    modifies newsRookie
    ensures r == Crawl(fetch, query, now)
    ensures r.Some? ==> newsRookie.docs == old(newsRookie.docs) + r.value
    ensures r.None? ==> newsRookie.docs == old(newsRookie.docs)
  {
    r := CollectArticles(fetch, query, now);
    if r.Some? && r.value != [] {
      newsRookie.docs := newsRookie.docs + r.value;
    }
  }

  // ---------------------------------------------------------------------
  // The search

  function CreatedKey(a: Article): Value { Date(a.createdAt) }

  /** `find_one(sort=[("created_at", -1)])` */
  function Newest(docs: seq<Article>): (r: Option<Article>)
    ensures r.Some? <==> docs != []
  {
    SortByCorrect(docs, CreatedKey, true);
    var sorted := SortBy(docs, CreatedKey, true);
    if sorted == [] then None else Some(sorted[0])
  }

  /** The newest stored article is the one with the greatest `created_at`. */
  lemma NewestIsLatest(docs: seq<Article>)
    requires docs != []
    ensures Newest(docs).value in docs
    ensures forall a :: a in docs ==> a.createdAt <= Newest(docs).value.createdAt
  {
    SortByCorrect(docs, CreatedKey, true);
    var sorted := SortBy(docs, CreatedKey, true);
    assert sorted[0] in multiset(docs);
    forall a | a in docs ensures a.createdAt <= sorted[0].createdAt {
      assert a in multiset(sorted);
      var k :| 0 <= k < |sorted| && sorted[k] == a;
      if k > 0 {
        assert Before(CreatedKey(sorted[0]), CreatedKey(sorted[k]), true);
      }
    }
  }

  /** The staleness test of `search_rookie`. */
  predicate CrawlDue(docs: seq<Article>, now: int) {
    var newest := Newest(docs);
    newest.None? || newest.value.createdAt < now - CRAWL_INTERVAL
  }

  /** A crawl is due exactly when no stored article was created within the
      last sixty days. */
  lemma CrawlDueIff(docs: seq<Article>, now: int)
    ensures CrawlDue(docs, now) <==> forall a :: a in docs ==> a.createdAt < now - CRAWL_INTERVAL
  {
    if docs != [] {
      NewestIsLatest(docs);
    }
  }

  function View(a: Article): ArticleView {
    ArticleView(a.title, a.link, a.summary, a.imageUrl)
  }

  function Views(s: seq<Article>): (r: seq<ArticleView>)
    ensures |r| == |s|
    ensures forall k :: 0 <= k < |s| ==> r[k] == View(s[k])
  {
    if s == [] then [] else [View(s[0])] + Views(s[1..])
  }

  /** The cached part of a search: the stored articles whose title or
      summary the database's case-insensitive `$regex` test `regex` accepts,
      newest first. */
  function Cached(docs: seq<Article>, query: string, regex: (string, string) -> bool): seq<Article> {
    SortBy(Filter(docs, (a: Article) => regex(query, a.title) || regex(query, a.summary)), CreatedKey, true)
  }

  lemma CachedCorrect(docs: seq<Article>, query: string, regex: (string, string) -> bool)
    ensures SortedBy(Cached(docs, query, regex), CreatedKey, true)
    ensures forall a :: a in Cached(docs, query, regex) <==>
              a in docs && (regex(query, a.title) || regex(query, a.summary))
    ensures multiset(Cached(docs, query, regex))
            == multiset(Filter(docs, (a: Article) => regex(query, a.title) || regex(query, a.summary)))
  {
    var m := Filter(docs, (a: Article) => regex(query, a.title) || regex(query, a.summary));
    FilterMembers(docs, (a: Article) => regex(query, a.title) || regex(query, a.summary));
    SortByCorrect(m, CreatedKey, true);
    forall a ensures a in Cached(docs, query, regex) <==> a in m {
      assert a in Cached(docs, query, regex) <==> a in multiset(Cached(docs, query, regex));
      assert a in m <==> a in multiset(m);
    }
  }

  datatype SearchReply = BadRequest | ServerError | Results(articles: seq<ArticleView>)

  /** `search_rookie` with `?q=query`: `query` is `None` when the parameter
      is missing, `now` is `utcnow()`, `regex` the database's pattern test,
      `validPattern` whether the database accepts the query as a regular
      expression, and `fetch` the site. A rejected pattern raises when the
      cached results are read, before any crawl. */
  method SearchRookie(newsRookie: Collection<Article>, query: Option<string>, now: int,
                      regex: (string, string) -> bool, validPattern: string -> bool,
                      fetch: int -> Option<Page>)
    returns (reply: SearchReply)
    modifies newsRookie
    ensures query.None? || query.value == "" ==>
              reply == BadRequest && newsRookie.docs == old(newsRookie.docs)
    ensures query.Some? && query.value != "" && !validPattern(query.value) ==>
              reply == ServerError && newsRookie.docs == old(newsRookie.docs)
    ensures query.Some? && query.value != "" && validPattern(query.value)
            && !CrawlDue(old(newsRookie.docs), now) ==>
              reply == Results(Views(Cached(old(newsRookie.docs), query.value, regex)))
              && newsRookie.docs == old(newsRookie.docs)
    ensures query.Some? && query.value != "" && validPattern(query.value)
            && CrawlDue(old(newsRookie.docs), now) ==>
              match Crawl(fetch, query.value, now)
              case None => reply == ServerError && newsRookie.docs == old(newsRookie.docs)
              case Some(crawled) =>
                reply == Results(Views(crawled) + Views(Cached(old(newsRookie.docs), query.value, regex)))
                && newsRookie.docs == old(newsRookie.docs) + crawled
  {
    if query.None? || query.value == "" {
      return BadRequest;
    }
    var q := query.value;
    if !validPattern(q) {
      return ServerError;
    }
    var data := Views(Cached(newsRookie.docs, q, regex));
    if CrawlDue(newsRookie.docs, now) {
      var crawled := CrawlData(newsRookie, fetch, q, now);
      if crawled.None? {
        return ServerError;
      }
      if crawled.value != [] {
        data := Views(crawled.value) + data;
      } else {
        assert Views(crawled.value) + data == data;
      }
    }
    return Results(data);
  }
}

=== FILE: profile.dfy ===
/** The player profile (routes/admin/profile_routes.py): one profile
    document, written with defaults by an upsert with an empty filter and
    read back without its id. */
module Profile {
  import opened Python
  import opened Bson
  import opened Store

  /** A document of `profiles`: its id and its other fields. */
  datatype Doc = Doc(id: Oid, fields: map<string, Value>)

  /** The fields a write sets. */
  const PROFILE_KEYS: set<string> := {"name", "team", "position", "number", "height", "nickname", "features", "date"}

  /** `profile_data` for the request body `data` at time `now`: `name`
      defaults to "Anonymous", the other text fields to "", and `date` is
      the time of the write. */
  function ProfileData(data: map<string, Value>, now: int): (r: map<string, Value>)
    ensures r.Keys == PROFILE_KEYS
    ensures r["name"] == (if "name" in data then data["name"] else Str("Anonymous"))
    ensures forall key :: key in PROFILE_KEYS - {"name", "date"} ==>
              r[key] == (if key in data then data[key] else Str(""))
    ensures r["date"] == Date(now)
  {
    map["name" := GetOr(data, "name", Str("Anonymous")),
        "team" := GetOr(data, "team", Str("")),
        "position" := GetOr(data, "position", Str("")),
        "number" := GetOr(data, "number", Str("")),
        "height" := GetOr(data, "height", Str("")),
        "nickname" := GetOr(data, "nickname", Str("")),
        "features" := GetOr(data, "features", Str("")),
        "date" := Date(now)]
  }

  /** `update_one({}, {"$set": profile_data}, upsert=True)`: the first
      document gets the fields merged in; with none, a document is inserted
      under the fresh id `newId`. */
  function Upsert(docs: seq<Doc>, update: map<string, Value>, newId: Oid): (r: seq<Doc>)
    ensures |r| == if |docs| == 0 then 1 else |docs|
    ensures r[0].fields.Keys == update.Keys + (if |docs| == 0 then {} else docs[0].fields.Keys)
    ensures forall key :: key in update ==> r[0].fields[key] == update[key]
    ensures r[1..] == if |docs| == 0 then [] else docs[1..]
    ensures r[0].id == if |docs| == 0 then newId else docs[0].id
    ensures |docs| > 0 ==> forall key :: key in docs[0].fields && key !in update ==> r[0].fields[key] == docs[0].fields[key]
  {
    if |docs| == 0 then [Doc(newId, update)]
    else docs[0 := docs[0].(fields := docs[0].fields + update)]
  }

  /** `admin_create_or_update_profile`. */
  method CreateOrUpdateProfile(profiles: Collection<Doc>, data: map<string, Value>, now: int, newId: Oid)
    returns (status: int)
    modifies profiles
    ensures status == 200
    ensures profiles.docs == Upsert(old(profiles.docs), ProfileData(data, now), newId)
  {
    profiles.docs := Upsert(profiles.docs, ProfileData(data, now), newId);
    return 200;
  }

  /** One profile never becomes two: from at most one document, any number
      of writes leaves exactly one. */
  lemma {:induction false} StaysSingle(docs: seq<Doc>, writes: seq<(map<string, Value>, int)>, newIds: seq<Oid>)
    requires |docs| <= 1 && |writes| == |newIds| && |writes| > 0
    ensures |Replay(docs, writes, newIds)| == 1
  {
    if |writes| > 1 {
      StaysSingle(docs, writes[..|writes| - 1], newIds[..|newIds| - 1]);
    }
  }

  /** The documents after the writes `writes`, each with its body and its
      time, in order. */
  function Replay(docs: seq<Doc>, writes: seq<(map<string, Value>, int)>, newIds: seq<Oid>): seq<Doc>
    requires |writes| == |newIds|
  {
    if writes == [] then docs
    else
      var (data, now) := writes[|writes| - 1];
      Upsert(Replay(docs, writes[..|writes| - 1], newIds[..|newIds| - 1]), ProfileData(data, now), newIds[|newIds| - 1])
  }

  /** `get_profile`: `find_one({}, {"_id": 0})`; no document, or one with
      no field besides its id, is falsy and a 404 (`None`). */
  function GetProfile(docs: seq<Doc>): (r: Option<map<string, Value>>)
    ensures r.None? <==> |docs| == 0 || docs[0].fields == map[]
    ensures r.Some? ==> r.value == docs[0].fields
  {
    if |docs| == 0 || docs[0].fields == map[] then None else Some(docs[0].fields)
  }

  /** After a write the profile reads back with the written values. */
  lemma ReadBackAfterWrite(docs: seq<Doc>, data: map<string, Value>, now: int, newId: Oid)
    ensures var r := GetProfile(Upsert(docs, ProfileData(data, now), newId));
            && r.Some?
            && (forall key :: key in PROFILE_KEYS ==> key in r.value && r.value[key] == ProfileData(data, now)[key])
  {
    var r := Upsert(docs, ProfileData(data, now), newId);
    assert "name" in r[0].fields;
  }
}

=== FILE: python.dfy ===
/** Python built-in semantics that the route handlers rely on: `None`,
    list comprehensions with a condition, the substring test `in`,
    `str.strip()`, `str.startswith`, `s.split('/')[-1]`, list indexing and
    slicing with negative indices, and floor division `//`. */
module Python {

  datatype Option<+T> = None | Some(value: T)

  /** Python truthiness of an optional text: present and not "". */
  predicate TruthyText(s: Option<string>) {
    s.Some? && s.value != ""
  }

  /** `[x for x in xs if p(x)]` */
  function Filter<T>(xs: seq<T>, p: T -> bool): (r: seq<T>)
    ensures |r| <= |xs|
  {
    if xs == [] then [] else (if p(xs[0]) then [xs[0]] else []) + Filter(xs[1..], p)
  }

  /** The filtered list holds exactly the elements that pass. */
  lemma {:induction false} FilterMembers<T>(xs: seq<T>, p: T -> bool)
    ensures forall x :: x in Filter(xs, p) ==> x in xs && p(x)
    ensures forall x :: x in xs && p(x) ==> x in Filter(xs, p)
  {
    if xs != [] {
      FilterMembers(xs[1..], p);
      assert xs == [xs[0]] + xs[1..];
    }
  }

  /** `[f(x) for x in xs]` */
  function Map<T, U>(xs: seq<T>, f: T -> U): (r: seq<U>)
    ensures |r| == |xs|
    ensures forall k :: 0 <= k < |xs| ==> r[k] == f(xs[k])
  {
    if xs == [] then [] else [f(xs[0])] + Map(xs[1..], f)
  }

  lemma MapPush<T, U>(xs: seq<T>, x: T, f: T -> U)
    ensures Map(xs + [x], f) == Map(xs, f) + [f(x)]
  {
    assert forall k :: 0 <= k < |xs| ==> (xs + [x])[k] == xs[k];
  }

  /** Mapping one more element of a list's prefix. */
  lemma MapPrefixStep<T, U>(xs: seq<T>, k: nat, f: T -> U)
    requires k < |xs|
    ensures Map(xs[..k + 1], f) == Map(xs[..k], f) + [f(xs[k])]
  {
    assert xs[..k + 1] == xs[..k] + [xs[k]];
    MapPush(xs[..k], xs[k], f);
  }

  lemma {:induction false} FilterAppend<T>(xs: seq<T>, ys: seq<T>, p: T -> bool)
    ensures Filter(xs + ys, p) == Filter(xs, p) + Filter(ys, p)
  {
    if xs != [] {
      assert (xs + ys)[1..] == xs[1..] + ys;
      FilterAppend(xs[1..], ys, p);
    } else {
      assert xs + ys == ys;
    }
  }

  /** Filtering one more element. */
  lemma FilterPush<T>(xs: seq<T>, x: T, p: T -> bool)
    ensures Filter(xs + [x], p) == Filter(xs, p) + (if p(x) then [x] else [])
  {
    FilterAppend(xs, [x], p);
    assert Filter([x], p) == (if p(x) then [x] else []) + Filter([x][1..], p);
  }

  /** Filtering a non-empty list, by its last element. */
  lemma FilterLast<T>(xs: seq<T>, p: T -> bool)
    requires xs != []
    ensures Filter(xs, p) == Filter(xs[..|xs| - 1], p) + (if p(xs[|xs| - 1]) then [xs[|xs| - 1]] else [])
  {
    var front, x := xs[..|xs| - 1], xs[|xs| - 1];
    assert front + [x] == xs;
    FilterPush(front, x, p);
  }

  /** Filtering then mapping a non-empty list, by its last element. */
  lemma MapFilterLast<T, U>(xs: seq<T>, p: T -> bool, f: T -> U)
    requires xs != []
    ensures Map(Filter(xs, p), f)
            == Map(Filter(xs[..|xs| - 1], p), f) + (if p(xs[|xs| - 1]) then [f(xs[|xs| - 1])] else [])
  {
    FilterLast(xs, p);
    var a := Filter(xs[..|xs| - 1], p);
    if p(xs[|xs| - 1]) {
      MapPush(a, xs[|xs| - 1], f);
    } else {
      assert Filter(xs, p) == a;
    }
  }

  /** Filtering into "p" and its complement "q" splits the elements,
      counted with multiplicity, between the two results. */
  lemma {:induction false} FilterPartition<T>(xs: seq<T>, p: T -> bool, q: T -> bool)
    requires forall x :: q(x) <==> !p(x)
    ensures multiset(Filter(xs, p)) + multiset(Filter(xs, q)) == multiset(xs)
  {
    if xs != [] {
      var x, t := xs[0], xs[1..];
      FilterPartition(t, p, q);
      assert xs == [x] + t;
      assert multiset(xs) == multiset{x} + multiset(t);
      if p(x) {
        assert Filter(xs, p) == [x] + Filter(t, p);
        assert Filter(xs, q) == Filter(t, q);
      } else {
        assert Filter(xs, p) == Filter(t, p);
        assert Filter(xs, q) == [x] + Filter(t, q);
      }
    }
  }

  // ---------------------------------------------------------------------
  // Strings

  predicate IsPrefix(p: string, s: string) {
    |p| <= |s| && s[..|p|] == p
  }

  /** `sub in s` for two strings: `sub` starts at some position of `s`. */
  predicate Occurs(sub: string, s: string) {
    exists i :: 0 <= i <= |s| && IsPrefix(sub, s[i..])
  }

  /** `sub in s`, computed by scanning the start positions of `s`. */
  function Contains(s: string, sub: string): bool
    decreases |s|
  {
    IsPrefix(sub, s) || (|s| > 0 && Contains(s[1..], sub))
  }

  /** The scan finds `sub` exactly when it occurs somewhere in `s`. */
  lemma {:induction false} ContainsIff(s: string, sub: string)
    ensures Contains(s, sub) <==> Occurs(sub, s)
    decreases |s|
  {
    if IsPrefix(sub, s) {
      assert s[0..] == s;
    } else if |s| > 0 {
      ContainsIff(s[1..], sub);
      if Occurs(sub, s) {
        var i :| 0 <= i <= |s| && IsPrefix(sub, s[i..]);
        assert s[1..][i - 1..] == s[i..];
      }
      if Occurs(sub, s[1..]) {
        var i :| 0 <= i <= |s[1..]| && IsPrefix(sub, s[1..][i..]);
        assert s[1..][i..] == s[i + 1..];
      }
    }
  }

  /** `str.isspace()` of a single character: the Unicode characters of
      bidirectional class WS, B or S, or of category Zs. */
  predicate IsSpace(c: char) {
    c == ' ' || ('\t' <= c <= '\r') || ('\U{1C}' <= c <= '\U{1F}') || c == '\U{85}'
    || c == '\U{A0}' || c == '\U{1680}' || ('\U{2000}' <= c <= '\U{200A}')
    || c == '\U{2028}' || c == '\U{2029}' || c == '\U{202F}' || c == '\U{205F}' || c == '\U{3000}'
  }

  function StripLeft(s: string): string {
    if |s| > 0 && IsSpace(s[0]) then StripLeft(s[1..]) else s
  }

  function StripRight(s: string): string {
    if |s| > 0 && IsSpace(s[|s| - 1]) then StripRight(s[..|s| - 1]) else s
  }

  /** `s.strip()`: `s` without its leading and trailing whitespace. */
  function Strip(s: string): string {
    StripRight(StripLeft(s))
  }

  /** `lstrip` removes a prefix made of whitespace and no more. */
  lemma {:induction false} StripLeftSpec(s: string)
    ensures var r := StripLeft(s);
            && |r| <= |s| && r == s[|s| - |r|..]
            && (|r| > 0 ==> !IsSpace(r[0]))
            && (forall k :: 0 <= k < |s| - |r| ==> IsSpace(s[k]))
  {
    if |s| > 0 && IsSpace(s[0]) {
      StripLeftSpec(s[1..]);
    }
  }

  /** `rstrip` removes a suffix made of whitespace and no more. */
  lemma {:induction false} StripRightSpec(s: string)
    ensures var r := StripRight(s);
            && |r| <= |s| && r == s[..|r|]
            && (|r| > 0 ==> !IsSpace(r[|r| - 1]))
            && (forall k :: |r| <= k < |s| ==> IsSpace(s[k]))
  {
    if |s| > 0 && IsSpace(s[|s| - 1]) {
      StripRightSpec(s[..|s| - 1]);
    }
  }

  /** A stripped string neither starts nor ends with whitespace, and a
      string that does neither is its own stripped form. */
  lemma {:induction false} StripTrims(s: string)
    ensures var r := Strip(s);
            && (|r| > 0 ==> !IsSpace(r[0]) && !IsSpace(r[|r| - 1]))
            && |r| <= |s|
            && (|s| > 0 && !IsSpace(s[0]) && !IsSpace(s[|s| - 1]) ==> r == s)
  {
    var l := StripLeft(s);
    var r := StripRight(l);
    StripLeftSpec(s);
    StripRightSpec(l);
    if |r| > 0 {
      assert r[0] == l[0];
    }
    if |s| > 0 && !IsSpace(s[0]) && !IsSpace(s[|s| - 1]) {
      assert l == s;
      assert r == s;
    }
  }

  /** Stripping twice is stripping once. */
  lemma StripIdempotent(s: string)
    ensures Strip(Strip(s)) == Strip(s)
  {
    StripTrims(s);
    var r := Strip(s);
    assert StripLeft(r) == r;
    assert StripRight(r) == r;
  }

  /** `s.startswith(p)` */
  predicate StartsWith(s: string, p: string) {
    IsPrefix(p, s)
  }

  /** `s.split('/')[-1]`: the text after the last '/', or all of `s`
      when it has none. */
  function LastSegment(s: string): (r: string)
    ensures '/' !in r
    ensures |r| <= |s| && r == s[|s| - |r|..]
    ensures |r| < |s| ==> s[|s| - |r| - 1] == '/'
  {
    if |s| == 0 then ""
    else if s[|s| - 1] == '/' then ""
    else
      var r := LastSegment(s[..|s| - 1]);
      assert s[..|s| - 1][|s| - 1 - |r|..] == s[|s| - 1 - |r|..|s| - 1];
      r + [s[|s| - 1]]
  }

  /** A path ending in '/' followed by a segment without '/' splits back
      into that segment. */
  lemma {:induction false} LastSegmentOfPath(dir: string, seg: string)
    requires |dir| > 0 && dir[|dir| - 1] == '/'
    requires '/' !in seg
    ensures LastSegment(dir + seg) == seg
    decreases |seg|
  {
    if |seg| == 0 {
      assert dir + seg == dir;
    } else {
      var s := dir + seg;
      var init, last := seg[..|seg| - 1], seg[|seg| - 1];
      assert s[..|s| - 1] == dir + init;
      assert s[|s| - 1] == last && last != '/' by { assert last in seg; }
      assert '/' !in init by {
        forall i | 0 <= i < |init|
          ensures init[i] != '/'
        {
          assert init[i] in seg;
        }
      }
      LastSegmentOfPath(dir, init);
      assert seg == init + [last];
    }
  }

  // ---------------------------------------------------------------------
  // Lists

  /** `xs[i]` with Python's negative indices; `None` stands for IndexError. */
  function Index<T>(xs: seq<T>, i: int): (r: Option<T>)
    ensures r.Some? <==> -|xs| <= i < |xs|
    ensures 0 <= i < |xs| ==> r == Some(xs[i])
    ensures -|xs| <= i < 0 ==> r == Some(xs[|xs| + i])
  {
    if 0 <= i < |xs| then Some(xs[i])
    else if -|xs| <= i < 0 then Some(xs[|xs| + i])
    else None
  }

  /** A slice bound after Python's normalisation: negative bounds count
      from the end, and every bound is clamped to `0..n`. */
  function SliceBound(i: int, n: nat): (r: nat)
    ensures r <= n
    ensures 0 <= i <= n ==> r == i
    ensures i > n ==> r == n
    ensures -(n as int) <= i < 0 ==> r as int == n as int + i
    ensures i < -(n as int) ==> r == 0
  {
    if i < 0 then (if i + n < 0 then 0 else i + n) else if i > n then n else i
  }

  /** `xs[i:j]` */
  function Slice<T>(xs: seq<T>, i: int, j: int): (r: seq<T>)
    ensures |r| <= |xs|
    ensures SliceBound(i, |xs|) <= SliceBound(j, |xs|) ==>
              r == xs[SliceBound(i, |xs|)..SliceBound(j, |xs|)]
    ensures SliceBound(i, |xs|) > SliceBound(j, |xs|) ==> r == []
    ensures i <= j ==> |r| <= j - i
  {
    var a, b := SliceBound(i, |xs|), SliceBound(j, |xs|);
    if a <= b then xs[a..b] else []
  }

  /** With non-negative bounds a slice is the window starting at `i`, at
      most `j - i` long, and it keeps the elements' order. */
  lemma SliceWindow<T>(xs: seq<T>, i: int, j: int)
    requires 0 <= i <= j
    ensures |Slice(xs, i, j)| <= j - i
    ensures forall k :: 0 <= k < |Slice(xs, i, j)| ==> i + k < |xs| && Slice(xs, i, j)[k] == xs[i + k]
    ensures i + (j - i) <= |xs| ==> |Slice(xs, i, j)| == j - i
  {
  }

  // ---------------------------------------------------------------------
  // Integers

  /** `a // b`: division rounding toward negative infinity (Dafny's own
      `/` is Euclidean, which differs when `b` is negative). */
  function FloorDiv(a: int, b: int): (q: int)
    requires b != 0
    ensures b > 0 ==> q * b <= a < q * b + b
    ensures b < 0 ==> q * b >= a > q * b + b
  {
    if b > 0 then a / b else (-a) / (-b)
  }
}

=== FILE: schedule.dfy ===
/** The administrator's schedule routes (routes/admin/schedule_routes.py):
    creating or updating a game, listing one season's games, the distinct
    seasons, and deleting a game. A request body is a JSON object, held as
    a map from keys to values. */
module Schedule {
  import opened Python
  import opened Bson
  import opened Store

  /** A document of `schedules`: its id and its other fields. */
  datatype Game = Game(id: Oid, fields: map<string, Value>)

  const BASE_KEYS: set<string> := {"date", "opponent", "isHome", "time", "season"}

  /** The fields every game gets: date, opponent, time and season default
      to "" and isHome to False. */
  function BaseData(data: map<string, Value>): (r: map<string, Value>)
    ensures r.Keys == BASE_KEYS
    ensures r["date"] == (if "date" in data then data["date"] else Str(""))
    ensures r["opponent"] == (if "opponent" in data then data["opponent"] else Str(""))
    ensures r["isHome"] == (if "isHome" in data then data["isHome"] else Bool(false))
    ensures r["time"] == (if "time" in data then data["time"] else Str(""))
    ensures r["season"] == (if "season" in data then data["season"] else Str(""))
  {
    map["date" := GetOr(data, "date", Str("")),
        "opponent" := GetOr(data, "opponent", Str("")),
        "isHome" := GetOr(data, "isHome", Bool(false)),
        "time" := GetOr(data, "time", Str("")),
        "season" := GetOr(data, "season", Str(""))]
  }

  /** `schedule_data` for the request body `data`: the base fields, and
      `extraHome` and `spacialGame` copied only when truthy. */
  function ScheduleData(data: map<string, Value>): (r: map<string, Value>)
    ensures r.Keys == BASE_KEYS
                      + (if Truthy(Get(data, "extraHome")) then {"extraHome"} else {})
                      + (if Truthy(Get(data, "spacialGame")) then {"spacialGame"} else {})
    ensures forall key :: key in BASE_KEYS ==> r[key] == BaseData(data)[key]
    ensures forall key :: key in r && key !in BASE_KEYS ==> key in data && r[key] == data[key] && Truthy(data[key])
  {
    var base := BaseData(data);
    var withExtra := if Truthy(Get(data, "extraHome")) then base["extraHome" := data["extraHome"]] else base;
    if Truthy(Get(data, "spacialGame")) then withExtra["spacialGame" := data["spacialGame"]] else withExtra
  }

  /** `find_one({"_id": id})` */
  function FindGame(docs: seq<Game>, id: Oid): Option<nat> {
    FindFirst(docs, (g: Game) => g.id == id)
  }

  /** `create_or_update_schedule`. A truthy `_id` updates the first game
      with that id by merging `schedule_data` into it (no such game: nothing
      changes) and adds none; an `_id` that is not an ObjectId is a 500.
      Without it one game is inserted under the fresh id `newId`. */
  method CreateOrUpdateSchedule(schedules: Collection<Game>, data: map<string, Value>, newId: Oid)
    returns (status: int)
    requires forall k :: 0 <= k < |schedules.docs| ==> schedules.docs[k].id != newId
    modifies schedules
    ensures var id := Get(data, "_id");
            if !Truthy(id) then
              status == 200 && schedules.docs == old(schedules.docs) + [Game(newId, ScheduleData(data))]
            else if IdArg(id).None? then
              status == 500 && schedules.docs == old(schedules.docs)
            else
              var k := FindGame(old(schedules.docs), IdArg(id).value);
              && status == 200
              && schedules.docs == if k.None? then old(schedules.docs)
                                   else old(schedules.docs)[k.value := Merge(old(schedules.docs)[k.value], ScheduleData(data))]
  {
    var scheduleId := Get(data, "_id");
    var scheduleData := ScheduleData(data);
    if Truthy(scheduleId) {
      var id := IdArg(scheduleId);
      if id.None? {
        return 500;
      }
      var k := FindGame(schedules.docs, id.value);
      if k.Some? {
        schedules.docs := schedules.docs[k.value := Merge(schedules.docs[k.value], scheduleData)];
      }
    } else {
      schedules.docs := schedules.docs + [Game(newId, scheduleData)];
    }
    return 200;
  }

  /** `$set`: every field of the update takes its new value; the others and
      the id stay. */
  function Merge(g: Game, update: map<string, Value>): (r: Game)
    ensures r.id == g.id
    ensures r.fields.Keys == g.fields.Keys + update.Keys
    ensures forall key :: key in update ==> r.fields[key] == update[key]
    ensures forall key :: key in g.fields && key !in update ==> r.fields[key] == g.fields[key]
  {
    g.(fields := g.fields + update)
  }

  /** Updating by id leaves every other game as it was, and the number of
      games unchanged. */
  lemma UpdateTouchesOnlyThatGame(docs: seq<Game>, id: Oid, update: map<string, Value>)
    requires FindGame(docs, id).Some?
    ensures var k := FindGame(docs, id).value;
            var r := docs[k := Merge(docs[k], update)];
            && |r| == |docs| && r[k].id == id
            && forall j :: 0 <= j < |docs| && j != k ==> r[j] == docs[j]
  {
  }

  // ---------------------------------------------------------------------
  // Seasons and listings

  /** `distinct("season")`: every season value some game holds. */
  function Seasons(docs: seq<Game>): set<Value> {
    set k | 0 <= k < |docs| && "season" in docs[k].fields :: docs[k].fields["season"]
  }

  /** A new game adds its season to the distinct seasons, and nothing else. */
  lemma SeasonsAfterInsert(docs: seq<Game>, newId: Oid, data: map<string, Value>)
    ensures Seasons(docs + [Game(newId, ScheduleData(data))]) == Seasons(docs) + {ScheduleData(data)["season"]}
  {
    var r := docs + [Game(newId, ScheduleData(data))];
    forall v | v in Seasons(r) ensures v in Seasons(docs) + {ScheduleData(data)["season"]} {
      var k :| 0 <= k < |r| && "season" in r[k].fields && r[k].fields["season"] == v;
      if k < |docs| {
        assert r[k] == docs[k];
      }
    }
    forall v | v in Seasons(docs) ensures v in Seasons(r) {
      var k :| 0 <= k < |docs| && "season" in docs[k].fields && docs[k].fields["season"] == v;
      assert r[k] == docs[k];
    }
    assert r[|docs|].fields["season"] == ScheduleData(data)["season"];
  }

  /** `{"season": season}`: with no `season` argument the query asks for
      null, which a missing field also matches. */
  predicate InSeason(g: Game, season: Option<string>) {
    if season.None? then "season" !in g.fields || g.fields["season"] == Null
    else "season" in g.fields && g.fields["season"] == Str(season.value)
  }

  function DateKey(g: Game): Value { Get(g.fields, "date") }

  /** `find({"season": season}).sort("date", 1)` */
  function SeasonGames(docs: seq<Game>, season: Option<string>): seq<Game> {
    SortBy(Filter(docs, (g: Game) => InSeason(g, season)), DateKey, false)
  }

  /** A game as listed: its id as text and its fields. */
  datatype GameView = GameView(id: string, fields: map<string, Value>)

  function ViewOf(g: Game): GameView { GameView(OidText(g.id), g.fields) }

  /** `get_schedules` with the `season` argument. */
  method GetSchedules(docs: seq<Game>, season: Option<string>) returns (r: seq<GameView>)
    ensures r == Map(SeasonGames(docs, season), ViewOf)
  {
    var games := SeasonGames(docs, season);
    r := [];
    var k := 0;
    while k < |games|
      invariant 0 <= k <= |games|
      invariant r == Map(games[..k], ViewOf)
    {
      MapPrefixStep(games, k, ViewOf);
      r := r + [ViewOf(games[k])];
      k := k + 1;
    }
    assert games[..k] == games;
  }

  /** The listing is exactly the season's games, each once per copy, in
      ascending date order. */
  lemma SeasonGamesCorrect(docs: seq<Game>, season: Option<string>)
    ensures multiset(SeasonGames(docs, season)) == multiset(Filter(docs, (g: Game) => InSeason(g, season)))
    ensures SortedBy(SeasonGames(docs, season), DateKey, false)
    ensures forall g :: g in SeasonGames(docs, season) <==> g in docs && InSeason(g, season)
  {
    var mine := Filter(docs, (g: Game) => InSeason(g, season));
    FilterMembers(docs, (g: Game) => InSeason(g, season));
    SortByCorrect(mine, DateKey, false);
    forall g ensures g in SeasonGames(docs, season) <==> g in mine {
      assert g in SeasonGames(docs, season) <==> g in multiset(SeasonGames(docs, season));
    }
  }

  // ---------------------------------------------------------------------
  // Deleting

  /** `delete_one({"_id": id})`: the first game with the id goes. */
  function DeleteGame(docs: seq<Game>, id: Oid): (r: seq<Game>)
    ensures FindGame(docs, id).None? ==> r == docs
    ensures FindGame(docs, id).Some? ==>
              var k := FindGame(docs, id).value;
              && |r| == |docs| - 1
              && multiset(r) == multiset(docs) - multiset{docs[k]}
              && forall j :: 0 <= j < |r| ==> r[j] == if j < k then docs[j] else docs[j + 1]
  {
    var k := FindGame(docs, id);
    if k.None? then docs else RemoveAt(docs, k.value)
  }

  /** `delete_schedule`. A missing or null `_id` becomes `ObjectId()`, a new
      id no game has, so nothing is deleted; an `_id` that is not an
      ObjectId is a 500; otherwise the first game with that id goes. */
  method DeleteSchedule(schedules: Collection<Game>, data: map<string, Value>) returns (status: int)
    modifies schedules
    ensures var id := Get(data, "_id");
            if id == Null then status == 200 && schedules.docs == old(schedules.docs)
            else if IdArg(id).None? then status == 500 && schedules.docs == old(schedules.docs)
            else status == 200 && schedules.docs == DeleteGame(old(schedules.docs), IdArg(id).value)
  {
    var scheduleId := Get(data, "_id");
    if scheduleId == Null {
      return 200;
    }
    var id := IdArg(scheduleId);
    if id.None? {
      return 500;
    }
    schedules.docs := DeleteGame(schedules.docs, id.value);
    return 200;
  }

  /** Only a game with the given id is deleted: every game with another id
      keeps all its copies. */
  lemma DeleteOnlyThatGame(docs: seq<Game>, id: Oid, g: Game)
    requires g.id != id
    ensures multiset(DeleteGame(docs, id))[g] == multiset(docs)[g]
  {
  }
}

=== FILE: stats.dfy ===
/** The administrator's season statistics (routes/admin/stats_routes.py):
    writing one season's averages and totals, and listing every season. */
module Stats {
  import opened Python
  import opened Bson
  import opened Store

  /** The per-game averages a record keeps. */
  const AVERAGE_KEYS: seq<string> :=
    ["G", "MPG", "2P%", "3P%", "FT", "OFF", "DEF", "TOT", "APG", "SPG", "BPG", "TO", "PF", "PPG"]

  /** The season totals a record keeps. */
  const TOTAL_KEYS: seq<string> :=
    ["MIN", "FGM-A", "3PM-A", "FTM-A", "OFF", "DEF", "TOT", "AST", "STL", "BLK", "TO", "PF", "PTS"]

  /** A document of `admin_stats`. */
  datatype Record = Record(id: Oid, season: Value, average: map<string, Value>, total: map<string, Value>)

  /** The request body: `season` (null when missing), and the `average` and
      `total` objects (`None` when missing). */
  datatype Request = Request(season: Value, average: Option<map<string, Value>>, total: Option<map<string, Value>>)

  /** `{key: src[key] for key in keys}` written out key by key: a missing key
      raises KeyError (`None`). */
  function Pick(src: map<string, Value>, keys: seq<string>): (r: Option<map<string, Value>>)
    ensures r.Some? <==> forall k :: 0 <= k < |keys| ==> keys[k] in src
    ensures r.Some? ==> r.value.Keys == KeySet(keys)
    ensures r.Some? ==> forall key :: key in r.value ==> key in src && r.value[key] == src[key]
  {
    if keys == [] then Some(map[])
    else
      var front := Pick(src, keys[..|keys| - 1]);
      var key := keys[|keys| - 1];
      if front.None? || key !in src then None
      else
        assert forall k :: 0 <= k < |keys| - 1 ==> keys[..|keys| - 1][k] == keys[k];
        Some(front.value[key := src[key]])
  }

  /** The set of a list of keys. */
  function KeySet(keys: seq<string>): set<string> {
    set k | 0 <= k < |keys| :: keys[k]
  }

  /** `stats_data`: the season and exactly the listed averages and totals,
      or `None` (KeyError or TypeError, a 500) when a part or a key is
      missing. */
  function StatsData(req: Request): (r: Option<(map<string, Value>, map<string, Value>)>)
    ensures r.Some? <==> req.average.Some? && req.total.Some?
                         && (forall k :: 0 <= k < |AVERAGE_KEYS| ==> AVERAGE_KEYS[k] in req.average.value)
                         && (forall k :: 0 <= k < |TOTAL_KEYS| ==> TOTAL_KEYS[k] in req.total.value)
    ensures r.Some? ==> r.value.0.Keys == KeySet(AVERAGE_KEYS) && r.value.1.Keys == KeySet(TOTAL_KEYS)
    ensures r.Some? ==> (forall key :: key in r.value.0 ==> r.value.0[key] == req.average.value[key])
                        && (forall key :: key in r.value.1 ==> r.value.1[key] == req.total.value[key])
  {
    if req.average.None? || req.total.None? then None
    else
      var average := Pick(req.average.value, AVERAGE_KEYS);
      var total := Pick(req.total.value, TOTAL_KEYS);
      if average.None? || total.None? then None
      else Some((average.value, total.value))
  }

  /** A list of pairwise different keys has as many keys as entries. */
  lemma {:induction false} DistinctKeys(keys: seq<string>)
    requires forall i, j :: 0 <= i < j < |keys| ==> keys[i] != keys[j]
    ensures |KeySet(keys)| == |keys|
  {
    if keys != [] {
      var front := keys[..|keys| - 1];
      DistinctKeys(front);
      assert KeySet(keys) == KeySet(front) + {keys[|keys| - 1]} by {
        forall x | x in KeySet(keys) ensures x in KeySet(front) + {keys[|keys| - 1]} {
          var k :| 0 <= k < |keys| && keys[k] == x;
          if k < |keys| - 1 { assert front[k] == x; }
        }
      }
      assert keys[|keys| - 1] !in KeySet(front);
    }
  }

  /** A record keeps 14 averages and 13 totals. */
  lemma KeyCounts()
    ensures |KeySet(AVERAGE_KEYS)| == 14 && |KeySet(TOTAL_KEYS)| == 13
  {
    DistinctKeys(AVERAGE_KEYS);
    DistinctKeys(TOTAL_KEYS);
  }

  /** `find_one({"season": season})` */
  function FindSeason(docs: seq<Record>, season: Value): Option<nat> {
    FindFirst(docs, (r: Record) => r.season == season)
  }

  /** `create_update_stats`: `update_one({"season": season}, {"$set":
      stats_data}, upsert=True)`. The first record of the season gets the
      new averages and totals; without one a record is inserted under the
      fresh id `newId`. A missing part or key is a 500 that writes nothing. */
  method CreateUpdateStats(stats: Collection<Record>, req: Request, newId: Oid) returns (status: int)
    modifies stats
    ensures StatsData(req).None? ==> status == 500 && stats.docs == old(stats.docs)
    ensures StatsData(req).Some? ==>
              var (average, total) := StatsData(req).value;
              var k := FindSeason(old(stats.docs), req.season);
              && status == 200
              && stats.docs == if k.Some?
                               then old(stats.docs)[k.value := old(stats.docs)[k.value].(average := average, total := total)]
                               else old(stats.docs) + [Record(newId, req.season, average, total)]
  {
    var data := StatsData(req);
    if data.None? {
      return 500;
    }
    var (average, total) := data.value;
    var k := FindSeason(stats.docs, req.season);
    if k.Some? {
      stats.docs := stats.docs[k.value := stats.docs[k.value].(average := average, total := total)];
    } else {
      stats.docs := stats.docs + [Record(newId, req.season, average, total)];
    }
    return 200;
  }

  /** No two records share a season. */
  predicate UniqueSeasons(docs: seq<Record>) {
    forall i, j :: 0 <= i < j < |docs| ==> docs[i].season != docs[j].season
  }

  /** The upsert keeps one record per season: afterwards the season has
      exactly the new averages and totals, every other record is as it was,
      and seasons stay unique. */
  lemma UpsertBySeason(docs: seq<Record>, season: Value, average: map<string, Value>,
                       total: map<string, Value>, newId: Oid)
    requires UniqueSeasons(docs)
    ensures var k := FindSeason(docs, season);
            var r := if k.Some? then docs[k.value := docs[k.value].(average := average, total := total)]
                     else docs + [Record(newId, season, average, total)];
            && UniqueSeasons(r)
            && FindSeason(r, season).Some?
            && r[FindSeason(r, season).value].average == average
            && r[FindSeason(r, season).value].total == total
            && forall j :: 0 <= j < |docs| && docs[j].season != season ==> r[j] == docs[j]
  {
    var k := FindSeason(docs, season);
    if k.None? {
      var r := docs + [Record(newId, season, average, total)];
      assert r[|docs|].season == season;
      assert forall j :: 0 <= j < |docs| ==> r[j] == docs[j];
    } else {
      var r := docs[k.value := docs[k.value].(average := average, total := total)];
      assert r[k.value].season == season;
      assert forall j :: 0 <= j < |docs| && j != k.value ==> r[j] == docs[j];
    }
  }

  function SeasonKey(r: Record): Value { r.season }

  /** A record as listed: its id as text and its fields. */
  datatype RecordView = RecordView(id: string, season: Value, average: map<string, Value>, total: map<string, Value>)

  function ViewOf(r: Record): RecordView { RecordView(OidText(r.id), r.season, r.average, r.total) }

  /** `get_stats`: every record, latest season first. */
  method GetStats(docs: seq<Record>) returns (r: seq<RecordView>)
    ensures r == Map(SortBy(docs, SeasonKey, true), ViewOf)
  {
    var sorted := SortBy(docs, SeasonKey, true);
    r := [];
    var k := 0;
    while k < |sorted|
      invariant 0 <= k <= |sorted|
      invariant r == Map(sorted[..k], ViewOf)
    {
      MapPrefixStep(sorted, k, ViewOf);
      r := r + [ViewOf(sorted[k])];
      k := k + 1;
    }
    assert sorted[..k] == sorted;
  }

  /** The listing holds every record once per copy, seasons descending. */
  lemma StatsListing(docs: seq<Record>)
    ensures multiset(SortBy(docs, SeasonKey, true)) == multiset(docs)
    ensures forall i, j :: 0 <= i < j < |docs| ==>
              ValueLe(SortBy(docs, SeasonKey, true)[j].season, SortBy(docs, SeasonKey, true)[i].season)
  {
    SortByCorrect(docs, SeasonKey, true);
  }
}

=== FILE: store.dfy ===
/** The two kinds of storage every handler works against: a document
    collection (a MongoDB collection in its natural order) and a GridFS
    bucket, seen as the set of ObjectIds of the files it holds; and the
    uploaded files of a request. */
module Store {
  import opened Python
  import opened Bson

  /** A collection; its documents are updated in place by the handlers. */
  class Collection<T> {
    var docs: seq<T>

    constructor (initial: seq<T>)
      ensures docs == initial
    {
      docs := initial;
    }
  }

  /** A GridFS bucket: `put` adds a file under a fresh ObjectId, `delete`
      removes one (deleting an absent id is not an error), `get` and
      `exists` look one up. File contents are left abstract. */
  class BlobStore {
    var ids: set<Oid>

    constructor (initial: set<Oid>)
      ensures ids == initial
    {
      ids := initial;
    }
  }

  /** An uploaded file of a multipart request. */
  datatype Upload = Upload(filename: string)

  /** `if photo:` on `request.files.get(...)`: a missing file is None and a
      file part is truthy only when it carries a filename. */
  predicate Uploaded(f: Option<Upload>) {
    f.Some? && f.value.filename != ""
  }

  /** `ids` holds no repetition and none of them is already in `taken`: what
      ObjectId generation guarantees for a batch of new files. */
  predicate FreshIds(ids: seq<Oid>, taken: set<Oid>) {
    (forall k :: 0 <= k < |ids| ==> ids[k] !in taken)
    && (forall i, j :: 0 <= i < j < |ids| ==> ids[i] != ids[j])
  }

  /** The ids of a list, as a set. */
  function IdSet(ids: seq<Oid>): set<Oid> {
    set k | 0 <= k < |ids| :: ids[k]
  }

  lemma IdSetPush(ids: seq<Oid>, x: Oid)
    ensures IdSet(ids + [x]) == IdSet(ids) + {x}
  {
    assert forall k :: 0 <= k < |ids| ==> (ids + [x])[k] == ids[k];
    assert (ids + [x])[|ids|] == x;
  }

  lemma IdSetPrefix(ids: seq<Oid>, k: nat)
    requires k < |ids|
    ensures IdSet(ids[..k + 1]) == IdSet(ids[..k]) + {ids[k]}
  {
    assert ids[..k + 1] == ids[..k] + [ids[k]];
    IdSetPush(ids[..k], ids[k]);
  }

  /** The texts `str(oid)` of a list of ObjectIds. */
  function OidTexts(ids: seq<Oid>): (r: seq<string>)
    ensures |r| == |ids|
    ensures forall k :: 0 <= k < |ids| ==> r[k] == OidText(ids[k])
  {
    if ids == [] then [] else [OidText(ids[0])] + OidTexts(ids[1..])
  }

  lemma OidTextsPush(ids: seq<Oid>, x: Oid)
    ensures OidTexts(ids + [x]) == OidTexts(ids) + [OidText(x)]
  {
  }

  /** Storing the files of a multi-file upload, in upload order: each gets
      the next of the fresh ids `newIds`; the texts of those ids come back
      in the same order. */
  method PutAll(store: BlobStore, newIds: seq<Oid>) returns (texts: seq<string>)
    requires FreshIds(newIds, store.ids)
    modifies store
    ensures store.ids == old(store.ids) + IdSet(newIds)
    ensures texts == OidTexts(newIds)
  {
    texts := [];
    var k := 0;
    while k < |newIds|
      invariant 0 <= k <= |newIds|
      invariant texts == OidTexts(newIds[..k])
      invariant store.ids == old(store.ids) + IdSet(newIds[..k])
    {
      assert newIds[..k + 1] == newIds[..k] + [newIds[k]];
      IdSetPush(newIds[..k], newIds[k]);
      OidTextsPush(newIds[..k], newIds[k]);
      store.ids := store.ids + {newIds[k]};
      texts := texts + [OidText(newIds[k])];
      k := k + 1;
    }
    assert newIds[..k] == newIds;
  }

  /** The position of the document `find_one(filter)` returns: the first
      one, in natural order, that the filter accepts. */
  function FindFirst<T>(docs: seq<T>, p: T -> bool): (r: Option<nat>)
    ensures r.None? <==> forall k :: 0 <= k < |docs| ==> !p(docs[k])
    ensures r.Some? ==> r.value < |docs| && p(docs[r.value])
    ensures r.Some? ==> forall j :: 0 <= j < r.value ==> !p(docs[j])
  {
    if docs == [] then None
    else if p(docs[0]) then Some(0)
    else
      var r := FindFirst(docs[1..], p);
      if r.Some? then Some(r.value + 1) else None
  }

  /** The documents without the one at position `k`: what `delete_one`
      leaves once it has found its document. */
  function RemoveAt<T>(docs: seq<T>, k: nat): (r: seq<T>)
    requires k < |docs|
    ensures |r| == |docs| - 1
    ensures forall j :: 0 <= j < |r| ==> r[j] == if j < k then docs[j] else docs[j + 1]
    ensures multiset(r) == multiset(docs) - multiset{docs[k]}
  {
    var front, back := docs[..k], docs[k + 1..];
    assert docs == front + [docs[k]] + back;
    assert multiset(docs) == multiset(front) + multiset{docs[k]} + multiset(back);
    front + back
  }
}

=== FILE: user.dfy ===
/** The signed-in user's profile (routes/user_routes.py): updating the
    description and the photo, and reading the profile back. The caller's
    nickname is the identity of the verified token. */
module UserProfile {
  import opened Python
  import opened Bson
  import opened Store
  import opened Auth

  const PHOTO_ROUTE: string := "/api/photo/"
  const JPEG_DATA_URL: string := "data:image/jpeg;base64,"

  /** The reference stored in a user's `photo` field for the blob `id`. */
  function PhotoRef(id: Oid): string {
    PHOTO_ROUTE + OidText(id)
  }

  /** `ObjectId(ref.split('/')[-1])` on a truthy stored reference; `None`
      when the field is missing or empty, or the last segment is not an
      ObjectId. */
  function StoredPhotoId(ref: Option<string>): Option<Oid> {
    if ref.None? || ref.value == "" then None else ParseOid(LastSegment(ref.value))
  }

  /** Reading back a reference that the update stored gives the blob id it
      was made from. */
  lemma {:induction false} PhotoRefRoundTrip(id: Oid)
    ensures StoredPhotoId(Some(PhotoRef(id))) == Some(id)
  {
    LastSegmentOfPath(PHOTO_ROUTE, OidText(id));
    OidRoundTrip(id);
  }

  /** The `update_data` dict: each key is present only when set. */
  datatype UpdateSet = UpdateSet(description: Option<string>, photo: Option<string>)

  /** `update_data` for a request with the form's `description` and the
      uploaded `photo`; `newId` is the id of the stored upload. */
  function UpdateSetFor(description: Option<string>, photo: Option<Upload>, newId: Oid): (u: UpdateSet)
    ensures u.description.Some? <==> TruthyText(description)
    ensures u.description.Some? ==> u.description == description
    ensures u.photo.Some? <==> Uploaded(photo)
    ensures u.photo.Some? ==> StoredPhotoId(u.photo) == Some(newId)
  {
    PhotoRefRoundTrip(newId);
    UpdateSet(if TruthyText(description) then description else None,
              if Uploaded(photo) then Some(PhotoRef(newId)) else None)
  }

  /** `$set` of an update set on one user. */
  function Apply(user: User, u: UpdateSet): User {
    user.(description := if u.description.Some? then u.description else user.description,
          photo := if u.photo.Some? then u.photo else user.photo)
  }

  /** `modified_count` is 1: some field of the update set differs from the
      stored one. */
  predicate Changes(user: User, u: UpdateSet) {
    Apply(user, u) != user
  }

  /** `update_profile`. 404 for an unknown caller; 400 when neither a
      truthy description nor a photo came; otherwise the old photo blob is
      deleted when its reference reads back as an id (a failure there is
      only logged), the upload is stored under `newId`, and the update set
      is applied. An update that modifies nothing answers 500, after the
      blob changes; success returns the update set. */
  method UpdateProfile(users: Collection<User>, fsUser: BlobStore, nickname: string,
                       description: Option<string>, photo: Option<Upload>, newId: Oid)
    returns (status: int, result: Option<UpdateSet>)
    requires newId !in fsUser.ids
    modifies users, fsUser
    ensures FindUser(old(users.docs), Some(nickname)).None? ==>
              status == 404 && result.None?
              && users.docs == old(users.docs) && fsUser.ids == old(fsUser.ids)
    ensures FindUser(old(users.docs), Some(nickname)).Some? && !TruthyText(description) && !Uploaded(photo) ==>
              status == 400 && result.None?
              && users.docs == old(users.docs) && fsUser.ids == old(fsUser.ids)
    ensures FindUser(old(users.docs), Some(nickname)).Some? && (TruthyText(description) || Uploaded(photo)) ==>
              var k := FindUser(old(users.docs), Some(nickname)).value;
              var user := old(users.docs)[k];
              var u := UpdateSetFor(description, photo, newId);
              && users.docs == old(users.docs)[k := Apply(user, u)]
              && fsUser.ids == (if !Uploaded(photo) then old(fsUser.ids)
                                else if StoredPhotoId(user.photo).Some?
                                then old(fsUser.ids) - {StoredPhotoId(user.photo).value} + {newId}
                                else old(fsUser.ids) + {newId})
              && (status == 200 <==> Changes(user, u))
              && (status == 200 ==> result == Some(u))
              && (status != 200 ==> status == 500 && result.None?)
              && (Uploaded(photo) && StoredPhotoId(user.photo) != Some(newId) ==> status == 200)
  {
    var k := FindUser(users.docs, Some(nickname));
    if k.None? {
      return 404, None;
    }
    var user := users.docs[k.value];
    if !TruthyText(description) && !Uploaded(photo) {
      return 400, None;
    }
    var u := UpdateSetFor(description, photo, newId);
    if Uploaded(photo) {
      var previous := StoredPhotoId(user.photo);
      if previous.Some? {
        fsUser.ids := fsUser.ids - {previous.value};
      }
      fsUser.ids := fsUser.ids + {newId};
    }
    var updated := Apply(user, u);
    users.docs := users.docs[k.value := updated];
    if updated == user {
      return 500, None;
    }
    return 200, Some(u);
  }

  /** What `get_user_info` returns. */
  datatype UserInfo = UserInfo(nickname: string, description: string, photoUrl: string)

  /** `get_user_info`: `None` is the 404 answer. The description defaults
      to ""; the photo is the re-encoded JPEG of the referenced blob, or ""
      when there is no reference, it does not read back as an id, the blob
      is missing or the image cannot be converted (`reencode` gives `None`). */
  function GetUserInfo(docs: seq<User>, fsUser: set<Oid>, nickname: string,
                       reencode: Oid -> Option<string>): (r: Option<UserInfo>)
    ensures r.None? <==> forall k :: 0 <= k < |docs| ==> docs[k].nickname != Some(nickname)
    ensures r.Some? ==> var user := docs[FindUser(docs, Some(nickname)).value];
              && r.value.nickname == (if user.nickname.Some? then user.nickname.value else "")
              && r.value.description == (if user.description.Some? then user.description.value else "")
              && (r.value.photoUrl != "" <==>
                    StoredPhotoId(user.photo).Some? && StoredPhotoId(user.photo).value in fsUser
                    && reencode(StoredPhotoId(user.photo).value).Some?)
              && (r.value.photoUrl != "" ==>
                    r.value.photoUrl == JPEG_DATA_URL + reencode(StoredPhotoId(user.photo).value).value)
  {
    var k := FindUser(docs, Some(nickname));
    if k.None? then None
    else
      var user := docs[k.value];
      var id := StoredPhotoId(user.photo);
      var url := if id.Some? && id.value in fsUser && reencode(id.value).Some?
                 then JPEG_DATA_URL + reencode(id.value).value else "";
      Some(UserInfo(if user.nickname.Some? then user.nickname.value else "",
                    if user.description.Some? then user.description.value else "",
                    url))
  }
}
